=== FILE: README.md ===
# vkt in Dafny

A model of the core of `vkt`, a thin C++ layer over Vulkan, and of the
`vkx`/`vkext` asset code and the sample application built on it. Every
native Vulkan call is an opaque value. A handle is a natural number, with 0
as `VK_NULL_HANDLE`. A call the driver answers is a parameter (`VkResult`, the
handle it writes). A native array is a `(count, pointer)` pair (`Vk.NativeArray`).
`Vk.Read` says what the driver would read from such a pair, so each
marshaling function states its result as a round trip through `Read`.

Modules follow the source files:

- `Utils`: `mapV`, `find_max`, `Callback`, `VK_CHECK`, plus the pair-splitting and `std::set` idioms.
- `Handles`: the owned-handle pattern (destroy/move-assign) shared by every resource wrapper, with the per-file deviations in `PolicyOf`. A world of wrappers driven by arbitrary C++ operations releases each created handle exactly once.
- `Buffer`, `Image`, `Sampler`, `ShaderModule`, `PipelineLayout`, `DescriptorSetLayout`, `DescriptorPool`, `CommandPool`, `RenderPass`, `Framebuffer`, `GraphicsPipeline`, `Device`, `Queue`, `Instance`: the wrappers' constructors (the create-info they marshal), move-assignment and `destroy`.
- `DeviceMemory`: allocation, clamped `map`, and unmap on the last release of a mapping.
- `CommandBuffer`: the command buffer and its recording and render-pass scopes as a trace of native calls, checked by an automaton.
- `AutoDescriptorPool`: the self-growing descriptor-set allocator.
- `Selection`: the choices the sample application makes in `main.cc`.
- `ExtModel`, `VkModel`, `StbImage`, `Stuff`: model import, upload and the texture cache; decoded-image ownership and size.
- `Align`: `vkalign`/`VK_ALIGN`, compared with the standard uniform block layout of section 7.6.2.2 of the OpenGL 4.6 core specification.

Points worth noting about the code, which the model follows:

- `DeviceMemory::map` is a plain per-call mapping. It clamps the size and does not check the offset. There is no shared or idempotent mapping.
- The headers of `CommandBuffer`, `DeviceMemory` (`map`/`unmapMemory`) and `Queue` declare members that differ from the definitions. So do `shader_module.h`, `pipeline_layout.h`, `descriptor_set_layout.h` and `command_pool.h`: each declares a `Handle<...>` member and no move or `destroy`, while its `.cc` file defines explicit move-construction, move-assignment and `destroy` on a raw handle. The model follows the `.cc` definitions.
- The matrix specialisation of `vkalign` declares its dimensions `std::size_t`, while glm's `mat` takes `int` dimensions, so it never matches and a matrix falls back to `sizeof(T)` (see Findings). Even the intended vec4 alignment would not be enough: it leaves out the standard's column padding, so a mat3 (36 bytes in C++, 48 in a uniform block) shifts every later member. The structs the sample passes to its shaders use only vec3, int and mat4 members, where the layouts agree.
- `AutoDescriptorPool` gives each new pool one set's descriptor totals as its pool sizes, although the pool is meant for `maxSets` sets, so the driver may refuse a later allocation from it. The model keeps these totals unscaled and lets every native call fail.
- `image.cc` passes `.data()` of the `std::set` declared at `image.h` line 17, which `std::set` does not have. The model reads it as a contiguous copy of the set in ascending order.

## Model

| member | source | states |
|---|---|---|
| Utils.MapV | include/vkt/utils.h:74-81 | the output has the input's length, and element i is f applied to input element i |
| Utils.FindMax | include/vkt/utils.h:92-104 | on a non-empty range, returns an index whose key is maximal and strictly greater than every earlier key, i.e. the first maximum |
| Utils.Callback.Assign | include/vkt/utils.h:44-49 | after assignment, calling the callback calls the new function, whatever it held before |
| Utils.EmptyCallbackReturnsValueInit | include/vkt/utils.h:51-61 | an empty callback returns the value-initialised result |
| Utils.VkCheck | include/vkt/utils.h:85-90 | fails if and only if the result is not VK_SUCCESS, naming the failed call |
| Utils.UnzipZip | src/vkt/queue.cc:27-32 | splitting pairs into two parallel arrays loses nothing: zipping them back gives the input |
| Utils.SetFromList | src/main.cc:218-222 | building a `std::set` gives a strictly ascending list with exactly the input's elements |
| Utils.SetFromListCard | src/vkt/image.cc:20-21 | the set's size is the number of distinct inputs |
| Vk.FromVector | src/vkt/buffer.cc:14-15 | passing `(size(), data())` lets the driver read back exactly the vector; the pointer is null iff the vector is empty |
| Handles.Destroy | src/vkt/buffer.cc:36-40 | releases exactly the non-null handle, through the wrapper's parent, at most one call; nulls the handle unless the wrapper is a Sampler |
| Handles.DestroyTwiceIsDestroyOnce | src/vkt/pipeline.cc:22-26 | for every nulling wrapper a second destroy changes nothing and calls nothing |
| Handles.SamplerDestroyTwiceRepeatsTheCall | src/vkt/sampler.cc:33-36 | a Sampler's second destroy repeats the native destroy of the same handle |
| Handles.MoveAssign | src/vkt/pipeline.cc:10-16 | the target first releases its own handle, then equals the source; the source is left null, with its parent moved out or (Buffer) kept |
| Handles.StepKeepsInv | src/vkt/render_pass.cc:41-57 | any constructor, move, destroy or destructor keeps every live handle owned by exactly one wrapper and never released twice |
| Handles.EveryHandleReleasedOnce | src/vkt/command_pool.cc:17-37 | once every wrapper object is gone, each handle the driver created was released by exactly one native call |
| Buffer.Create | src/vkt/buffer.cc:3-18 | succeeds iff the driver does; the create-info carries size, usage and sharing mode, and the driver reads exactly the family list |
| Buffer.MoveCopiesDevice | src/vkt/buffer.cc:24-30 | move-assignment leaves the source with its device and a null handle, so destroying it calls nothing |
| Image.NativeInfo | src/vkt/image.cc:7-23 | the count is the family set's size (line 20); the pointer, a `.data()` call that `std::set` lacks (line 21), is read as a contiguous copy of the set: ascending, exactly the requested families |
| Image.Create | src/vkt/image.cc:3-26 | succeeds iff the driver does, owning the new handle under the device; the driver gets the caller's fields and exactly the distinct requested families |
| Image.SameFamilyTwiceIsOneEntry | src/vkt/image.cc:20-21 | one family requested twice is one set member, so the count passed is 1 |
| Image.MoveThenDestroyReleasesOnce | src/vkt/image.cc:32-48 | after a move the source destroys nothing and the target releases exactly the moved handle |
| Sampler.Normalize | src/vkt/sampler.cc:7-8 | the caller's structure type and extension chain are overwritten; every setting is kept |
| Sampler.HeaderIsIgnored | src/vkt/sampler.cc:7-8 | create-infos that differ only in their header give the same native call |
| Sampler.Create | src/vkt/sampler.cc:3-11 | succeeds iff the driver does, passing the normalised create-info |
| Sampler.DestroyDoesNotNull | src/vkt/sampler.cc:17-23 | destroy leaves the handle set, so move-assigning into a destroyed sampler releases the same handle again |
| ShaderModule.Create | src/vkt/shader_module.cc:3-15 | the code size is the byte length of the code and the driver reads the code back |
| ShaderModule.MoveThenDestroyReleasesOnce | src/vkt/shader_module.cc:21-37 | after a move the source destroys nothing and the target releases exactly the moved handle |
| PipelineLayout.Create | src/vkt/pipeline_layout.cc:3-17 | set-layout and push-constant arrays have the input's lengths and read back as the inputs |
| PipelineLayout.MoveThenDestroyReleasesOnce | src/vkt/pipeline_layout.cc:23-39 | after a move the source destroys nothing and the target releases exactly the moved handle |
| DescriptorSetLayout.Create | src/vkt/descriptor_set_layout.cc:3-17 | flags pass through; the bindings read back as given, with a count equal to their number |
| DescriptorSetLayout.MoveThenDestroyReleasesOnce | src/vkt/descriptor_set_layout.cc:23-40 | after a move the source destroys nothing and the target releases exactly the moved handle |
| DescriptorPool.Create | src/vkt/descriptor_pool.cc:3-17 | `maxSets` passes unchanged and the pool sizes read back as given |
| DescriptorPool.AllocateDescriptorSets | src/vkt/descriptor_pool.cc:45-60 | one set per requested layout, and the driver reads exactly the layouts from this pool |
| DescriptorPool.MoveAssignDestroysThenTakes | src/vkt/descriptor_pool.cc:23-29 | the target releases only its old pool, takes the source's, and the source is left unset |
| DescriptorPool.DestroyIsIdempotent | src/vkt/descriptor_pool.cc:31-39 | destroy nulls the handle, so the destructor after it calls nothing |
| CommandPool.Create | src/vkt/command_pool.cc:3-15 | flags and queue family pass through |
| CommandPool.MoveThenDestroyReleasesOnce | src/vkt/command_pool.cc:21-37 | after a move the source destroys nothing and the target releases exactly the moved handle |
| RenderPass.MapSubpass | src/vkt/render_pass.cc:7-20 | each attachment list reads back with its own count; the resolve list is null when empty and reads back when as long as the colour list |
| RenderPass.ShortResolveListIsOverread | src/vkt/render_pass.cc:14-16 | a resolve list shorter than the colour list cannot be read at the colour count |
| RenderPass.NativeInfo | src/vkt/render_pass.cc:22-31 | one native subpass per description, in order; attachment and dependency arrays read back as given |
| RenderPass.EveryDepthStencilIsNonNull | src/vkt/render_pass.cc:17 | every subpass passes a non-null depth-stencil pointer |
| RenderPass.Create | src/vkt/render_pass.cc:3-35 | succeeds iff the driver does; the driver reads back the attachments and dependencies as given and one subpass per description |
| RenderPass.MoveThenDestroyReleasesOnce | src/vkt/render_pass.cc:41-57 | after a move the source destroys nothing and the target releases exactly the moved handle |
| Framebuffer.ViewHandles | src/vkt/framebuffer.cc:9-12 | one native view per attachment, in order |
| Framebuffer.NativeInfo | src/vkt/framebuffer.cc:14-23 | the attachment array reads back as the views' handles; render pass, width, height and layers are copied |
| Framebuffer.Create | src/vkt/framebuffer.cc:3-27 | the framebuffer keeps its render pass and every attachment alive |
| Framebuffer.Destroy | src/vkt/framebuffer.cc:47-51 | releases exactly the non-null handle, nulls it and keeps the same objects alive |
| Framebuffer.MoveAssign | src/vkt/framebuffer.cc:33-41 | the target releases its own handle, then holds the source's handle, render pass and attachments; the source is left empty |
| Framebuffer.DestroyKeepsAttachmentsAlive | src/vkt/framebuffer.cc:6-7 | after destroy the render pass and each attachment are still kept alive |
| GraphicsPipeline.Adopt | src/vkt/pipeline.cc:3-4 | the wrapper owns the given handle under the given device, and destroying it releases that handle |
| GraphicsPipeline.MoveThenDestroyReleasesOnce | src/vkt/pipeline.cc:10-26 | after a move the source destroys nothing and the target releases exactly the moved handle |
| GraphicsPipeline.MapStage | src/vkt/graphics_pipeline.cc:12-33 | the specialization pointer is null iff the stage has no specialization, otherwise it points at its entries, size and data |
| GraphicsPipeline.Resolve | src/vkt/graphics_pipeline.cc:57-79 | a count gives that count and a null pointer; a list gives its length and reads back as the list |
| GraphicsPipeline.SampleMaskPtr | src/vkt/graphics_pipeline.cc:108-110 | the sample-mask pointer is null iff no mask is given |
| GraphicsPipeline.NativeInfo | src/vkt/graphics_pipeline.cc:159-178 | one stage per shader stage in order; no tessellation state, no base pipeline (index -1) |
| GraphicsPipeline.Create | src/vkt/graphics_pipeline.cc:3-8 | exactly one pipeline is created, and the pipeline keeps its layout and render pass alive |
| GraphicsPipeline.SpecializationFollowsTheStage | src/vkt/graphics_pipeline.cc:15-23 | stage i gets a specialization pointer iff shader stage i has specialization info |
| GraphicsPipeline.ViewportVariantRoundTrip | src/vkt/graphics_pipeline.cc:57-79 | a viewport or scissor list passed as a vector reads back unchanged |
| Device.MapQueue | src/vkt/device.cc:9-19 | the queue count is the number of priorities and the priorities read back as given |
| Device.NativeInfo | src/vkt/device.cc:21-34 | one queue info per request, and layers and extensions read back as given |
| Device.Create | src/vkt/device.cc:5-40 | succeeds iff the driver does, owning the device under the loader |
| Device.Adopt | src/vkt/device.cc:3 | an adopted device has the handle and no loader |
| Device.AdoptedDeviceLacksLoader | src/vkt/device.cc:42-46 | an adopted non-null device violates the destructor's need for a loader, while a created one is destroyed once through it |
| Queue.Create | src/vkt/queue.cc:3-9 | the getters return the constructor's family and queue index |
| Queue.MoveAssign | src/vkt/queue.cc:15-20 | the device and handle move and the source's handle is nulled; the indices are not transferred |
| Queue.MoveDropsIndices | src/vkt/queue.cc:15-20 | after a move the target still reports its own family, not the source's |
| Queue.Submit | src/vkt/queue.cc:26-46 | succeeds iff the driver does; the wait semaphores and stages zip back to the input pairs |
| Queue.NativeSubmit | src/vkt/queue.cc:27-43 | parallel arrays of the input's length, which zip back to the input pairs |
| Queue.Present | src/vkt/queue.cc:48-68 | returns the driver's result as-is; swapchains and indices zip back to the input pairs |
| Queue.Wait | src/vkt/queue.cc:70-72 | fails iff the driver's wait fails |
| Queue.PresentReturnsWhatSubmitRejects | src/vkt/queue.cc:45-71 | on an error `submit` and `wait` fail while `present` hands the error back |
| Instance.Decode | src/vkt/instance.cc:4-6 | the extraction macros give a version whose fields fit their bit ranges |
| Instance.DecodeEncode | src/vkt/instance.cc:4-6 | an in-range version packs and decodes back to itself |
| Instance.EncodeDecode | src/vkt/instance.cc:4-6 | every 32-bit value is the packing of its decoding |
| Instance.EncodeInjective | src/vkt/instance.cc:4-6 | distinct in-range versions pack differently |
| Instance.OutOfRangeFieldsOverlap | src/vkt/instance.cc:4-6 | fields are not masked: patch 4096 packs like minor 1 |
| Instance.EnabledExtensions | src/vkt/instance.cc:14-35 | without debug the list is unchanged; with debug the debug extension is present, the original order is a prefix, and it grows iff the extension was absent |
| Instance.DebugExtensionNotDuplicated | src/vkt/instance.cc:32-34 | with debug the debug extension occurs exactly once if it occurred at most once |
| Instance.EnabledExtensionsIdempotent | src/vkt/instance.cc:32-34 | building the list from its own output changes nothing |
| Instance.CreateInfoAsWritten | src/vkt/instance.cc:49-57 | the create-info passes the enabled extensions, layers and encoded versions, and chains nothing |
| Instance.DebugMessengerIsNotChained | src/vkt/instance.cc:30 | with debug info given, the messenger info built at line 30 is not in the chain |
| Instance.CreateInfo | src/vkt/instance.cc:15-30 | the corrected create-info chains the messenger info exactly when debug info is given |
| Instance.Create | src/vkt/instance.cc:8-63 | as written: succeeds iff the driver does; owns the instance under the loader, passes the enabled extensions and layers, and chains nothing even when debug info is given |
| Instance.CreateCorrected | src/vkt/instance.cc:15-30 | corrected: the same outcome and the same create-info, except that the messenger info is chained exactly when debug info is given |
| Instance.DestructorDestroysOnce | src/vkt/instance.cc:65-69 | the destructor destroys a non-null instance through the loader exactly once and nulls it |
| Instance.ListPhysicalDevices | src/vkt/instance.cc:75-89 | succeeds iff both enumeration calls do, giving one device per handle, in order |
| DeviceMemory.Allocate | src/vkt/device_memory.cc:4-18 | records the requested size and owns the new handle under the device |
| DeviceMemory.Destroy | src/vkt/device_memory.cc:41-46 | frees exactly the non-null handle, then nulls it |
| DeviceMemory.DestroyTwiceFreesOnce | src/vkt/device_memory.cc:33-46 | the destructor after an explicit destroy frees nothing |
| DeviceMemory.MoveAssign | src/vkt/device_memory.cc:24-31 | frees the target's allocation first; the target takes the source's handle and size, and the source is left unset |
| DeviceMemory.MappedSize | src/vkt/device_memory.cc:51 | the mapped size is the smaller of the request and the allocation |
| DeviceMemory.Map | src/vkt/device_memory.cc:48-56 | each call issues its own native map at the given offset, never larger than the allocation |
| DeviceMemory.DefaultMapCoversAllocation | include/vkt/device_memory.h:26-27 | the default arguments map the whole allocation |
| DeviceMemory.MapOffsetIsNotChecked | src/vkt/device_memory.cc:51 | a 16-byte allocation mapped at offset 8 asks for 16 bytes |
| DeviceMemory.StepKeepsInv | src/vkt/device_memory.cc:58-60 | the deleter unmaps exactly once, when the last copy of a pointer goes, and never without a mapping |
| CommandBuffer.Allocate | src/vkt/command_buffer.cc:3-28 | allocates exactly one buffer of the level from the pool |
| CommandBuffer.Free | src/vkt/command_buffer.cc:19-25 | the finalizer frees that one buffer through the same pool |
| CommandBuffer.Reset | src/vkt/command_buffer.cc:34-36 | fails iff `vkResetCommandBuffer` does; on success emits one reset with the given flags |
| CommandBuffer.BeginRecording | src/vkt/command_buffer.cc:48-60 | emits exactly one begin with the given flags |
| CommandBuffer.EndIfUnowned | src/vkt/command_buffer.cc:62-64 | with no owner left, ends recording and fails iff `vkEndCommandBuffer` does (a throw out of the destructor); otherwise does nothing |
| CommandBuffer.ReleaseRecording | src/vkt/command_buffer.cc:62-64 | the last owner's release emits exactly one end and fails iff that end does; other releases emit nothing and cannot fail |
| CommandBuffer.BindDescriptorSets | src/vkt/command_buffer.cc:80-94 | the call carries the given bind point, layout and first set; without dynamic offsets count 0 and a null pointer, otherwise their length and data; the sets read back as given |
| CommandBuffer.BeginRenderPass | src/vkt/command_buffer.cc:130-150 | boundRefs starts as [render pass, recording, framebuffer] and one begin-render-pass is emitted |
| CommandBuffer.BindPipeline | src/vkt/command_buffer.cc:156-161 | appends the pipeline to boundRefs, then emits the graphics bind |
| CommandBuffer.BindVertexBuffers | src/vkt/command_buffer.cc:178-191 | buffers and offsets of the input's length and order at first binding 0; boundRefs unchanged |
| CommandBuffer.EndRenderPass | src/vkt/command_buffer.cc:152-154 | emits end-render-pass, then the recording's end if this scope held its last reference; fails iff that end does |
| CommandBuffer.StepKeepsInv | src/vkt/command_buffer.cc:130-161 | every operation only appends to the trace, keeps it accepted by the nesting automaton and only grows boundRefs |
| CommandBuffer.RunIsWellNested | src/vkt/command_buffer.cc:48-64 | any program that never resets or re-begins a buffer while a recording is alive, and opens one render pass at a time, leaves a trace of shape allocate (reset* begin (beginRP … endRP)* end)* free; within such programs a render pass ends before its recording and binds stay inside their scopes |
| AutoDescriptorPool.AddToHit | src/vkx/auto_desc_pool.cc:11-13 | adding to a type creates its entry at 0 if absent and adds the count modulo 2^32 |
| AutoDescriptorPool.AddToMiss | src/vkx/auto_desc_pool.cc:11-13 | adding to one type leaves every other entry unchanged |
| AutoDescriptorPool.TotalsAreSums | src/vkx/auto_desc_pool.cc:9-14 | each type's total is the sum of its bindings' counts modulo 2^32, and absent types have no entry |
| AutoDescriptorPool.RegisterType | src/vkx/auto_desc_pool.cc:6-22 | fails iff the layout's creation does, leaving nothing changed; otherwise (re)initialises the type with the new layout, no pools, remSets 0, maxSets 8 and the per-type sums; other types unchanged |
| AutoDescriptorPool.TotalCapClosedForm | src/vkx/auto_desc_pool.cc:42-43 | after n pools the total capacity is 8·(2^n − 1) |
| AutoDescriptorPool.GlobalIndexInjective | src/vkx/auto_desc_pool.cc:46-50 | sets within their pools' capacity are told apart by their position |
| AutoDescriptorPool.Grow | src/vkx/auto_desc_pool.cc:34-44 | a pool of capacity maxSets is appended with the per-set totals, remSets becomes maxSets and maxSets doubles |
| AutoDescriptorPool.Create | src/vkx/auto_desc_pool.cc:33-56 | with every native call succeeding: exactly count sets, numbered on from the sets issued before; pools only appended, and only while the request exceeds capacity; count 0 changes nothing |
| AutoDescriptorPool.CreateChecked | src/vkx/auto_desc_pool.cc:33-56 | with the driver's answers: on success as above; on a throw, a valid record keeping the old pools, with some but not all requested sets counted as issued, an error naming pool creation or allocation, and some answer failing |
| AutoDescriptorPool.AllSucceedIsCreate | src/vkx/auto_desc_pool.cc:33-56 | when the driver grants every call the checked loop returns what the plain loop does |
| AutoDescriptorPool.FailedSecondPoolLosesFirstBatch | src/vkx/auto_desc_pool.cc:41-53 | nine sets from a fresh type whose second pool fails: one exhausted pool, 8 sets counted as issued, none returned |
| AutoDescriptorPool.PoolsAreMinimal | src/vkx/auto_desc_pool.cc:34-44 | after a request the pools are the fewest whose capacity covers all sets issued |
| AutoDescriptorPool.CreateSets | src/vkx/auto_desc_pool.cc:28-57 | stores the record the loop left; on success count sets of the registered type, on failure fewer issued than asked and some answer failing; an unregistered id default-inserts a record |
| AutoDescriptorPool.CreateOne | src/vkx/auto_desc_pool.cc:24-26 | succeeds iff `create(type, 1)` does, leaving the same allocator; the set is the next one of the type, and a failure issues nothing |
| AutoDescriptorPool.UnregisteredNeverProgresses | src/vkx/auto_desc_pool.cc:30-47 | a single case: for an unregistered id the loop's first step opens a pool of capacity 0 and takes no set |
| AutoDescriptorPool.SuccessiveCallsAreDisjoint | src/vkx/auto_desc_pool.cc:28-57 | two calls never hand out the same set |
| AutoDescriptorPool.CreateSetsAreDistinct | src/vkx/auto_desc_pool.cc:46-53 | within one call the sets are pairwise distinct |
| Selection.Score | src/main.cc:161-172 | the fall-through gives discrete 1984, integrated 960, virtual 448, CPU 192, other 64 |
| Selection.ScoreRanksKinds | src/main.cc:161-172 | a device type earlier in the switch always scores higher |
| Selection.LastWhere | src/main.cc:177-190 | the last family satisfying the test, or none when no family does |
| Selection.Scan | src/main.cc:177-190 | graphics and present are the last matching families; transfer is the last non-graphics transfer family |
| Selection.GetDeviceInfo | src/main.cc:157-204 | suitable iff graphics and present families exist (transfer falling back to graphics); missing indices default to 0 |
| Selection.KeyIsLexicographic | src/main.cc:206-209 | comparing keys is comparing (isSuitable, score) lexicographically |
| Selection.PickDevice | src/main.cc:206-216 | as written, on a non-empty list: fails iff no device is suitable; else a suitable device of maximal score, the first such |
| Selection.NoDevicesReachFindMax | src/main.cc:147 | a successful enumeration can return an empty list, which `find_max` at main.cc:211-212 cannot take |
| Selection.PickDeviceChecked | src/main.cc:211-216 | corrected: an empty list fails with no suitable device; otherwise the same choice as `PickDevice` |
| Selection.QueueFamilyIndices | src/main.cc:218-222 | the ascending deduplicated set of the three indices |
| Selection.ConcurrentIffFamiliesDiffer | src/main.cc:346-348 | sharing is concurrent iff the three indices are not all equal |
| Selection.AsWrittenNeverSkips | src/main.cc:432 | the mask test as written never skips an index |
| Selection.FindMemoryTypeAsWritten | src/main.cc:427-439 | as written: the first type with all wanted flags, whatever the mask; fails iff none has them |
| Selection.FindMemoryType | src/main.cc:427-439 | the first type allowed by the mask with all wanted flags; fails iff none |
| Selection.MaskIgnoredExample | src/main.cc:432 | with mask 0b10 and two matching types, the code returns type 0, which the mask excludes |
| Selection.FirstPreferred | src/main.cc:296-303 | the first B8G8R8A8_SRGB/SRGB_NONLINEAR format, or none |
| Selection.ChooseSurface | src/main.cc:291-311 | fails iff formats or modes are empty; the preferred format if offered, else the first; MAILBOX iff offered, else FIFO |
| Selection.Clamp | src/main.cc:328-333 | the value clamped into [lo, hi] |
| Selection.ChooseExtent | src/main.cc:312-336 | the current extent unless its width is UINT32_MAX; otherwise the framebuffer size clamped per dimension |
| Selection.ReactToPresent | src/main.cc:881-887 | recreate iff out of date, suboptimal or resized; fail iff any other non-success |
| Selection.NextFrame | src/main.cc:889 | the next index wraps to 0 after the last frame |
| Selection.FrameRingCycles | src/main.cc:889 | after k frames the index is k modulo the frame count |
| ExtModel.ToPath | src/vkext/model.cc:7-10 | same length; every backslash becomes a slash, every other character is kept |
| ExtModel.ToPathIdempotent | src/vkext/model.cc:7-10 | the result has no backslash, so normalising twice is normalising once |
| ExtModel.Join | src/vkext/model.cc:85 | an absolute name replaces the directory; otherwise the result starts with the directory and ends with the name |
| ExtModel.TexPath | src/vkext/model.cc:84-85 | the texture path is the normalised name under the model's directory |
| ExtModel.FaceIndices | src/vkext/model.cc:62-64 | three indices per face |
| ExtModel.FaceIndicesAt | src/vkext/model.cc:62-64 | index 3f+k is corner k of face f |
| ExtModel.UV | src/vkext/model.cc:37-44 | one (x, y) per vertex |
| ExtModel.CopyMesh | src/vkext/model.cc:25-64 | positions per vertex, one UV channel per channel, colours and normals only when present, three indices per face |
| ExtModel.CopiedIndicesAreFaceCorners | src/vkext/model.cc:62-64 | the copied index list holds each face's first three corners in order |
| ExtModel.CopyMeshes | src/vkext/model.cc:25-27 | one mesh per scene mesh, in order |
| ExtModel.TruncToInt | src/vkext/model.cc:81 | the float-to-integer read: the integer toward zero within 1 of the value |
| ExtModel.LoadLayerAsWritten | src/vkext/model.cc:79-85 | as written: a present TEXBLEND factor, truncated toward zero, replaces the op; the blend factor stays 0 |
| ExtModel.BlendOverwritesOp | src/vkext/model.cc:80-81 | an Add layer with blend 7 is read as op 7 |
| ExtModel.UsualFactorPicksOp | src/vkext/model.cc:80-81 | a factor in [0, 1] reads as Multiply below 1 and as Add at 1, whatever TEXOP is |
| ExtModel.LoadLayer | src/vkext/model.cc:79-85 | corrected: the op is TEXOP and the blend factor TEXBLEND |
| ExtModel.LoadStack | src/vkext/model.cc:71-90 | as written: the base colour, and one as-written layer per texture in order |
| ExtModel.LoadStackCorrected | src/vkext/model.cc:71-90 | corrected: same colour and length, each layer the corrected reading; layers without TEXBLEND match the as-written ones |
| ExtModel.LoadMaterial | src/vkext/model.cc:93-104 | as written: the ambient, diffuse, specular, transmission and emission stacks, and the shininess, refractive index, opacity and shading model as read |
| ExtModel.LoadMaterialCorrected | src/vkext/model.cc:93-104 | corrected: the five stacks read with the corrected layers; the scalar properties as written |
| VkModel.MeshBuffers | src/vkx/vk_model.cc:14-36 | five buffers per mesh, each a uniform and transfer target shared by the graphics and transfer families |
| VkModel.MeshesBuffers | src/vkx/vk_model.cc:11-12 | one buffer set per mesh, in order |
| VkModel.UVlessMeshHasNoFirstChannel | src/vkext/model.cc:35-36 | a mesh imported without UV channels has no first channel to read at vk_model.cc:21 |
| VkModel.MeshBuffersChecked | src/vkx/vk_model.cc:14-24 | corrected: a mesh without UVs gets an empty texture-coordinate buffer, like a mesh with one empty channel; otherwise `MeshBuffers` |
| VkModel.MeshesBuffersChecked | src/vkx/vk_model.cc:11-12 | corrected loop, defined for every mesh and equal to `MeshesBuffers` where that is defined |
| VkModel.ImportedMeshBufferSizes | src/vkx/vk_model.cc:14-24 | each buffer's size is the element count times the element size: 12, 12, 12 and 8 bytes per vertex, 12 per face |
| VkModel.GetTexImage | src/vkx/vk_model.cc:39-86 | returns the path's image (the missing texture for the empty path); a hit changes nothing, a miss loads the path once |
| VkModel.SecondLookupIsCached | src/vkx/vk_model.cc:40-41 | a second lookup of a path loads nothing |
| VkModel.BlendOp | src/vkx/vk_model.cc:108-117 | Multiply maps to 0, Add to 1, any other op fails |
| VkModel.ResolveStack | src/vkx/vk_model.cc:99-120 | colour is the base colour, texIndex -1, the missing texture is fetched first, and the image is the first layer's, or missing when there is none |
| VkModel.LoadMaterial | src/vkx/vk_model.cc:88-97 | ambient, diffuse and specular in that order, each with its stack's image |
| VkModel.LoadMaterials | src/vkx/vk_model.cc:88-165 | one material per material, in order; with format lookup and resource creation succeeding, fails iff some first layer's op is unknown |
| VkModel.AsWrittenFactorPicksOp | src/vkx/vk_model.cc:108-117 | as written, the first ambient stack passes the switch iff its TEXBLEND factor lies in (-1, 2): Multiply below 1, Add from 1 |
| VkModel.AsWrittenBlendFactorAborts | src/vkx/vk_model.cc:108-117 | as written, a first ambient TEXBLEND factor at or below -1, or at or above 2, makes the upload fail |
| VkModel.CorrectedIgnoresBlendFactor | src/vkx/vk_model.cc:108-117 | with the corrected reading, known TEXOP values on the first ambient, diffuse and specular textures make the upload succeed, whatever their blend factors |
| VkModel.EachTextureLoadedOnce | src/vkx/vk_model.cc:39-86 | from an empty cache no path is loaded twice, and the missing texture is loaded as soon as there is a material |
| StbImage.StbiLoad | src/vkx/stb_image.cc:3-7 | a buffer iff the file is readable and the mode is 0..4, holding (mode or the file's channels) × width × height bytes |
| StbImage.Load | src/vkx/stb_image.cc:3-7 | as written: the stored mode is the requested mode |
| StbImage.ExplicitModeReportsBufferSize | src/vkx/stb_image.cc:27-29 | with an explicit mode `nbytes()` is the buffer's size |
| StbImage.DefaultModeReportsZeroBytes | src/vkx/stb_image.cc:27-29 | with the default mode a 2x2 RGB file gives a 12-byte buffer but `nbytes()` 0 |
| StbImage.LoadCorrected | src/vkx/stb_image.cc:3-7 | corrected: stores the buffer's real channel count; same as written for explicit modes |
| StbImage.CorrectedReportsBufferSize | src/vkx/stb_image.cc:27-29 | for every accepted mode the corrected `nbytes()` is the buffer's size |
| StbImage.Destroy | src/vkx/stb_image.cc:31-35 | frees exactly a non-null buffer, then nulls it |
| StbImage.MoveAssign | src/vkx/stb_image.cc:13-21 | frees the target's pixels, takes the source's and nulls the source's pointer |
| StbImage.MoveThenDestroyFreesEachOnce | src/vkx/stb_image.cc:13-35 | a move followed by both destructors frees each buffer exactly once |
| StbImage.MoveConstructAsWritten | src/vkx/stb_image.cc:9-11 | as written: the new object takes the source's buffer after freeing whatever its uninitialised pointer holds |
| StbImage.MoveConstructFreesGarbage | src/vkx/stb_image.cc:9-11 | an indeterminate non-null pointer is freed although never owned |
| StbImage.MoveConstruct | src/vkx/stb_image.cc:9-11 | corrected: frees nothing, takes the source's buffer, and agrees with the as-written one when the pointer happens to be null |
| StbImage.DestroyTwiceFreesOnce | src/vkx/stb_image.cc:31-35 | a second destroy frees nothing |
| Stuff.Channels | src/stuff.cc:6-10 | L, RGB, RGBA are 1, 3, 4 |
| Stuff.Requested | src/stuff.cc:16-18 | no mode requests 0, a mode requests its channel count |
| Stuff.ChannelsInjective | src/stuff.cc:6-10 | distinct modes have distinct values |
| Stuff.Load | src/stuff.cc:14-24 | as written: the stored mode is the file's true channel count |
| Stuff.MatchingModeReportsBufferSize | src/stuff.cc:51-53 | without a mode, or with the file's own, `nbytes()` is the buffer's size |
| Stuff.ConvertedModeMisreportsSize | src/stuff.cc:23 | RGBA from a 2x2 RGB file gives 16 bytes but `nbytes()` 12 |
| Stuff.LoadCorrected | src/stuff.cc:14-24 | corrected: stores the requested mode when given |
| Stuff.CorrectedReportsBufferSize | src/stuff.cc:51-53 | for every mode the corrected `nbytes()` is the buffer's size |
| Align.ScalarSize | include/vkext/align.h:4-7 | 8 bytes exactly for a double, 4 otherwise |
| Align.VkAlign | include/vkext/align.h:4-19 | as intended: a scalar is aligned to its size, a 3-vector to 4 components, every matrix to 16 |
| Align.VkAlignAsWritten | include/vkext/align.h:4-19 | as resolved: the same as intended off matrices; a matrix gets `sizeof(T)` |
| Align.MatrixSpecialisationNotPicked | include/vkext/align.h:16-17 | as resolved, a float mat4 is aligned to 64 rather than 16, and a float mat3 asks `alignas` for 36, not a power of two |
| Align.VkAlignMatchesStd140 | include/vkext/align.h:11-19 | the intended `vkalign` agrees with the standard layout except for double matrices of 3 or 4 rows (32 vs 16) |
| Align.RoundUp | include/vkext/align.h:9 | the least multiple of the alignment at or after the offset |
| Align.Offsets | include/vkext/align.h:9 | one offset per member; the first at the first aligned position |
| Align.SizeIn | include/vkext/align.h:9 | a C++ member occupies `sizeof(T)`; a standard-layout matrix occupies one base-aligned column stride per column, never less than its C++ size |
| Align.SizesAgree | include/vkext/align.h:11-19 | both rules give a member the same size iff it is not a matrix, or its columns have 4 rows, or 2 rows of doubles |
| Align.OffsetsAlignedAndDisjoint | include/vkext/align.h:9 | every member sits on its alignment and ends before the next begins, under its own rule's size |
| Align.AgreeingMembersShareOffsets | include/vkext/align.h:9 | where every member's alignments and sizes agree, both layouts place every member identically |
| Align.Mat3ThenFloatDiverges | include/vkext/align.h:11-19 | with the intended alignment, a float after a mat3 sits at 36 in C++ and at 48 in the uniform block |
| Align.SceneOffsets | include/vkx/phong.h:27-33 | `Scene` members sit at 0, 16, 32, 48 and 60 under both rules |
| Align.MatrixPairOffsets | include/vkx/phong.h:22-25 | `VP` and `Model` members sit at 0 and 64 under the intended rule, the resolved rule and the standard |

## Left out

- Native Vulkan, GLFW, stb_image, assimp and tinyobj behaviour: external calls, modelled as opaque handles, results and event traces.
- `Handle<>`, and with it `fence.cc`, `semaphore.cc`, `image_view.cc`, `swapchain.cc`, `debug.cc`, `surface.cc`, whose `.cc` files rely on it: the template's definition is not part of this model, so their finalizer and move semantics would be invented. The wrappers whose headers declare a `Handle<...>` member but whose `.cc` files define move and `destroy` themselves are modelled from those definitions.
- `loader.cc`, `phys_dev.cc`, `glfw.cc`, `utils.cc` (`readFile`), the `loadFunctions` procedure-address tables and the debug-message callback: enumeration, windowing and I/O glue.
- The camera, timing, MVP and shader-file parts of `main.cc`: floating point and I/O.
- GPU synchronisation (fences, semaphores, `vkDeviceWaitIdle`): concurrency with the device.
- The recording commands other than those named above (`clearColorImage`, `copyBuffer`, `pipelineBarrier`, `copyBufferToImage`, `setViewport`, `setScissor`, `draw`, `drawIndexed`): straight one-call forwards with no control flow.
- GraphicsPipeline.MapStage: the specialization-info pointer taken by `emplace_back` at src/vkt/graphics_pipeline.cc:18 may dangle after a reallocation; values cannot express this.
- `Buffer::allocMemory`, `Buffer::stage`, `Image::allocMemory`, `Image::stage` and the per-texture image view and sampler in the model upload: not among the modelled files.
- The buffer-based `StbImage` constructor used by the missing texture: not part of this model. The missing texture is a cache entry like any other.
- `vkx/model.h`, `obj_model.cc`, the GPU setup tables of `phong.h`, `missing_tex.cc`: a stub, a foreign call, constant tables and an embedded image.
- AutoDescriptorPool.Grow: `maxSets` is an unbounded natural number; the source's `uint32_t` doubling wraps to 0 after 29 pools, which the model does not reach.
- AutoDescriptorPool.RegisterType: re-registering a type destroys its old pools and layout in the source; the model replaces the record without tracing those destroy calls.
- StbImage.StbiLoad: on an unreadable file the size fields are taken as 0; stb_image leaves them unspecified.
- StbImage.NBytes: computed on unbounded integers, without the source's `int` overflow.
- ExtModel.TexPath: `parent_path()` is the given directory string; `std::filesystem` normalisation is not modelled.
- ExtModel.Get: a missing material property leaves the default, standing in for assimp's `Get` on a missing key.
- Image.NativeInfo, Image.Create, Image.SameFamilyTwiceIsOneEntry: model the family pointer as a contiguous ascending copy of the `std::set`, since `.data()` at src/vkt/image.cc:21 does not exist on a set.
- Vk.Data: an empty vector's `data()` is modelled as null, as common standard libraries give for a vector that never allocated; the standard leaves it unspecified, and with count 0 the driver does not read it.
- VkModel.GetTexImage, VkModel.LoadMaterials: format lookup (`findSuitableFormat(...).value()`) and the `Image` and `Buffer` constructors' `VK_CHECK`s are taken to succeed; those calls belong to the image and buffer setup this model leaves out.
- CommandBuffer.Reset: resetting while a recording is alive is the caller's duty to avoid; the C++ code does not prevent it, and the model only allows a reset when no recording exists.
- CommandBuffer.BeginRecording: a second recording while one is alive is the caller's duty to avoid; the C++ code does not prevent it, and the model only allows a begin when no recording exists.
- CommandBuffer.BeginRenderPass: opening a second render pass on a recording that has one open is the caller's duty to avoid; the C++ code does not prevent it, and the model only allows one at a time.
- CommandBuffer.RunIsWellNested: begin/end alternation rests on the three usage rules above, which the wrapper leaves to its caller; what the scopes themselves guarantee is that a render pass ends before its recording and that binds happen inside their scopes.
- ExtModel.LoadLayerAsWritten: `vkext/model.h`, which declares the layer's fields, is not part of this model; `op` is taken to be an integer and `blend` a float, so a float TEXBLEND reaches `op` through assimp's integer read, which casts.
- ExtModel.TruncToInt: a factor beyond the range of `int`, whose cast C++ leaves undefined, is truncated on unbounded integers.
- ExtModel.CopyMeshes: the scene is an input; `ReadFile` returning null on an import failure, which model.cc:20-25 dereferences unchecked, is not modelled.
- CommandBuffer.Free: assumes `Handle<>` runs the finalizer exactly once, when the last owner releases the buffer; the template is not part of this model.

## Findings

| source | as written | input that shows it | evidently intended | confidence | as-written member | corrected member |
|---|---|---|---|---|---|---|
| src/main.cc:432 | `memoryTypeMask & ((uint32_t)1 << index) == 0` parses as `mask & (bit == 0)`, which is always 0, so the mask is ignored | mask 0b10, two types with the wanted flags: returns type 0, which the mask excludes | skip every index whose mask bit is clear | high, not executed | Selection.FindMemoryTypeAsWritten, Selection.MaskIgnoredExample | Selection.FindMemoryType |
| include/vkext/align.h:16-17 | the matrix specialisation takes `std::size_t` dimensions, which cannot be deduced from glm's `int` ones, so matrices get the primary template's `sizeof(T)` | `VK_ALIGN(glm::mat4)`: 64 rather than 16; `VK_ALIGN(glm::mat3)`: `alignas(36)`, which does not compile | declare the dimensions as `glm::length_t`, giving every matrix a vec4's alignment | medium, not executed | Align.VkAlignAsWritten, Align.MatrixSpecialisationNotPicked | Align.VkAlign, Align.VkAlignMatchesStd140 |
| src/vkt/instance.cc:30 | the messenger info is stored in the local `pNext`, but the create-info at line 51 uses `VK_NULL_HANDLE` | any debug info: the instance is created with an empty chain | chain the messenger info through `pNext` | high, not executed | Instance.CreateInfoAsWritten, Instance.DebugMessengerIsNotChained, Instance.Create | Instance.CreateInfo, Instance.CreateCorrected |
| src/vkx/stb_image.cc:5 | the requested mode is stored, so the default mode 0 makes `nbytes()` 0 | a 2x2 RGB file loaded with the default mode: 12-byte buffer, `nbytes()` 0 | store the buffer's channel count (the file's own for mode 0) | medium, not executed | StbImage.Load, StbImage.DefaultModeReportsZeroBytes | StbImage.LoadCorrected, StbImage.CorrectedReportsBufferSize |
| src/stuff.cc:23 | the file's true channel count is stored even when another count was requested | RGBA requested from a 2x2 RGB file: 16-byte buffer, `nbytes()` 12 | store the requested count when there is one | medium, not executed | Stuff.Load, Stuff.ConvertedModeMisreportsSize | Stuff.LoadCorrected, Stuff.CorrectedReportsBufferSize |
| src/vkext/model.cc:81 | the float TEXBLEND is read into the integer `layer.op`, truncated toward zero, overwriting the operation just read | an Add layer with factor 0.5: op 0, Multiply; with factor 2.5: op 2, and the upload fails | read TEXBLEND into `layer.blend` | high, not executed | ExtModel.LoadLayerAsWritten, ExtModel.UsualFactorPicksOp, ExtModel.LoadMaterial, VkModel.AsWrittenFactorPicksOp, VkModel.AsWrittenBlendFactorAborts | ExtModel.LoadLayer, ExtModel.LoadMaterialCorrected, VkModel.CorrectedIgnoresBlendFactor |
| src/main.cc:211-212 | `find_max` is called on the enumerated device list without checking that it is non-empty, and reads the key of its first element | a machine with no Vulkan device: an empty list, read at index 0 | report "No suitable devices found" | high, not executed | Selection.PickDevice, Selection.NoDevicesReachFindMax | Selection.PickDeviceChecked |
| src/vkx/vk_model.cc:21 | `mesh.texCoord[0]` is read unconditionally, but model.cc:36 sizes `texCoord` to the mesh's UV channel count | a mesh with no UV channels: index 0 of an empty vector | an empty texture-coordinate buffer, as for missing colours or normals | medium, not executed | VkModel.MeshBuffers, VkModel.UVlessMeshHasNoFirstChannel | VkModel.MeshBuffersChecked, VkModel.MeshesBuffersChecked |
| src/vkx/stb_image.cc:9-11 | the move constructor move-assigns into an object whose `data` was never initialised, so `destroy()` may free a garbage pointer; src/stuff.cc:29-31 does the same | an indeterminate non-null `data`: a free of a pointer never owned | initialise `data` to null before moving | high, not executed | StbImage.MoveConstructAsWritten, StbImage.MoveConstructFreesGarbage | StbImage.MoveConstruct |

=== FILE: align.dfy ===
/** `vkalign<T>` and `VK_ALIGN`: the alignment the shader-facing structs give
    each member so that their C++ layout matches the uniform-block layout the
    shaders read, compared with the standard uniform block layout of section
    7.6.2.2 of the OpenGL 4.6 core specification. */
module Align {
  import Utils

  /** The scalar component types. */
  datatype Scalar = Float | Int | UInt | Double

  /** The member types: a scalar, `glm::vec<n, T>` with 2 <= n <= 4, or a
      matrix `glm::mat<C, R, T>` of C columns and R rows (2 <= C, R <= 4). */
  datatype GlslType = ScalarT(s: Scalar) | Vec(n: nat, s: Scalar) | Mat(cols: nat, rows: nat, s: Scalar)

  predicate ValidType(t: GlslType) {
    match t
    case ScalarT(_) => true
    case Vec(n, _) => 2 <= n <= 4
    case Mat(c, r, _) => 2 <= c <= 4 && 2 <= r <= 4
  }

  function ScalarSize(s: Scalar): (n: nat)
    ensures n == 4 || n == 8
    ensures n == 8 <==> s == Double
  {
    if s == Double then 8 else 4
  }

  /** `sizeof(T)`: glm vectors and matrices are packed arrays of their
      components. */
  function SizeOf(t: GlslType): nat {
    match t
    case ScalarT(s) => ScalarSize(s)
    case Vec(n, s) => n * ScalarSize(s)
    case Mat(c, r, s) => c * r * ScalarSize(s)
  }

  /** `sizeof(glm::vec4)`. */
  const VEC4_BYTES: nat := 16

  /** `vkalign<T>::value` as its specialisations intend: `sizeof(T)` by
      default, four components for a 3-component vector, and
      `sizeof(glm::vec4)` for every matrix. */
  function VkAlign(t: GlslType): (a: nat)
    requires ValidType(t)
    ensures a > 0
    ensures t.ScalarT? ==> a == SizeOf(t)
    ensures t.Vec? && t.n == 3 ==> a == 4 * ScalarSize(t.s)
    ensures t.Mat? ==> a == 16
  {
    match t
    case ScalarT(_) => SizeOf(t)
    case Vec(n, s) => if n == 3 then 4 * ScalarSize(s) else SizeOf(t)
    case Mat(_, _, _) => VEC4_BYTES
  }

  /** `vkalign<T>::value` as the compiler resolves it. glm's `mat` takes its
      dimensions as `glm::length_t` (an `int`), while the matrix
      specialisation declares them `std::size_t`; a non-type argument cannot be
      deduced against a parameter of another type, so that specialisation never
      matches and every matrix gets the primary template's `sizeof(T)`. The
      3-component vector specialisation names its dimension as a literal and
      does match. */
  function VkAlignAsWritten(t: GlslType): (a: nat)
    requires ValidType(t)
    ensures a > 0
    ensures !t.Mat? ==> a == VkAlign(t)
    ensures t.Mat? ==> a == SizeOf(t)
  {
    match t
    case Vec(n, s) => if n == 3 then 4 * ScalarSize(s) else SizeOf(t)
    case _ => SizeOf(t)
  }

  /** An alignment `alignas` accepts: a power of two. */
  predicate IsPow2(n: nat)
    decreases n
  {
    n == 1 || (n >= 2 && n % 2 == 0 && IsPow2(n / 2))
  }

  /** The matrix specialisation is never picked: a mat4 of floats is aligned
      to 64 bytes rather than 16, and a mat3 of floats asks `alignas` for 36
      bytes, which is not a power of two and does not compile. */
  lemma MatrixSpecialisationNotPicked()
    ensures VkAlignAsWritten(Mat(4, 4, Float)) == 64 && VkAlign(Mat(4, 4, Float)) == 16
    ensures VkAlignAsWritten(Mat(3, 3, Float)) == 36 && !IsPow2(36)
    ensures IsPow2(VkAlign(Mat(3, 3, Float)))
  {
    assert !IsPow2(9);
    assert IsPow2(16) by { assert IsPow2(8) by { assert IsPow2(4) by { assert IsPow2(2); } } }
  }

  /** The base alignment of the standard uniform block layout: N for a scalar
      of N bytes (rule 1), 2N or 4N for a vector of two or of three or four
      components (rules 2 and 3), and for a column-major matrix the alignment
      of its column vector rounded up to that of a vec4 (rules 4 and 5). */
  function Std140Align(t: GlslType): (a: nat)
    requires ValidType(t)
    ensures a > 0
  {
    match t
    case ScalarT(s) => ScalarSize(s)
    case Vec(n, s) => Std140VecAlign(n, s)
    case Mat(_, r, s) => Max(Std140VecAlign(r, s), VEC4_BYTES)
  }

  function Std140VecAlign(n: nat, s: Scalar): nat {
    (if n == 2 then 2 else 4) * ScalarSize(s)
  }

  function Max(a: nat, b: nat): nat {
    if a >= b then a else b
  }

  /** The two rules agree on every scalar, every vector and every float or
      integer matrix; they differ exactly on double matrices of three or four
      rows, whose columns the standard aligns to 32 bytes and `vkalign` to 16. */
  lemma VkAlignMatchesStd140(t: GlslType)
    requires ValidType(t)
    ensures VkAlign(t) == Std140Align(t) <==> !(t.Mat? && t.s == Double && t.rows >= 3)
    ensures t.Mat? && t.s == Double && t.rows >= 3 ==> Std140Align(t) == 32 && VkAlign(t) == 16
  {}

  // ---------------------------------------------------------------------------
  // Struct layout under `VK_ALIGN`

  /** The smallest multiple of `a` that is at least `x`. */
  function RoundUp(x: nat, a: nat): (r: nat)
    requires a > 0
    ensures r >= x && r % a == 0 && r < x + a
  {
    if x % a == 0 then x
    else
      var q := x / a;
      assert x == q * a + x % a;
      Utils.ModUnique(x + (a - x % a), q + 1, 0, a);
      x + (a - x % a)
  }

  /** Which alignment rule lays out the members: `vkalign` as intended, as
      the compiler resolves it, or the standard uniform block layout. */
  datatype Rule = VkRule | VkAsWrittenRule | Std140Rule

  function AlignOf(rule: Rule, t: GlslType): (a: nat)
    requires ValidType(t)
    ensures a > 0
  {
    match rule
    case VkRule => VkAlign(t)
    case VkAsWrittenRule => VkAlignAsWritten(t)
    case Std140Rule => Std140Align(t)
  }

  /** The bytes a member occupies. In C++ `alignas` moves a member but does
      not pad it, so it occupies `sizeof(T)`; the standard lays a matrix out
      as an array of its columns (rule 5), each column padded to the matrix's
      base alignment (rule 4). */
  function SizeIn(rule: Rule, t: GlslType): (n: nat)
    requires ValidType(t)
    ensures n >= SizeOf(t)
    ensures rule != Std140Rule || !t.Mat? ==> n == SizeOf(t)
    ensures rule == Std140Rule && t.Mat? ==> n == t.cols * Std140Align(t)
  {
    match t
    case Mat(c, r, s) =>
      if rule != Std140Rule then SizeOf(t)
      else
        assert r * ScalarSize(s) <= Std140Align(t);
        ColumnsMono(c, r * ScalarSize(s), Std140Align(t));
        c * Std140Align(t)
    case _ => SizeOf(t)
  }

  /** More bytes per column means more bytes, strictly so for a strictly
      wider column. */
  lemma {:induction false} ColumnsMono(c: nat, a: nat, b: nat)
    requires c > 0 && a <= b
    ensures c * a <= c * b
    ensures a < b ==> c * a < c * b
    decreases c
  {
    if c > 1 {
      ColumnsMono(c - 1, a, b);
      assert c * a == (c - 1) * a + a;
      assert c * b == (c - 1) * b + b;
    }
  }

  /** Matrix columns are packed the same way by both rules exactly when a
      column already fills its standard stride: four rows, or two rows of
      doubles. A mat3 of floats, say, takes 36 bytes in C++ and 48 in a
      uniform block. */
  lemma SizesAgree(t: GlslType)
    requires ValidType(t)
    ensures SizeIn(VkRule, t) == SizeIn(Std140Rule, t) <==>
      !t.Mat? || t.rows == 4 || (t.rows == 2 && t.s == Double)
  {
    if t.Mat? {
      var col := t.rows * ScalarSize(t.s);
      assert SizeOf(t) == t.cols * col;
      if col < Std140Align(t) {
        ColumnsMono(t.cols, col, Std140Align(t));
      }
    }
  }

  /** Member offsets of a struct whose members start at `start` or later: each
      member sits at the first offset after the previous member that is a
      multiple of its alignment. */
  function Offsets(rule: Rule, members: seq<GlslType>, start: nat): (offs: seq<nat>)
    requires forall i :: 0 <= i < |members| ==> ValidType(members[i])
    ensures |offs| == |members|
    ensures |members| > 0 ==> offs[0] == RoundUp(start, AlignOf(rule, members[0]))
    decreases |members|
  {
    if |members| == 0 then []
    else
      var o := RoundUp(start, AlignOf(rule, members[0]));
      [o] + Offsets(rule, members[1..], o + SizeIn(rule, members[0]))
  }

  /** The layout is sound: every member sits on its alignment, at or after
      `start`, and ends before the next member begins. */
  lemma {:induction false} OffsetsAlignedAndDisjoint(rule: Rule, members: seq<GlslType>, start: nat)
    requires forall i :: 0 <= i < |members| ==> ValidType(members[i])
    ensures var offs := Offsets(rule, members, start);
      && (forall i :: 0 <= i < |members| ==> offs[i] >= start && offs[i] % AlignOf(rule, members[i]) == 0)
      && (forall i :: 0 <= i < |members| - 1 ==> offs[i] + SizeIn(rule, members[i]) <= offs[i + 1])
    decreases |members|
  {
    if |members| > 0 {
      var m := members[0];
      var rest := members[1..];
      var o := RoundUp(start, AlignOf(rule, m));
      var next := o + SizeIn(rule, m);
      forall i | 0 <= i < |rest| ensures ValidType(rest[i]) {
        assert rest[i] == members[i + 1];
      }
      var ro := Offsets(rule, rest, next);
      OffsetsAlignedAndDisjoint(rule, rest, next);
      var offs := Offsets(rule, members, start);
      assert offs == [o] + ro;
      forall i | 0 <= i < |members|
        ensures offs[i] >= start && offs[i] % AlignOf(rule, members[i]) == 0
      {
        if i > 0 {
          assert offs[i] == ro[i - 1] && members[i] == rest[i - 1];
        }
      }
      forall i | 0 <= i < |members| - 1
        ensures offs[i] + SizeIn(rule, members[i]) <= offs[i + 1]
      {
        assert offs[i + 1] == ro[i];
        if i > 0 {
          assert offs[i] == ro[i - 1] && members[i] == rest[i - 1];
        }
      }
    }
  }

  /** A member the two rules treat alike: the same alignment and the same
      number of bytes. */
  predicate SameUnderBothRules(t: GlslType)
  {
    ValidType(t) && VkAlign(t) == Std140Align(t) && SizeIn(VkRule, t) == SizeIn(Std140Rule, t)
  }

  /** When every member's `vkalign` equals its standard base alignment and
      every member occupies as many bytes in both layouts, the C++ struct and
      the uniform block place every member at the same offset. */
  lemma {:induction false} AgreeingMembersShareOffsets(members: seq<GlslType>, start: nat)
    requires forall i :: 0 <= i < |members| ==> SameUnderBothRules(members[i])
    ensures forall i :: 0 <= i < |members| ==> ValidType(members[i])
    ensures Offsets(VkRule, members, start) == Offsets(Std140Rule, members, start)
    decreases |members|
  {
    if |members| > 0 {
      var o, next := SameFirstStep(members, start);
      AgreeingMembersShareOffsets(members[1..], next);
      OffsetsUnfold(VkRule, members, start, o, next);
      OffsetsUnfold(Std140Rule, members, start, o, next);
    }
  }

  /** Both rules place the first member at the same offset and end it at the
      same byte, and the remaining members still agree. */
  lemma SameFirstStep(members: seq<GlslType>, start: nat) returns (o: nat, next: nat)
    requires |members| > 0
    requires forall i :: 0 <= i < |members| ==> SameUnderBothRules(members[i])
    ensures forall i :: 0 <= i < |members| ==> ValidType(members[i])
    ensures forall i :: 0 <= i < |members| - 1 ==> SameUnderBothRules(members[1..][i])
    ensures o == RoundUp(start, AlignOf(VkRule, members[0])) == RoundUp(start, AlignOf(Std140Rule, members[0]))
    ensures next == o + SizeIn(VkRule, members[0]) == o + SizeIn(Std140Rule, members[0])
  {
    assert SameUnderBothRules(members[0]);
    o := RoundUp(start, AlignOf(VkRule, members[0]));
    next := o + SizeIn(VkRule, members[0]);
    forall i | 0 <= i < |members| - 1 ensures SameUnderBothRules(members[1..][i]) {
      assert members[1..][i] == members[i + 1];
    }
  }

  /** One step of the layout: the first member at `o`, then the rest from
      where it ends. */
  lemma OffsetsUnfold(rule: Rule, members: seq<GlslType>, start: nat, o: nat, next: nat)
    requires |members| > 0
    requires forall i :: 0 <= i < |members| ==> ValidType(members[i])
    requires o == RoundUp(start, AlignOf(rule, members[0]))
    requires next == o + SizeIn(rule, members[0])
    ensures Offsets(rule, members, start) == [o] + Offsets(rule, members[1..], next)
  {
  }

  const VEC3: GlslType := Vec(3, Float)
  const MAT4: GlslType := Mat(4, 4, Float)

  /** `phong::Scene`: four vec3 members and an int. */
  const SceneMembers: seq<GlslType> := [VEC3, VEC3, VEC3, VEC3, ScalarT(Int)]

  /** `phong::VP` and `phong::Model`: two mat4 members. */
  const MatrixPairMembers: seq<GlslType> := [MAT4, MAT4]

  /** The last member of `phong::Scene`, the int, laid out after the fourth
      vec3 ends at byte 60. */
  lemma IntTailOffsets()
    ensures Offsets(VkRule, [ScalarT(Int)], 60) == [60]
  {
    assert [ScalarT(Int)][1..] == [];
    assert RoundUp(60, 4) == 60;
  }

  /** The last three members of `phong::Scene`, laid out after the first two
      vec3s end at byte 28. */
  lemma SceneTailOffsets()
    ensures Offsets(VkRule, [VEC3, VEC3, ScalarT(Int)], 28) == [32, 48, 60]
  {
    var n := ScalarT(Int);
    IntTailOffsets();
    assert [VEC3, n][1..] == [n];
    assert RoundUp(44, 16) == 48;
    assert Offsets(VkRule, [VEC3, n], 44) == [48] + Offsets(VkRule, [n], 60);
    assert [VEC3, VEC3, n][1..] == [VEC3, n];
    assert RoundUp(28, 16) == 32;
    assert Offsets(VkRule, [VEC3, VEC3, n], 28) == [32] + Offsets(VkRule, [VEC3, n], 44);
  }

  /** `phong::Scene`: the four vec3 members sit at 0, 16, 32 and 48, and the
      int right after the last vec3, at 60; the standard layout agrees. */
  lemma SceneOffsets()
    ensures Offsets(VkRule, SceneMembers, 0) == [0, 16, 32, 48, 60]
    ensures Offsets(Std140Rule, SceneMembers, 0) == [0, 16, 32, 48, 60]
  {
    var n := ScalarT(Int);
    SceneTailOffsets();
    assert [VEC3, VEC3, VEC3, n][1..] == [VEC3, VEC3, n];
    assert RoundUp(12, 16) == 16;
    assert Offsets(VkRule, [VEC3, VEC3, VEC3, n], 12) == [16] + Offsets(VkRule, [VEC3, VEC3, n], 28);
    assert SceneMembers[1..] == [VEC3, VEC3, VEC3, n];
    assert RoundUp(0, 16) == 0;
    assert Offsets(VkRule, SceneMembers, 0) == [0] + Offsets(VkRule, [VEC3, VEC3, VEC3, n], 12);
    AgreeingMembersShareOffsets(SceneMembers, 0);
  }

  /** `phong::VP` and `phong::Model`: the two mat4 members sit at 0 and 64;
      the standard layout agrees, and so does the 64-byte alignment the
      compiler actually gives a mat4. */
  lemma MatrixPairOffsets()
    ensures Offsets(VkRule, MatrixPairMembers, 0) == [0, 64]
    ensures Offsets(Std140Rule, MatrixPairMembers, 0) == [0, 64]
    ensures Offsets(VkAsWrittenRule, MatrixPairMembers, 0) == [0, 64]
  {
    assert RoundUp(0, 16) == 0 && RoundUp(64, 16) == 64;
    assert RoundUp(0, 64) == 0 && RoundUp(64, 64) == 64;
    assert [MAT4][1..] == [] && MatrixPairMembers[1..] == [MAT4];
    assert Offsets(VkRule, [MAT4], 64) == [64];
    assert Offsets(VkAsWrittenRule, [MAT4], 64) == [64];
    AgreeingMembersShareOffsets(MatrixPairMembers, 0);
  }
}

=== FILE: auto_desc_pool.dfy ===
/** `AutoDescriptorPool`: a self-growing descriptor-set allocator. Each
    registered set type remembers its layout and the per-set descriptor totals
    of its bindings; `create` serves requests from the newest pool and opens a
    new pool, twice as large as the previous one, only when the current one is
    exhausted. */
module AutoDescriptorPool {
  import opened Wrappers
  import opened Vk
  import DescriptorPool
  import Utils

  /** `VkDescriptorSetLayoutBinding`. */
  datatype Binding = Binding(binding: nat, descriptorType: nat, descriptorCount: nat, stageFlags: nat)

  /** A pool this allocator created: its `maxSets` and its pool sizes. */
  datatype PoolRec = PoolRec(maxSets: nat, poolSizes: seq<DescriptorPool.PoolSize>)

  /** `DescriptorSetType`. `poolSizes` is a `std::map`, kept here as a list of
      entries in ascending key order. */
  datatype SetType = SetType(
    setLayout: Handle,
    poolSizes: seq<DescriptorPool.PoolSize>,
    pools: seq<PoolRec>,
    remSets: nat,
    maxSets: nat)

  /** The allocator: the device and the map from type id to record. A
      default-constructed allocator has no types. */
  datatype AutoPool = AutoPool(device: Option<nat>, types: map<nat, SetType>)

  const Default: AutoPool := AutoPool(None, map[])

  /** The record `types[typeId]` default-inserts for an unregistered id: every
      field value-initialised, so both counters are 0. */
  const Unregistered: SetType := SetType(NULL_HANDLE, [], [], 0, 0)

  /** The result of an allocation a pool has no room for. */
  const VK_ERROR_OUT_OF_POOL_MEMORY: VkResult := -1000069000

  /** A descriptor set handed out: its layout, the index of the pool it came
      from, and its position among that pool's sets. */
  datatype DescriptorSet = DescriptorSet(layout: Handle, pool: nat, slot: nat)


  // ---------------------------------------------------------------------------
  // registerType: per-descriptor-type totals.

  /** The totals map is ordered by descriptor type, one entry per type. */
  predicate Ordered(sizes: seq<DescriptorPool.PoolSize>) {
    |sizes| <= 1 || (sizes[0].descriptorType < sizes[1].descriptorType && Ordered(sizes[1..]))
  }

  /** Looking a descriptor type up in the totals map. */
  function Lookup(sizes: seq<DescriptorPool.PoolSize>, t: nat): Option<nat> {
    if |sizes| == 0 then None
    else if sizes[0].descriptorType == t then Some(sizes[0].descriptorCount)
    else Lookup(sizes[1..], t)
  }

  /** `if (find(t) == end) m[t] = 0; m[t] += c;` on a `std::map<VkDescriptorType,
      uint32_t>`: the entry is created at 0 when absent, and the addition wraps
      modulo 2^32. */
  function AddTo(sizes: seq<DescriptorPool.PoolSize>, t: nat, c: nat): (r: seq<DescriptorPool.PoolSize>)
    requires Ordered(sizes)
    ensures Ordered(r) && |r| > 0
    ensures r[0].descriptorType == t || (|sizes| > 0 && r[0] == sizes[0])
  {
    if |sizes| == 0 then [DescriptorPool.PoolSize(t, c % 0x1_0000_0000)]
    else if t < sizes[0].descriptorType then
      var r := [DescriptorPool.PoolSize(t, c % 0x1_0000_0000)] + sizes;
      assert r[1..] == sizes;
      r
    else if t == sizes[0].descriptorType then
      var r := [DescriptorPool.PoolSize(t, (sizes[0].descriptorCount + c) % 0x1_0000_0000)] + sizes[1..];
      assert r[1..] == sizes[1..];
      r
    else
      var rest := AddTo(sizes[1..], t, c);
      var r := [sizes[0]] + rest;
      assert r[1..] == rest;
      r
  }

  lemma LookupBelowFirst(sizes: seq<DescriptorPool.PoolSize>, u: nat)
    requires Ordered(sizes) && |sizes| > 0 && u < sizes[0].descriptorType
    ensures Lookup(sizes, u) == None
  {
    if |sizes| > 1 {
      LookupBelowFirst(sizes[1..], u);
    }
  }

  /** Adding to type `t` creates its entry at 0 when absent and adds `c`
      modulo 2^32. */
  lemma {:induction false} AddToHit(sizes: seq<DescriptorPool.PoolSize>, t: nat, c: nat)
    requires Ordered(sizes)
    ensures Lookup(AddTo(sizes, t, c), t) == Some((Lookup(sizes, t).GetOr(0) + c) % 0x1_0000_0000)
  {
    if |sizes| > 0 {
      if t < sizes[0].descriptorType {
        LookupBelowFirst(sizes, t);
      } else if t > sizes[0].descriptorType {
        AddToHit(sizes[1..], t, c);
      }
    }
  }

  /** Adding to type `t` leaves every other type's entry as it was. */
  lemma {:induction false} AddToMiss(sizes: seq<DescriptorPool.PoolSize>, t: nat, c: nat, u: nat)
    requires Ordered(sizes) && u != t
    ensures Lookup(AddTo(sizes, t, c), u) == Lookup(sizes, u)
  {
    if |sizes| > 0 && t > sizes[0].descriptorType && u != sizes[0].descriptorType {
      AddToMiss(sizes[1..], t, c, u);
    }
  }

  /** The fold over the bindings in `registerType`. */
  function Totals(bindings: seq<Binding>): (r: seq<DescriptorPool.PoolSize>)
    ensures Ordered(r)
  {
    if |bindings| == 0 then []
    else
      var b := bindings[|bindings| - 1];
      AddTo(Totals(bindings[..|bindings| - 1]), b.descriptorType, b.descriptorCount)
  }

  /** The reference definition: the sum of `descriptorCount` over the bindings
      of descriptor type `t`. */
  function CountOf(bindings: seq<Binding>, t: nat): nat {
    if |bindings| == 0 then 0
    else
      var b := bindings[|bindings| - 1];
      CountOf(bindings[..|bindings| - 1], t) + (if b.descriptorType == t then b.descriptorCount else 0)
  }

  predicate HasType(bindings: seq<Binding>, t: nat) {
    exists i :: 0 <= i < |bindings| && bindings[i].descriptorType == t
  }

  lemma ModAdd(a: nat, c: nat)
    ensures (a % 0x1_0000_0000 + c) % 0x1_0000_0000 == (a + c) % 0x1_0000_0000
  {
    var q := a / 0x1_0000_0000;
    assert a == q * 0x1_0000_0000 + a % 0x1_0000_0000;
    assert a + c == q * 0x1_0000_0000 + (a % 0x1_0000_0000 + c);
  }

  /** A binding of type `t` occurs in `bindings + [b]` when it occurs in
      `bindings` or `b` has that type. */
  lemma HasTypeSnoc(bindings: seq<Binding>, t: nat)
    requires |bindings| > 0
    ensures HasType(bindings, t) <==>
      HasType(bindings[..|bindings| - 1], t) || bindings[|bindings| - 1].descriptorType == t
  {
    var init := bindings[..|bindings| - 1];
    if HasType(init, t) {
      var i :| 0 <= i < |init| && init[i].descriptorType == t;
      assert bindings[i] == init[i];
    }
    if HasType(bindings, t) && bindings[|bindings| - 1].descriptorType != t {
      var i :| 0 <= i < |bindings| && bindings[i].descriptorType == t;
      assert init[i] == bindings[i];
    }
  }

  lemma {:induction false} CountOfAbsent(bindings: seq<Binding>, t: nat)
    requires !HasType(bindings, t)
    ensures CountOf(bindings, t) == 0
    decreases |bindings|
  {
    if |bindings| > 0 {
      HasTypeSnoc(bindings, t);
      CountOfAbsent(bindings[..|bindings| - 1], t);
    }
  }

  /** `registerType` gives type `t` the sum, modulo 2^32, of the descriptor
      counts of the bindings of type `t`, and types absent from the bindings
      have no entry. */
  lemma {:induction false} TotalsAreSums(bindings: seq<Binding>, t: nat)
    ensures Lookup(Totals(bindings), t) == if HasType(bindings, t) then Some(CountOf(bindings, t) % 0x1_0000_0000) else None
    decreases |bindings|
  {
    if |bindings| > 0 {
      var n := |bindings| - 1;
      var init := bindings[..n];
      var b := bindings[n];
      TotalsAreSums(init, t);
      HasTypeSnoc(bindings, t);
      var prev := Totals(init);
      var r := AddTo(prev, b.descriptorType, b.descriptorCount);
      assert Totals(bindings) == r;
      if b.descriptorType == t {
        var old_ := Lookup(prev, t).GetOr(0);
        AddToHit(prev, t, b.descriptorCount);
        assert CountOf(bindings, t) == CountOf(init, t) + b.descriptorCount;
        if HasType(init, t) {
          assert old_ == CountOf(init, t) % 0x1_0000_0000;
          ModAdd(CountOf(init, t), b.descriptorCount);
        } else {
          CountOfAbsent(init, t);
          assert old_ == 0;
        }
      } else {
        AddToMiss(prev, b.descriptorType, b.descriptorCount, t);
        assert CountOf(bindings, t) == CountOf(init, t);
      }
    }
  }

  /** `registerType(typeId, bindings)`: a fresh record (new layout `layout`, the
      bindings' totals, no pools, `remSets` 0, `maxSets` 8) replaces whatever
      the id had; other ids are untouched. The layout's constructor ends in a
      `VK_CHECK` on `vkCreateDescriptorSetLayout` (answered by `res`); the
      record is built before `types[typeId]` is assigned, so a failure leaves
      the allocator as it was. */
  function RegisterType(p: AutoPool, typeId: nat, bindings: seq<Binding>, res: VkResult, layout: Handle)
    : (r: Result<AutoPool, Error>)
    ensures r.Success? <==> res == VK_SUCCESS
    ensures r.Failure? ==> r.error == CallFailed("vkCreateDescriptorSetLayout")
    ensures r.Success? ==> r.value.device == p.device && r.value.types.Keys == p.types.Keys + {typeId}
    ensures r.Success? ==> forall id :: id in p.types && id != typeId ==> r.value.types[id] == p.types[id]
    ensures r.Success? ==> var st := r.value.types[typeId];
      && st.setLayout == layout && st.pools == [] && st.remSets == 0 && st.maxSets == 8
      && Valid(st) && Issued(st) == 0
      && forall t :: Lookup(st.poolSizes, t) == if HasType(bindings, t) then Some(CountOf(bindings, t) % 0x1_0000_0000) else None
  {
    var _ :- Utils.VkCheck("vkCreateDescriptorSetLayout", res);
    forall t ensures Lookup(Totals(bindings), t) == if HasType(bindings, t) then Some(CountOf(bindings, t) % 0x1_0000_0000) else None {
      TotalsAreSums(bindings, t);
    }
    Success(p.(types := p.types[typeId := SetType(layout, Totals(bindings), [], 0, 8)]))
  }

  // ---------------------------------------------------------------------------
  // create: capacity arithmetic.

  function Pow2(k: nat): (r: nat)
    ensures r >= 1
  {
    if k == 0 then 1 else 2 * Pow2(k - 1)
  }

  /** The capacity of the k-th pool (0-based): 8 doubled k times. */
  function Cap(k: nat): (r: nat)
    ensures r >= 8
  {
    8 * Pow2(k)
  }

  /** The capacity of the first n pools together. */
  function TotalCap(n: nat): nat {
    if n == 0 then 0 else TotalCap(n - 1) + Cap(n - 1)
  }

  /** The closed form: after n pools the total capacity is 8·(2^n − 1). */
  lemma {:induction false} TotalCapClosedForm(n: nat)
    ensures TotalCap(n) == 8 * (Pow2(n) - 1)
  {
    if n > 0 {
      TotalCapClosedForm(n - 1);
    }
  }

  lemma {:induction false} TotalCapMonotone(m: nat, n: nat)
    requires m <= n
    ensures TotalCap(m) <= TotalCap(n)
    decreases n - m
  {
    if m < n {
      TotalCapMonotone(m, n - 1);
    }
  }

  /** A set's position among every set of its type: the capacity of the earlier
      pools plus its slot. */
  function GlobalIndex(s: DescriptorSet): nat {
    TotalCap(s.pool) + s.slot
  }

  /** Sets inside their pools' capacity are told apart by their global index. */
  lemma GlobalIndexInjective(a: DescriptorSet, b: DescriptorSet)
    requires a.slot < Cap(a.pool) && b.slot < Cap(b.pool)
    requires GlobalIndex(a) == GlobalIndex(b)
    ensures a.pool == b.pool && a.slot == b.slot
  {
    if a.pool < b.pool {
      TotalCapMonotone(a.pool + 1, b.pool);
    } else if b.pool < a.pool {
      TotalCapMonotone(b.pool + 1, a.pool);
    }
  }

  /** The record's shape after registration and any number of `create` calls:
      the k-th pool has capacity 8·2^k and the registered per-set totals (not
      scaled by its capacity), `maxSets` is the next pool's capacity, and
      `remSets` counts what is left in the newest pool. */
  ghost predicate Valid(st: SetType) {
    && st.maxSets == Cap(|st.pools|)
    && (forall k :: 0 <= k < |st.pools| ==> st.pools[k] == PoolRec(Cap(k), st.poolSizes))
    && (|st.pools| == 0 ==> st.remSets == 0)
    && (|st.pools| > 0 ==> st.remSets <= Cap(|st.pools| - 1))
  }

  /** The number of sets this record has handed out. */
  function Issued(st: SetType): int {
    TotalCap(|st.pools|) - st.remSets
  }

  /** The `if (remSets == 0)` block: a new pool with capacity `maxSets` and the
      per-set totals, `remSets` refilled, `maxSets` doubled. */
  function Grow(st: SetType): (r: SetType)
    requires st.remSets == 0
    ensures r.pools == st.pools + [PoolRec(st.maxSets, st.poolSizes)]
    ensures r.remSets == st.maxSets && r.maxSets == 2 * st.maxSets
    ensures r.setLayout == st.setLayout && r.poolSizes == st.poolSizes
  {
    st.(pools := st.pools + [PoolRec(st.maxSets, st.poolSizes)], remSets := st.maxSets, maxSets := st.maxSets * 2)
  }

  function Min(a: nat, b: nat): nat {
    if a < b then a else b
  }

  /** Sets `lo`..`lo + |sets|` of this record, in order: each has the record's
      layout, lies inside the capacity of one of the first `pools` pools, and
      has the next global index. */
  ghost predicate Numbered(sets: seq<DescriptorSet>, layout: Handle, pools: nat, lo: int) {
    forall i :: 0 <= i < |sets| ==>
      && sets[i].layout == layout
      && sets[i].pool < pools && sets[i].slot < Cap(sets[i].pool)
      && GlobalIndex(sets[i]) == lo + i
  }

  lemma NumberedConcat(a: seq<DescriptorSet>, b: seq<DescriptorSet>, layout: Handle, pools: nat, lo: int)
    requires Numbered(a, layout, pools, lo) && Numbered(b, layout, pools, lo + |a|)
    ensures Numbered(a + b, layout, pools, lo)
  {
    forall i | 0 <= i < |a + b|
      ensures (a + b)[i].layout == layout
      ensures (a + b)[i].pool < pools && (a + b)[i].slot < Cap((a + b)[i].pool)
      ensures GlobalIndex((a + b)[i]) == lo + i
    {
      if i >= |a| {
        assert (a + b)[i] == b[i - |a|];
      }
    }
  }

  /** One batch: `b` sets from the newest pool, after the ones it already gave. */
  function Batch(st: SetType, b: nat): (r: seq<DescriptorSet>)
    requires Valid(st) && |st.pools| > 0 && b <= st.remSets
    ensures |r| == b && Numbered(r, st.setLayout, |st.pools|, Issued(st))
  {
    var k := |st.pools| - 1;
    var used := Cap(k) - st.remSets;
    assert Issued(st) == TotalCap(k) + used;
    seq(b, j requires 0 <= j < b => DescriptorSet(st.setLayout, k, used + j))
  }

  lemma NumberedMorePools(sets: seq<DescriptorSet>, layout: Handle, p: nat, q: nat, lo: int)
    requires Numbered(sets, layout, p, lo) && p <= q
    ensures Numbered(sets, layout, q, lo)
  {}

  /** Opening a pool keeps the shape and issues nothing. */
  lemma GrowKeepsValid(st: SetType)
    requires Valid(st) && st.remSets == 0
    ensures Valid(Grow(st)) && Issued(Grow(st)) == Issued(st)
    ensures Grow(st).pools[..|st.pools|] == st.pools && |Grow(st).pools| == |st.pools| + 1
    ensures TotalCap(|st.pools|) == Issued(st)
  {
    assert Grow(st).pools[..|st.pools|] == st.pools;
  }

  /** Taking `b` sets keeps the shape and issues `b` more. */
  lemma TakeKeepsValid(st: SetType, b: nat)
    requires Valid(st) && b <= st.remSets
    ensures Valid(st.(remSets := st.remSets - b))
    ensures Issued(st.(remSets := st.remSets - b)) == Issued(st) + b
  {}

  /** What a `create(typeId, count)` call on a valid record returns: the record
      stays valid and keeps its layout and totals; exactly `count` sets are
      handed out, numbered on from the sets issued before; existing pools are
      kept as a prefix, and a pool is opened only while the sets asked for
      exceed the capacity so far; `count` 0 changes nothing. */
  ghost predicate CreatePost(st: SetType, count: nat, r: (SetType, seq<DescriptorSet>)) {
    && Valid(r.0)
    && |r.1| == count
    && Issued(r.0) == Issued(st) + count
    && Numbered(r.1, st.setLayout, |r.0.pools|, Issued(st))
    && r.0.setLayout == st.setLayout && r.0.poolSizes == st.poolSizes
    && |st.pools| <= |r.0.pools| && r.0.pools[..|st.pools|] == st.pools
    && (|r.0.pools| > |st.pools| ==> TotalCap(|r.0.pools| - 1) < Issued(st) + count)
    && (count == 0 ==> r.0 == st)
  }

  /** The grow branch: opening a pool issues nothing, so the rest of the loop's
      result is a result for the record before the pool was opened. */
  lemma GrowThenRest(st: SetType, count: nat, r: (SetType, seq<DescriptorSet>))
    requires Valid(st) && st.remSets == 0 && count > 0
    requires CreatePost(Grow(st), count, r)
    ensures CreatePost(st, count, r)
  {
    GrowKeepsValid(st);
    var g := Grow(st);
    assert r.0.pools[..|st.pools|] == r.0.pools[..|g.pools|][..|st.pools|];
  }

  /** The batch branch: `b` sets from the newest pool, then the rest of the
      loop's result, make a result for the whole request. */
  lemma BatchThenRest(st: SetType, count: nat, b: nat, rest: (SetType, seq<DescriptorSet>))
    requires Valid(st) && b == Min(count, st.remSets) && b > 0
    requires CreatePost(st.(remSets := st.remSets - b), count - b, rest)
    ensures CreatePost(st, count, (rest.0, Batch(st, b) + rest.1))
  {
    var batch := Batch(st, b);
    TakeKeepsValid(st, b);
    NumberedMorePools(batch, st.setLayout, |st.pools|, |rest.0.pools|, Issued(st));
    NumberedConcat(batch, rest.1, st.setLayout, |rest.0.pools|, Issued(st));
  }

  /** The loop of `create(typeId, count)` when every native call succeeds. An
      iteration grows the record when its newest pool is exhausted, then takes
      a batch of min(count, remSets) sets from the newest pool and lowers both
      counters by it. */
  function Create(st: SetType, count: nat): (r: (SetType, seq<DescriptorSet>))
    requires Valid(st)
    decreases count, if st.remSets == 0 then 1 else 0
    ensures CreatePost(st, count, r)
  {
    if count == 0 then (st, [])
    else if st.remSets == 0 then
      GrowKeepsValid(st);
      var r := Create(Grow(st), count);
      GrowThenRest(st, count, r);
      r
    else
      var b := Min(count, st.remSets);
      TakeKeepsValid(st, b);
      var rest := Create(st.(remSets := st.remSets - b), count - b);
      BatchThenRest(st, count, b, rest);
      (rest.0, Batch(st, b) + rest.1)
  }

  /** The driver's answer to the next native call; calls past the end of the
      given answers succeed. */
  function Next(drv: seq<VkResult>): VkResult {
    if |drv| == 0 then VK_SUCCESS else drv[0]
  }

  function Rest(drv: seq<VkResult>): seq<VkResult> {
    if |drv| == 0 then [] else drv[1..]
  }

  predicate AllSucceed(drv: seq<VkResult>) {
    forall i :: 0 <= i < |drv| ==> drv[i] == VK_SUCCESS
  }

  /** Some call among `drv` fails. */
  predicate SomeFails(drv: seq<VkResult>) {
    exists i :: 0 <= i < |drv| && drv[i] != VK_SUCCESS
  }

  lemma SomeFailsRest(drv: seq<VkResult>)
    requires SomeFails(Rest(drv))
    ensures SomeFails(drv)
  {
    var i :| 0 <= i < |Rest(drv)| && Rest(drv)[i] != VK_SUCCESS;
    assert drv[i + 1] == Rest(drv)[i];
  }

  /** What a `create` loop that throws leaves: a valid record with the same
      layout and totals and the old pools as a prefix, on which some but not
      all of the requested sets count as issued; the error names the pool
      creation or the allocation, and some answer in `drv` was a failure. */
  ghost predicate FailPost(st: SetType, count: nat, drv: seq<VkResult>, left: SetType, e: Error) {
    && Valid(left) && left.setLayout == st.setLayout && left.poolSizes == st.poolSizes
    && Issued(st) <= Issued(left) < Issued(st) + count
    && |st.pools| <= |left.pools| && left.pools[..|st.pools|] == st.pools
    && (e == CallFailed("vkCreateDescriptorPool") || e == CallFailed("vkAllocateDescriptorSets"))
    && SomeFails(drv)
  }

  /** A throw after a pool was opened is a throw of the whole loop. */
  lemma GrowThenFail(st: SetType, count: nat, drv: seq<VkResult>, left: SetType, e: Error)
    requires Valid(st) && st.remSets == 0 && count > 0
    requires FailPost(Grow(st), count, Rest(drv), left, e)
    ensures FailPost(st, count, drv, left, e)
  {
    GrowKeepsValid(st);
    SomeFailsRest(drv);
    assert left.pools[..|st.pools|] == left.pools[..|Grow(st).pools|][..|st.pools|];
  }

  /** A throw after a batch was taken is a throw of the whole loop. */
  lemma BatchThenFail(st: SetType, count: nat, b: nat, drv: seq<VkResult>, left: SetType, e: Error)
    requires Valid(st) && b == Min(count, st.remSets) && b > 0
    requires FailPost(st.(remSets := st.remSets - b), count - b, Rest(drv), left, e)
    ensures FailPost(st, count, drv, left, e)
  {
    TakeKeepsValid(st, b);
    SomeFailsRest(drv);
  }

  /** The same loop with the driver's answers `drv`, one per native call in
      call order: each new pool is a `DescriptorPool` whose constructor ends in
      `VK_CHECK(vkCreateDescriptorPool)`, and each batch ends in
      `VK_CHECK(vkAllocateDescriptorSets)`. A throw leaves the record as the
      earlier iterations left it: a failed pool is not added, a failed batch
      leaves its pool added and `remSets` not lowered, and the sets of the
      earlier batches stay counted as issued but are not returned. */
  function CreateChecked(st: SetType, count: nat, drv: seq<VkResult>)
    : (r: (SetType, Result<seq<DescriptorSet>, Error>))
    requires Valid(st)
    decreases count, if st.remSets == 0 then 1 else 0
    ensures r.1.Success? ==> CreatePost(st, count, (r.0, r.1.value))
    ensures r.1.Failure? ==> FailPost(st, count, drv, r.0, r.1.error)
  {
    if count == 0 then (st, Success([]))
    else if st.remSets == 0 then
      if Next(drv) != VK_SUCCESS then
        assert drv[0] != VK_SUCCESS;
        (st, Failure(CallFailed("vkCreateDescriptorPool")))
      else
        GrowKeepsValid(st);
        var r := CreateChecked(Grow(st), count, Rest(drv));
        if r.1.Success? then GrowThenRest(st, count, (r.0, r.1.value)); r
        else GrowThenFail(st, count, drv, r.0, r.1.error); r
    else
      var b := Min(count, st.remSets);
      if Next(drv) != VK_SUCCESS then
        assert drv[0] != VK_SUCCESS;
        (st, Failure(CallFailed("vkAllocateDescriptorSets")))
      else
        TakeKeepsValid(st, b);
        var rest := CreateChecked(st.(remSets := st.remSets - b), count - b, Rest(drv));
        if rest.1.Success? then
          BatchThenRest(st, count, b, (rest.0, rest.1.value));
          (rest.0, Success(Batch(st, b) + rest.1.value))
        else
          BatchThenFail(st, count, b, drv, rest.0, rest.1.error);
          rest
  }

  /** When the driver grants every call, the checked loop is the plain one. */
  lemma {:induction false} AllSucceedIsCreate(st: SetType, count: nat, drv: seq<VkResult>)
    requires Valid(st) && AllSucceed(drv)
    ensures CreateChecked(st, count, drv) == (Create(st, count).0, Success(Create(st, count).1))
    decreases count, if st.remSets == 0 then 1 else 0
  {
    if count > 0 {
      assert Next(drv) == VK_SUCCESS;
      assert AllSucceed(Rest(drv));
      if st.remSets == 0 {
        GrowKeepsValid(st);
        AllSucceedIsCreate(Grow(st), count, Rest(drv));
        assert CreateChecked(st, count, drv) == CreateChecked(Grow(st), count, Rest(drv));
        assert Create(st, count) == Create(Grow(st), count);
      } else {
        var b := Min(count, st.remSets);
        var t := st.(remSets := st.remSets - b);
        TakeKeepsValid(st, b);
        AllSucceedIsCreate(t, count - b, Rest(drv));
        assert Create(st, count) == (Create(t, count - b).0, Batch(st, b) + Create(t, count - b).1);
      }
    }
  }

  /** Nine sets from a fresh record: the first pool (8 sets) and its batch
      succeed, the second pool's creation fails. The record keeps the first
      pool exhausted, its 8 sets count as issued, and none is returned. */
  lemma FailedSecondPoolLosesFirstBatch(layout: Handle, sizes: seq<DescriptorPool.PoolSize>)
    ensures var st := SetType(layout, sizes, [], 0, 8);
      var r := CreateChecked(st, 9, [VK_SUCCESS, VK_SUCCESS, VK_ERROR_OUT_OF_POOL_MEMORY]);
      && r.1 == Failure(CallFailed("vkCreateDescriptorPool"))
      && r.0.pools == [PoolRec(8, sizes)] && r.0.remSets == 0 && Issued(r.0) == 8
  {
    var st := SetType(layout, sizes, [], 0, 8);
    var drv := [VK_SUCCESS, VK_SUCCESS, VK_ERROR_OUT_OF_POOL_MEMORY];
    assert Valid(st);
    var g := Grow(st);
    GrowKeepsValid(st);
    assert Rest(drv) == [VK_SUCCESS, VK_ERROR_OUT_OF_POOL_MEMORY];
    assert Min(9, g.remSets) == 8;
    var t := g.(remSets := 0);
    TakeKeepsValid(g, 8);
    assert Rest(Rest(drv)) == [VK_ERROR_OUT_OF_POOL_MEMORY];
    assert CreateChecked(t, 1, Rest(Rest(drv))) == (t, Failure(CallFailed("vkCreateDescriptorPool")));
    assert CreateChecked(g, 9, Rest(drv)) == CreateChecked(t, 1, Rest(Rest(drv)));
  }

  /** The pools a series of requests leaves: the fewest whose capacity covers
      every set issued. */
  lemma PoolsAreMinimal(st: SetType, count: nat)
    requires Valid(st) && count > 0
    requires |st.pools| == 0 || Issued(st) > TotalCap(|st.pools| - 1)
    ensures var r := Create(st, count).0;
      TotalCap(|r.pools| - 1) < Issued(r) <= TotalCap(|r.pools|)
  {
    var r := Create(st, count).0;
    if |r.pools| == |st.pools| {
      assert st.pools != [];
    }
  }

  /** `create(typeId, count)`, with the driver's answers `drv`. With `count` 0
      the loop does not run, but the lookup still default-inserts a record for
      an unregistered id. Otherwise the id must be registered: for an
      unregistered id every iteration opens a pool of capacity 0 and takes
      nothing (`UnregisteredNeverProgresses`). Whatever the outcome, the record
      the loop left is stored under the id. */
  function CreateSets(p: AutoPool, typeId: nat, count: nat, drv: seq<VkResult>)
    : (r: (AutoPool, Result<seq<DescriptorSet>, Error>))
    requires count == 0 || (typeId in p.types && Valid(p.types[typeId]))
    ensures r.1.Success? ==> |r.1.value| == count
    ensures r.1.Failure? ==> SomeFails(drv)
    ensures r.0.device == p.device && r.0.types.Keys == p.types.Keys + {typeId}
    ensures forall id :: id in p.types && id != typeId ==> r.0.types[id] == p.types[id]
    ensures typeId !in p.types ==> r.0.types[typeId] == Unregistered && r.1 == Success([])
    ensures typeId in p.types && Valid(p.types[typeId]) ==>
      var st := p.types[typeId];
      && Valid(r.0.types[typeId])
      && (r.1.Success? ==> Issued(r.0.types[typeId]) == Issued(st) + count
                           && Numbered(r.1.value, st.setLayout, |r.0.types[typeId].pools|, Issued(st)))
      && (r.1.Failure? ==> Issued(st) <= Issued(r.0.types[typeId]) < Issued(st) + count)
  {
    var st := if typeId in p.types then p.types[typeId] else Unregistered;
    if count == 0 then (p.(types := p.types[typeId := st]), Success([]))
    else
      var c := CreateChecked(st, count, drv);
      (p.(types := p.types[typeId := c.0]), c.1)
  }

  /** `create(type)`: the only element of `create(type, 1)`. */
  function CreateOne(p: AutoPool, typeId: nat, drv: seq<VkResult>): (r: (AutoPool, Result<DescriptorSet, Error>))
    requires typeId in p.types && Valid(p.types[typeId])
    ensures typeId in r.0.types && r.0 == CreateSets(p, typeId, 1, drv).0
    ensures r.1.Success? <==> CreateSets(p, typeId, 1, drv).1.Success?
    ensures var st := p.types[typeId];
      && Valid(r.0.types[typeId])
      && (r.1.Success? ==> r.1.value.layout == st.setLayout && GlobalIndex(r.1.value) == Issued(st)
                           && Issued(r.0.types[typeId]) == Issued(st) + 1)
      && (r.1.Failure? ==> Issued(r.0.types[typeId]) == Issued(st))
  {
    var c := CreateSets(p, typeId, 1, drv);
    match c.1
    case Success(sets) => (c.0, Success(sets[0]))
    case Failure(e) => (c.0, Failure(e))
  }

  /** For an unregistered id, the loop body opens a pool of capacity 0, leaves
      `remSets` at 0 and takes a batch of 0 sets, so `count` never drops. */
  lemma UnregisteredNeverProgresses(count: nat)
    requires count > 0
    ensures var g := Grow(Unregistered);
      g.remSets == 0 && Min(count, g.remSets) == 0 && g.maxSets == 0
  {}

  /** Two `create` calls on the same type never hand out the same set: the
      second call's sets come after everything the first call issued. */
  lemma SuccessiveCallsAreDisjoint(st: SetType, m: nat, n: nat)
    requires Valid(st)
    ensures var first := Create(st, m);
      var second := Create(first.0, n);
      forall i, j :: 0 <= i < m && 0 <= j < n ==> first.1[i] != second.1[j]
  {
    var first := Create(st, m);
    var second := Create(first.0, n);
    forall i, j | 0 <= i < m && 0 <= j < n ensures first.1[i] != second.1[j] {
      assert GlobalIndex(first.1[i]) < GlobalIndex(second.1[j]);
    }
  }

  /** Within one call the sets are pairwise distinct. */
  lemma CreateSetsAreDistinct(st: SetType, count: nat)
    requires Valid(st)
    ensures var r := Create(st, count).1;
      forall i, j :: 0 <= i < j < count ==> r[i] != r[j]
  {
    var r := Create(st, count).1;
    forall i, j | 0 <= i < j < count ensures r[i] != r[j] {
      assert GlobalIndex(r[i]) < GlobalIndex(r[j]);
    }
  }
}

=== FILE: buffer.dfy ===
/** `Buffer`: an owned buffer handle. Its create-info passes the queue
    families as a list with its own count. Unlike the other wrappers, its
    move-assignment copies the device rather than moving it. */
module Buffer {
  import opened Wrappers
  import opened Vk
  import Handles
  import Utils

  /** `BufferCreateInfo`. */
  datatype CreateInfo = CreateInfo(size: nat, usage: nat, sharingMode: nat, queueFamilyIndices: seq<nat>)

  /** `VkBufferCreateInfo`. */
  datatype NativeCreateInfo = NativeCreateInfo(flags: nat, size: nat, usage: nat, sharingMode: nat,
                                               queueFamilyIndices: NativeArray<nat>)

  /** The constructor: create the buffer from the caller's fields, the queue
      family list passed whole with its length as the count. */
  function Create(device: nat, info: CreateInfo, res: VkResult, h: Handle)
    : (r: Result<(Handles.Owned, NativeCreateInfo), Error>)
    ensures r.Success? <==> res == VK_SUCCESS
    ensures r.Success? ==> r.value.0 == Handles.Owned(Some(device), h)
    ensures r.Success? ==> var n := r.value.1;
      && n.flags == 0 && n.size == info.size && n.usage == info.usage && n.sharingMode == info.sharingMode
      && n.queueFamilyIndices.count == |info.queueFamilyIndices|
      && Read(n.queueFamilyIndices) == Some(info.queueFamilyIndices)
  {
    var _ :- Utils.VkCheck("vkCreateBuffer", res);
    Success((Handles.Owned(Some(device), h),
             NativeCreateInfo(0, info.size, info.usage, info.sharingMode, FromVector(info.queueFamilyIndices))))
  }

  /** Move-assignment destroys the target's buffer and takes the source's
      handle; the source keeps its device (a copy, not a move) but holds no
      handle, so destroying it afterwards releases nothing. */
  lemma MoveCopiesDevice(dst: Handles.Owned, src: Handles.Owned)
    requires dst.handle == NULL_HANDLE || dst.parent.Some?
    ensures var m := Handles.MoveAssign(Handles.BufferKind, dst, src);
      && m.0 == src
      && m.1 == Handles.Owned(src.parent, NULL_HANDLE)
      && Handles.Destroy(Handles.BufferKind, m.1).1 == []
      && Handles.Released(m.2) == (if dst.handle == NULL_HANDLE then {} else {dst.handle})
  {}
}

=== FILE: command_buffer.dfy ===
/** `CommandBuffer` and its two scope objects. A `CommandBufferRecording`
    begins recording when built and ends it when destroyed; a
    `CommandBufferRenderPass` is built from a shared recording, begins a render
    pass, ends it when destroyed, and keeps the objects it uses alive in its
    private `boundRefs` list. One command buffer is modelled with the state of
    its scopes and the trace of native calls issued on it. */
module CommandBuffer {
  import opened Wrappers
  import opened Vk
  import Utils

  const VK_PIPELINE_BIND_POINT_GRAPHICS: nat := 0

  /** The objects a render-pass scope co-owns. */
  datatype Ref =
    | RenderPassRef(renderPass: Handle)
    | RecordingRef
    | FramebufferRef(framebuffer: Handle)
    | PipelineRef(pipeline: Handle)

  datatype Rect2D = Rect2D(x: int, y: int, width: nat, height: nat)

  /** `RenderPassBeginInfo`: render pass and framebuffer held by shared
      ownership, the area, the clear values and the subpass contents. */
  datatype RenderPassBeginInfo = RenderPassBeginInfo(
    renderPass: Handle, framebuffer: Handle, renderArea: Rect2D,
    clearValues: seq<nat>, subpassContents: nat)

  /** The native calls issued on one command buffer. */
  datatype Cmd =
    | AllocateCommandBuffers(pool: Handle, level: nat, count: nat)
    | FreeCommandBuffers(pool: Handle, count: nat, buffer: Handle)
    | ResetCommandBuffer(buffer: Handle, flags: nat)
    | BeginCommandBuffer(buffer: Handle, flags: nat)
    | EndCommandBuffer(buffer: Handle)
    | CmdBeginRenderPass(buffer: Handle, renderPass: Handle, framebuffer: Handle,
                         renderArea: Rect2D, clearValues: NativeArray<nat>, contents: nat)
    | CmdEndRenderPass(buffer: Handle)
    | CmdBindPipeline(buffer: Handle, bindPoint: nat, pipeline: Handle)
    | CmdBindVertexBuffers(buffer: Handle, firstBinding: nat, buffers: NativeArray<Handle>,
                           offsets: NativeArray<nat>)
    | CmdBindDescriptorSets(buffer: Handle, bindPoint: nat, layout: Handle, firstSet: nat,
                            sets: NativeArray<Handle>, dynamicOffsets: NativeArray<nat>)

  /** A live render-pass scope: its render pass, framebuffer and `boundRefs`. */
  datatype PassScope = PassScope(renderPass: Handle, framebuffer: Handle, boundRefs: seq<Ref>)

  /** A live recording scope: `holders` counts the caller's `shared_ptr` copies;
      a live render-pass scope holds one more through its `boundRefs`. */
  datatype Recording = Recording(holders: nat, pass: Option<PassScope>)

  /** A command buffer: its handle and pool, the live recording (if any),
      whether it has been freed, and the calls issued so far. */
  datatype CmdBuf = CmdBuf(handle: Handle, pool: Handle, rec: Option<Recording>, freed: bool, trace: seq<Cmd>)

  /** The constructor: allocate exactly one buffer of `level` from `pool`. */
  function Allocate(pool: Handle, level: nat, res: VkResult, h: Handle): (r: Result<CmdBuf, Error>)
    requires h != NULL_HANDLE
    ensures r.Success? <==> res == VK_SUCCESS
    ensures r.Success? ==> r.value.handle == h && r.value.pool == pool && r.value.rec.None? && !r.value.freed
    ensures r.Success? ==> r.value.trace == [AllocateCommandBuffers(pool, level, 1)]
  {
    var _ :- Utils.VkCheck("vkAllocateCommandBuffers", res);
    Success(CmdBuf(h, pool, None, false, [AllocateCommandBuffers(pool, level, 1)]))
  }

  /** The finalizer registered by the constructor frees the buffer through the
      pool it came from. A recording co-owns the buffer, so this happens only
      when no recording is alive. */
  function Free(cb: CmdBuf): (r: CmdBuf)
    requires !cb.freed && cb.rec.None?
    ensures r.freed && r.rec.None?
    ensures r.trace == cb.trace + [FreeCommandBuffers(cb.pool, 1, cb.handle)]
  {
    cb.(freed := true, trace := cb.trace + [FreeCommandBuffers(cb.pool, 1, cb.handle)])
  }

  /** `reset(flags)`, default flags 0, failing as `vkResetCommandBuffer`
      reports in `res`. The source does not look at the state; not resetting
      while recording is the caller's duty. */
  function Reset(cb: CmdBuf, flags: nat, res: VkResult): (r: Result<CmdBuf, Error>)
    requires !cb.freed && cb.rec.None?
    ensures r.Success? <==> res == VK_SUCCESS
    ensures r.Failure? ==> r.error == CallFailed("vkResetCommandBuffer")
    ensures r.Success? ==> r.value.rec.None? && r.value.trace == cb.trace + [ResetCommandBuffer(cb.handle, flags)]
  {
    var _ :- Utils.VkCheck("vkResetCommandBuffer", res);
    Success(cb.(trace := cb.trace + [ResetCommandBuffer(cb.handle, flags)]))
  }

  /** The `CommandBufferRecording` constructor: begin recording with the given
      usage flags; the caller now holds the one `shared_ptr` to the scope. No
      double-begin guard exists, so the buffer must not be recording already. */
  function BeginRecording(cb: CmdBuf, flags: nat, res: VkResult): (r: Result<CmdBuf, Error>)
    requires !cb.freed && cb.rec.None?
    ensures r.Success? <==> res == VK_SUCCESS
    ensures r.Success? ==> r.value.rec == Some(Recording(1, None))
    ensures r.Success? ==> r.value.trace == cb.trace + [BeginCommandBuffer(cb.handle, flags)]
  {
    var _ :- Utils.VkCheck("vkBeginCommandBuffer", res);
    Success(cb.(rec := Some(Recording(1, None)), trace := cb.trace + [BeginCommandBuffer(cb.handle, flags)]))
  }

  /** No owner is left: neither a caller copy nor a render-pass scope. */
  predicate Unowned(rec: Recording) {
    rec.holders == 0 && rec.pass.None?
  }

  /** The recording's destructor, run when its last owner lets go. Its
      `vkEndCommandBuffer` goes through `VK_CHECK`; an exception leaving a
      destructor ends the program, which is the `Failure` here. */
  function EndIfUnowned(cb: CmdBuf, res: VkResult): (r: Result<CmdBuf, Error>)
    requires cb.rec.Some?
    ensures r.Failure? <==> Unowned(cb.rec.value) && res != VK_SUCCESS
    ensures r.Failure? ==> r.error == CallFailed("vkEndCommandBuffer")
    ensures r.Success? && Unowned(cb.rec.value) ==>
      r.value.rec.None? && r.value.trace == cb.trace + [EndCommandBuffer(cb.handle)]
    ensures !Unowned(cb.rec.value) ==> r == Success(cb)
  {
    if Unowned(cb.rec.value) then
      var _ :- Utils.VkCheck("vkEndCommandBuffer", res);
      Success(cb.(rec := None, trace := cb.trace + [EndCommandBuffer(cb.handle)]))
    else Success(cb)
  }

  /** Copying the caller's `shared_ptr` to the recording. */
  function ShareRecording(cb: CmdBuf): (r: CmdBuf)
    requires cb.rec.Some? && cb.rec.value.holders > 0
    ensures r.rec == Some(cb.rec.value.(holders := cb.rec.value.holders + 1)) && r.trace == cb.trace
  {
    cb.(rec := Some(cb.rec.value.(holders := cb.rec.value.holders + 1)))
  }

  /** Dropping one of the caller's copies; the last owner ends the recording,
      unless a render-pass scope still holds it. Only that end can fail. */
  function ReleaseRecording(cb: CmdBuf, res: VkResult): (r: Result<CmdBuf, Error>)
    requires cb.rec.Some? && cb.rec.value.holders > 0
    ensures r.Failure? <==> cb.rec.value.holders == 1 && cb.rec.value.pass.None? && res != VK_SUCCESS
    ensures r.Success? && cb.rec.value.holders == 1 && cb.rec.value.pass.None? ==>
      r.value.rec.None? && r.value.trace == cb.trace + [EndCommandBuffer(cb.handle)]
    ensures cb.rec.value.holders > 1 || cb.rec.value.pass.Some? ==>
      r.Success? && r.value.rec == Some(cb.rec.value.(holders := cb.rec.value.holders - 1)) && r.value.trace == cb.trace
  {
    EndIfUnowned(cb.(rec := Some(cb.rec.value.(holders := cb.rec.value.holders - 1))), res)
  }

  /** `bindDescriptorSets`: without dynamic offsets the call gets count 0 and a
      null pointer, otherwise their length and data. */
  function BindDescriptorSets(cb: CmdBuf, bindPoint: nat, layout: Handle, firstSet: nat,
                              sets: seq<Handle>, dynamicOffsets: Option<seq<nat>>): (r: CmdBuf)
    requires cb.rec.Some?
    ensures r.rec == cb.rec && |r.trace| == |cb.trace| + 1 && r.trace[..|cb.trace|] == cb.trace
    ensures var c := r.trace[|cb.trace|];
      && c.CmdBindDescriptorSets? && c.buffer == cb.handle && c.bindPoint == bindPoint
      && c.layout == layout && c.firstSet == firstSet
      && Read(c.sets) == Some(sets)
      && (dynamicOffsets.None? ==> c.dynamicOffsets == NativeArray(0, Null))
      && (dynamicOffsets.Some? ==> Read(c.dynamicOffsets) == Some(dynamicOffsets.value)
                                   && c.dynamicOffsets.count == |dynamicOffsets.value|)
  {
    var offs := match dynamicOffsets
      case None => NativeArray(0, Null)
      case Some(o) => FromVector(o);
    var t := cb.trace + [CmdBindDescriptorSets(cb.handle, bindPoint, layout, firstSet, FromVector(sets), offs)];
    assert t[..|cb.trace|] == cb.trace;
    cb.(trace := t)
  }

  /** The `CommandBufferRenderPass` constructor: record the render pass, the
      recording and the framebuffer in `boundRefs`, in that order, then begin
      the render pass. It takes the recording through a caller-held
      `shared_ptr`; one render pass at a time is the caller's duty. */
  function BeginRenderPass(cb: CmdBuf, info: RenderPassBeginInfo): (r: CmdBuf)
    requires cb.rec.Some? && cb.rec.value.holders > 0 && cb.rec.value.pass.None?
    ensures r.rec.Some? && r.rec.value.holders == cb.rec.value.holders
    ensures r.rec.value.pass == Some(PassScope(info.renderPass, info.framebuffer,
                                     [RenderPassRef(info.renderPass), RecordingRef, FramebufferRef(info.framebuffer)]))
    ensures |r.trace| == |cb.trace| + 1 && r.trace[..|cb.trace|] == cb.trace
    ensures var c := r.trace[|cb.trace|];
      && c.CmdBeginRenderPass? && c.buffer == cb.handle
      && c.renderPass == info.renderPass && c.framebuffer == info.framebuffer
      && c.renderArea == info.renderArea && c.contents == info.subpassContents
      && Read(c.clearValues) == Some(info.clearValues)
  {
    var refs := [RenderPassRef(info.renderPass), RecordingRef, FramebufferRef(info.framebuffer)];
    var c := CmdBeginRenderPass(cb.handle, info.renderPass, info.framebuffer, info.renderArea,
                                FromVector(info.clearValues), info.subpassContents);
    var t := cb.trace + [c];
    assert t[..|cb.trace|] == cb.trace;
    cb.(rec := Some(Recording(cb.rec.value.holders, Some(PassScope(info.renderPass, info.framebuffer, refs)))),
        trace := t)
  }

  /** `bindPipeline`: keep the pipeline alive, then bind it for graphics. */
  function BindPipeline(cb: CmdBuf, pipeline: Handle): (r: CmdBuf)
    requires cb.rec.Some? && cb.rec.value.pass.Some?
    ensures r.rec.Some? && r.rec.value.holders == cb.rec.value.holders && r.rec.value.pass.Some?
    ensures var p := cb.rec.value.pass.value;
      r.rec.value.pass == Some(p.(boundRefs := p.boundRefs + [PipelineRef(pipeline)]))
    ensures r.trace == cb.trace + [CmdBindPipeline(cb.handle, VK_PIPELINE_BIND_POINT_GRAPHICS, pipeline)]
  {
    var p := cb.rec.value.pass.value;
    cb.(rec := Some(cb.rec.value.(pass := Some(p.(boundRefs := p.boundRefs + [PipelineRef(pipeline)])))),
        trace := cb.trace + [CmdBindPipeline(cb.handle, VK_PIPELINE_BIND_POINT_GRAPHICS, pipeline)])
  }

  /** `bindVertexBuffers`: split the (buffer, offset) pairs into two arrays of
      the input's length and order, starting at binding 0. The buffers are not
      added to `boundRefs`. */
  function BindVertexBuffers(cb: CmdBuf, buffersAndOffsets: seq<(Handle, nat)>): (r: CmdBuf)
    requires cb.rec.Some? && cb.rec.value.pass.Some?
    ensures r.rec == cb.rec
    ensures |r.trace| == |cb.trace| + 1 && r.trace[..|cb.trace|] == cb.trace
    ensures var c := r.trace[|cb.trace|];
      && c.CmdBindVertexBuffers? && c.buffer == cb.handle && c.firstBinding == 0
      && c.buffers.count == |buffersAndOffsets| && c.offsets.count == |buffersAndOffsets|
      && Read(c.buffers).Some? && Read(c.offsets).Some?
      && forall i :: 0 <= i < |buffersAndOffsets| ==>
           Read(c.buffers).value[i] == buffersAndOffsets[i].0 && Read(c.offsets).value[i] == buffersAndOffsets[i].1
  {
    var split := Utils.Unzip(buffersAndOffsets);
    var t := cb.trace + [CmdBindVertexBuffers(cb.handle, 0, FromVector(split.0), FromVector(split.1))];
    assert t[..|cb.trace|] == cb.trace;
    cb.(trace := t)
  }

  /** The render-pass scope's destructor: end the render pass, then release
      `boundRefs`; if that was the recording's last owner, recording ends too,
      and that end (reported in `res`) is the only part that can fail. */
  function EndRenderPass(cb: CmdBuf, res: VkResult): (r: Result<CmdBuf, Error>)
    requires cb.rec.Some? && cb.rec.value.pass.Some?
    ensures r.Failure? <==> cb.rec.value.holders == 0 && res != VK_SUCCESS
    ensures r.Success? && cb.rec.value.holders == 0 ==>
      r.value.rec.None? && r.value.trace == cb.trace + [CmdEndRenderPass(cb.handle), EndCommandBuffer(cb.handle)]
    ensures cb.rec.value.holders > 0 ==>
      r.Success? && r.value.rec == Some(Recording(cb.rec.value.holders, None))
      && r.value.trace == cb.trace + [CmdEndRenderPass(cb.handle)]
  {
    var r := EndIfUnowned(cb.(rec := Some(Recording(cb.rec.value.holders, None)),
                              trace := cb.trace + [CmdEndRenderPass(cb.handle)]), res);
    assert cb.trace + [CmdEndRenderPass(cb.handle)] + [EndCommandBuffer(cb.handle)]
        == cb.trace + [CmdEndRenderPass(cb.handle), EndCommandBuffer(cb.handle)];
    r
  }

  // ---------------------------------------------------------------------------
  // Everything a program can do with one command buffer, and the shape of the
  // trace that results.

  datatype Op =
    | ResetOp(flags: nat)
    | BeginRecordingOp(flags: nat)
    | ShareRecordingOp
    | ReleaseRecordingOp
    | BindDescriptorSetsOp(bindPoint: nat, layout: Handle, firstSet: nat, sets: seq<Handle>, dynamicOffsets: Option<seq<nat>>)
    | BeginRenderPassOp(info: RenderPassBeginInfo)
    | BindPipelineOp(pipeline: Handle)
    | BindVertexBuffersOp(buffersAndOffsets: seq<(Handle, nat)>)
    | EndRenderPassOp
    | FreeOp

  /** The preconditions above: an operation on a scope needs that scope alive
      (and, for the caller's copies of the recording, one to be held). Three
      of them are usage rules the C++ wrapper leaves to its caller rather
      than enforces: no reset and no second begin while a recording is alive,
      and no second render pass while one is open. */
  predicate Enabled(cb: CmdBuf, op: Op) {
    !cb.freed &&
    match op
    case ResetOp(_) => cb.rec.None?
    case BeginRecordingOp(_) => cb.rec.None?
    case ShareRecordingOp => cb.rec.Some? && cb.rec.value.holders > 0
    case ReleaseRecordingOp => cb.rec.Some? && cb.rec.value.holders > 0
    case BindDescriptorSetsOp(_, _, _, _, _) => cb.rec.Some?
    case BeginRenderPassOp(_) => cb.rec.Some? && cb.rec.value.holders > 0 && cb.rec.value.pass.None?
    case BindPipelineOp(_) => cb.rec.Some? && cb.rec.value.pass.Some?
    case BindVertexBuffersOp(_) => cb.rec.Some? && cb.rec.value.pass.Some?
    case EndRenderPassOp => cb.rec.Some? && cb.rec.value.pass.Some?
    case FreeOp => cb.rec.None?
  }

  /** One operation, every native call taken to succeed: a failed reset or
      begin throws to the caller, leaving the buffer as it was, and a failed
      end throws out of a destructor, which ends the program. */
  function Step(cb: CmdBuf, op: Op): CmdBuf
    requires Enabled(cb, op)
  {
    match op
    case ResetOp(flags) => Reset(cb, flags, VK_SUCCESS).value
    case BeginRecordingOp(flags) => BeginRecording(cb, flags, VK_SUCCESS).value
    case ShareRecordingOp => ShareRecording(cb)
    case ReleaseRecordingOp => ReleaseRecording(cb, VK_SUCCESS).value
    case BindDescriptorSetsOp(bp, l, f, s, d) => BindDescriptorSets(cb, bp, l, f, s, d)
    case BeginRenderPassOp(info) => BeginRenderPass(cb, info)
    case BindPipelineOp(p) => BindPipeline(cb, p)
    case BindVertexBuffersOp(bo) => BindVertexBuffers(cb, bo)
    case EndRenderPassOp => EndRenderPass(cb, VK_SUCCESS).value
    case FreeOp => Free(cb)
  }

  /** Where a trace leaves the buffer. */
  datatype Phase = Unallocated | Idle | Recording_ | InRenderPass | Freed

  /** The automaton for `Allocate (Reset* (Begin (BeginRP … EndRP | bind)* End))* Free`:
      recording ends only outside a render pass, and render passes only open
      inside a recording. */
  function Advance(p: Option<Phase>, h: Handle, c: Cmd): Option<Phase> {
    match p
    case None => None
    case Some(ph) =>
      match c
      case AllocateCommandBuffers(_, _, _) => if ph == Unallocated then Some(Idle) else None
      case FreeCommandBuffers(_, _, b) => if ph == Idle && b == h then Some(Freed) else None
      case ResetCommandBuffer(b, _) => if ph == Idle && b == h then p else None
      case BeginCommandBuffer(b, _) => if ph == Idle && b == h then Some(Recording_) else None
      case EndCommandBuffer(b) => if ph == Recording_ && b == h then Some(Idle) else None
      case CmdBeginRenderPass(b, _, _, _, _, _) => if ph == Recording_ && b == h then Some(InRenderPass) else None
      case CmdEndRenderPass(b) => if ph == InRenderPass && b == h then Some(Recording_) else None
      case CmdBindPipeline(b, _, _) => if ph == InRenderPass && b == h then p else None
      case CmdBindVertexBuffers(b, _, _, _) => if ph == InRenderPass && b == h then p else None
      case CmdBindDescriptorSets(b, _, _, _, _, _) =>
        if (ph == Recording_ || ph == InRenderPass) && b == h then p else None
  }

  function Replay(h: Handle, trace: seq<Cmd>): Option<Phase> {
    if |trace| == 0 then Some(Unallocated)
    else Advance(Replay(h, trace[..|trace| - 1]), h, trace[|trace| - 1])
  }

  function PhaseOf(cb: CmdBuf): Phase {
    if cb.freed then Freed
    else match cb.rec
      case None => Idle
      case Some(r) => if r.pass.Some? then InRenderPass else Recording_
  }

  /** The trace agrees with the scope objects alive, and a live render-pass
      scope holds its render pass, the recording and its framebuffer as its
      first three references. A recording with no caller copies is alive only
      because a render-pass scope holds it. */
  ghost predicate Inv(cb: CmdBuf) {
    && Replay(cb.handle, cb.trace) == Some(PhaseOf(cb))
    && (cb.freed ==> cb.rec.None?)
    && (cb.rec.Some? ==> cb.rec.value.holders > 0 || cb.rec.value.pass.Some?)
    && (cb.rec.Some? && cb.rec.value.pass.Some? ==>
          var p := cb.rec.value.pass.value;
          |p.boundRefs| >= 3 &&
          p.boundRefs[..3] == [RenderPassRef(p.renderPass), RecordingRef, FramebufferRef(p.framebuffer)])
  }

  lemma ReplayAppend(h: Handle, t: seq<Cmd>, c: Cmd)
    ensures Replay(h, t + [c]) == Advance(Replay(h, t), h, c)
  {
    assert (t + [c])[..|t|] == t;
  }

  lemma AllocateInv(pool: Handle, level: nat, h: Handle)
    requires h != NULL_HANDLE
    ensures Inv(Allocate(pool, level, VK_SUCCESS, h).value)
  {
    ReplayAppend(h, [], AllocateCommandBuffers(pool, level, 1));
  }

  /** `b` is `a` later on: the same buffer, with calls only appended. */
  ghost predicate Extends(a: CmdBuf, b: CmdBuf) {
    b.handle == a.handle && |a.trace| <= |b.trace| && b.trace[..|a.trace|] == a.trace
  }

  /** While a render-pass scope stays alive its `boundRefs` only grow. */
  ghost predicate RefsGrow(a: CmdBuf, b: CmdBuf) {
    a.rec.Some? && a.rec.value.pass.Some? && b.rec.Some? && b.rec.value.pass.Some? ==>
      var x := a.rec.value.pass.value.boundRefs;
      var y := b.rec.value.pass.value.boundRefs;
      |x| <= |y| && y[..|x|] == x
  }

  lemma AppendOneKeepsInv(cb: CmdBuf, r: CmdBuf)
    requires Inv(cb) && r.handle == cb.handle
    requires |r.trace| == |cb.trace| + 1 && r.trace[..|cb.trace|] == cb.trace
    requires Advance(Some(PhaseOf(cb)), cb.handle, r.trace[|cb.trace|]) == Some(PhaseOf(r))
    requires r.rec.Some? ==> r.rec.value.holders > 0 || r.rec.value.pass.Some?
    requires r.rec.Some? && r.rec.value.pass.Some? ==> cb.rec.Some? && cb.rec.value.pass == r.rec.value.pass
    requires r.freed ==> r.rec.None?
    ensures Inv(r) && Extends(cb, r)
  {
    assert r.trace == cb.trace + [r.trace[|cb.trace|]];
    ReplayAppend(cb.handle, cb.trace, r.trace[|cb.trace|]);
  }

  lemma BeginRenderPassKeepsInv(cb: CmdBuf, info: RenderPassBeginInfo)
    requires Inv(cb) && Enabled(cb, BeginRenderPassOp(info))
    ensures Inv(Step(cb, BeginRenderPassOp(info))) && Extends(cb, Step(cb, BeginRenderPassOp(info)))
  {
    var r := Step(cb, BeginRenderPassOp(info));
    assert r.trace == cb.trace + [r.trace[|cb.trace|]];
    ReplayAppend(cb.handle, cb.trace, r.trace[|cb.trace|]);
  }

  lemma BindPipelineKeepsInv(cb: CmdBuf, p: Handle)
    requires Inv(cb) && Enabled(cb, BindPipelineOp(p))
    ensures Inv(Step(cb, BindPipelineOp(p))) && Extends(cb, Step(cb, BindPipelineOp(p)))
    ensures RefsGrow(cb, Step(cb, BindPipelineOp(p)))
  {
    var r := Step(cb, BindPipelineOp(p));
    ReplayAppend(cb.handle, cb.trace, CmdBindPipeline(cb.handle, VK_PIPELINE_BIND_POINT_GRAPHICS, p));
    assert r.trace[..|cb.trace|] == cb.trace;
    var refs := cb.rec.value.pass.value.boundRefs;
    assert (refs + [PipelineRef(p)])[..3] == refs[..3];
    assert (refs + [PipelineRef(p)])[..|refs|] == refs;
  }

  lemma EndRenderPassKeepsInv(cb: CmdBuf)
    requires Inv(cb) && Enabled(cb, EndRenderPassOp)
    ensures Inv(Step(cb, EndRenderPassOp)) && Extends(cb, Step(cb, EndRenderPassOp))
  {
    var h := cb.handle;
    var r := Step(cb, EndRenderPassOp);
    var t1 := cb.trace + [CmdEndRenderPass(h)];
    ReplayAppend(h, cb.trace, CmdEndRenderPass(h));
    if cb.rec.value.holders == 0 {
      ReplayAppend(h, t1, EndCommandBuffer(h));
      assert r.trace == t1 + [EndCommandBuffer(h)];
    }
    assert r.trace[..|cb.trace|] == cb.trace;
  }

  lemma ReleaseRecordingKeepsInv(cb: CmdBuf)
    requires Inv(cb) && Enabled(cb, ReleaseRecordingOp)
    ensures Inv(Step(cb, ReleaseRecordingOp)) && Extends(cb, Step(cb, ReleaseRecordingOp))
  {
    if cb.rec.value.holders == 1 && cb.rec.value.pass.None? {
      ReplayAppend(cb.handle, cb.trace, EndCommandBuffer(cb.handle));
    }
    assert Step(cb, ReleaseRecordingOp).trace[..|cb.trace|] == cb.trace;
  }

  /** Every operation keeps the invariant and only appends to the trace, and
      while the render-pass scope stays alive its `boundRefs` only grow. */
  lemma StepKeepsInv(cb: CmdBuf, op: Op)
    requires Inv(cb) && Enabled(cb, op)
    ensures Inv(Step(cb, op)) && Extends(cb, Step(cb, op)) && RefsGrow(cb, Step(cb, op))
  {
    var h := cb.handle;
    var r := Step(cb, op);
    match op
    case ResetOp(flags) =>
      AppendOneKeepsInv(cb, r);
    case BeginRecordingOp(flags) =>
      AppendOneKeepsInv(cb, r);
    case ShareRecordingOp =>
      assert r.trace[..|cb.trace|] == cb.trace;
    case ReleaseRecordingOp =>
      ReleaseRecordingKeepsInv(cb);
    case BindDescriptorSetsOp(bp, l, f, s, d) =>
      AppendOneKeepsInv(cb, r);
    case BeginRenderPassOp(info) =>
      BeginRenderPassKeepsInv(cb, info);
    case BindPipelineOp(p) =>
      BindPipelineKeepsInv(cb, p);
    case BindVertexBuffersOp(bo) =>
      AppendOneKeepsInv(cb, r);
    case EndRenderPassOp =>
      EndRenderPassKeepsInv(cb);
    case FreeOp =>
      AppendOneKeepsInv(cb, r);
  }

  ghost predicate Runs(cb: CmdBuf, ops: seq<Op>)
    decreases |ops|
  {
    |ops| == 0 || (Enabled(cb, ops[0]) && Runs(Step(cb, ops[0]), ops[1..]))
  }

  ghost function Run(cb: CmdBuf, ops: seq<Op>): CmdBuf
    requires Runs(cb, ops)
    decreases |ops|
  {
    if |ops| == 0 then cb else Run(Step(cb, ops[0]), ops[1..])
  }

  /** Any program that keeps the caller's usage rules in `Enabled` (no reset
      or second begin while a recording is alive, one render pass at a time)
      leaves a trace the automaton accepts: begin and end alternate, every
      render pass that begins inside a recording ends before that recording
      does, and nothing is recorded outside the scope it belongs to. */
  lemma {:induction false} RunIsWellNested(cb: CmdBuf, ops: seq<Op>)
    requires Inv(cb) && Runs(cb, ops)
    ensures Inv(Run(cb, ops))
    ensures Replay(cb.handle, Run(cb, ops).trace).Some?
    ensures Extends(cb, Run(cb, ops))
    decreases |ops|
  {
    if |ops| > 0 {
      StepKeepsInv(cb, ops[0]);
      var next := Step(cb, ops[0]);
      RunIsWellNested(next, ops[1..]);
      var fin := Run(cb, ops);
      assert fin.trace[..|cb.trace|] == fin.trace[..|next.trace|][..|cb.trace|];
    }
  }
}

=== FILE: command_pool.dfy ===
/** `CommandPool`: an owned command-pool handle for one queue family. */
module CommandPool {
  import opened Wrappers
  import opened Vk
  import Handles
  import Utils

  datatype CreateInfo = CreateInfo(flags: nat, queueFamilyIndex: nat)

  /** The constructor: flags and queue family passed through unchanged. */
  function Create(device: nat, info: CreateInfo, res: VkResult, h: Handle)
    : (r: Result<(Handles.Owned, CreateInfo), Error>)
    ensures r.Success? <==> res == VK_SUCCESS
    ensures r.Success? ==> r.value.0 == Handles.Owned(Some(device), h)
    ensures r.Success? ==> r.value.1.flags == info.flags && r.value.1.queueFamilyIndex == info.queueFamilyIndex
  {
    var _ :- Utils.VkCheck("vkCreateCommandPool", res);
    Success((Handles.Owned(Some(device), h), info))
  }

  lemma MoveThenDestroyReleasesOnce(dst: Handles.Owned, src: Handles.Owned)
    requires dst.handle == NULL_HANDLE || dst.parent.Some?
    requires src.handle == NULL_HANDLE || src.parent.Some?
    ensures var m := Handles.MoveAssign(Handles.CommandPoolKind, dst, src);
      && m.1 == Handles.Unset
      && Handles.Destroy(Handles.CommandPoolKind, m.1).1 == []
      && Handles.Released(Handles.Destroy(Handles.CommandPoolKind, m.0).1) ==
         (if src.handle == NULL_HANDLE then {} else {src.handle})
  {}
}

=== FILE: descriptor_pool.dfy ===
/** `DescriptorPool`: an owned pool handle created from a `maxSets` bound and a
    list of per-type descriptor counts, from which descriptor sets are
    allocated one per requested layout. */
module DescriptorPool {
  import opened Wrappers
  import opened Vk
  import Handles
  import Utils

  /** `VkDescriptorPoolSize`. */
  datatype PoolSize = PoolSize(descriptorType: nat, descriptorCount: nat)

  /** `DescriptorPoolCreateInfo`. */
  datatype CreateInfo = CreateInfo(maxSets: nat, poolSizes: seq<PoolSize>)

  /** The native create-info the constructor fills in. */
  datatype NativeCreateInfo = NativeCreateInfo(flags: nat, maxSets: nat, poolSizes: NativeArray<PoolSize>)

  /** The native allocate-info of `allocateDescriptorSets`. */
  datatype NativeAllocateInfo = NativeAllocateInfo(descriptorPool: Handle, setLayouts: NativeArray<Handle>)

  /** The constructor: no flags, `maxSets` passed unchanged, the pool sizes as
      an array of their own length. */
  function Create(device: nat, info: CreateInfo, res: VkResult, h: Handle)
    : (r: Result<(Handles.Owned, NativeCreateInfo), Error>)
    ensures r.Success? <==> res == VK_SUCCESS
    ensures r.Success? ==> r.value.0 == Handles.Owned(Some(device), h)
    ensures r.Success? ==> var n := r.value.1;
      n.flags == 0 && n.maxSets == info.maxSets &&
      n.poolSizes.count == |info.poolSizes| && Read(n.poolSizes) == Some(info.poolSizes)
  {
    var _ :- Utils.VkCheck("vkCreateDescriptorPool", res);
    Success((Handles.Owned(Some(device), h), NativeCreateInfo(0, info.maxSets, FromVector(info.poolSizes))))
  }

  /** `allocateDescriptorSets`: ask for one set per layout; the driver writes
      `descriptorSetCount` handles (`written`) into a vector of that size. */
  function AllocateDescriptorSets(pool: Handles.Owned, setLayouts: seq<Handle>, res: VkResult, written: seq<Handle>)
    : (r: Result<(seq<Handle>, NativeAllocateInfo), Error>)
    requires |written| == |setLayouts|
    ensures r.Success? <==> res == VK_SUCCESS
    ensures r.Success? ==> |r.value.0| == |setLayouts| && r.value.0 == written
    ensures r.Success? ==> (r.value.1.descriptorPool == pool.handle &&
      r.value.1.setLayouts.count == |setLayouts| && Read(r.value.1.setLayouts) == Some(setLayouts))
  {
    var _ :- Utils.VkCheck("vkAllocateDescriptorSets", res);
    Success((written, NativeAllocateInfo(pool.handle, FromVector(setLayouts))))
  }

  /** Move-assignment and `destroy` follow the common pattern. */
  lemma MoveAssignDestroysThenTakes(dst: Handles.Owned, src: Handles.Owned)
    requires dst.handle == NULL_HANDLE || dst.parent.Some?
    ensures var r := Handles.MoveAssign(Handles.DescriptorPoolKind, dst, src);
      r.0 == src && r.1 == Handles.Unset &&
      Handles.Released(r.2) == (if dst.handle == NULL_HANDLE then {} else {dst.handle})
  {}

  lemma DestroyIsIdempotent(p: Handles.Owned)
    requires p.handle == NULL_HANDLE || p.parent.Some?
    ensures var d := Handles.Destroy(Handles.DescriptorPoolKind, p);
      d.0.handle == NULL_HANDLE && Handles.Destroy(Handles.DescriptorPoolKind, d.0).1 == []
  {}
}

=== FILE: descriptor_set_layout.dfy ===
/** `DescriptorSetLayout`: an owned descriptor-set-layout handle created from
    flags and a list of bindings. */
module DescriptorSetLayout {
  import opened Wrappers
  import opened Vk
  import Handles
  import Utils

  datatype CreateInfo<Binding> = CreateInfo(flags: nat, bindings: seq<Binding>)

  datatype NativeCreateInfo<Binding> = NativeCreateInfo(flags: nat, bindings: NativeArray<Binding>)

  /** The constructor: flags passed through, the bindings passed whole with
      their length as the count. */
  function Create<B>(device: nat, info: CreateInfo<B>, res: VkResult, h: Handle)
    : (r: Result<(Handles.Owned, NativeCreateInfo<B>), Error>)
    ensures r.Success? <==> res == VK_SUCCESS
    ensures r.Success? ==> r.value.0 == Handles.Owned(Some(device), h)
    ensures r.Success? ==> (r.value.1.flags == info.flags &&
      r.value.1.bindings.count == |info.bindings| && Read(r.value.1.bindings) == Some(info.bindings))
  {
    var _ :- Utils.VkCheck("vkCreateDescriptorSetLayout", res);
    Success((Handles.Owned(Some(device), h), NativeCreateInfo(info.flags, FromVector(info.bindings))))
  }

  lemma MoveThenDestroyReleasesOnce(dst: Handles.Owned, src: Handles.Owned)
    requires dst.handle == NULL_HANDLE || dst.parent.Some?
    requires src.handle == NULL_HANDLE || src.parent.Some?
    ensures var m := Handles.MoveAssign(Handles.DescriptorSetLayoutKind, dst, src);
      && m.1 == Handles.Unset
      && Handles.Destroy(Handles.DescriptorSetLayoutKind, m.1).1 == []
      && Handles.Released(Handles.Destroy(Handles.DescriptorSetLayoutKind, m.0).1) ==
         (if src.handle == NULL_HANDLE then {} else {src.handle})
  {}
}

=== FILE: device.dfy ===
/** `Device`: the logical device, created through the loader from queue
    requests, layer and extension names and a feature set. It is neither
    copyable nor movable; its destructor destroys the device through the
    loader. */
module Device {
  import opened Wrappers
  import opened Vk
  import Handles
  import Utils

  /** `DeviceQueueCreateInfo`: one priority per queue requested. */
  datatype QueueRequest = QueueRequest(flags: nat, queueFamilyIndex: nat, queuePriorities: seq<real>)

  /** `VkDeviceQueueCreateInfo`. */
  datatype NativeQueueInfo = NativeQueueInfo(flags: nat, queueFamilyIndex: nat, queueCount: nat, priorities: Ptr<real>)

  /** `DeviceCreateInfo`; the feature set is opaque. */
  datatype CreateInfo<Features> = CreateInfo(flags: nat, queueCreateInfos: seq<QueueRequest>,
                                             enabledLayers: seq<string>, enabledExtensions: seq<string>,
                                             enabledFeatures: Features)

  datatype NativeCreateInfo<Features> = NativeCreateInfo(
    flags: nat, queueCreateInfos: NativeArray<NativeQueueInfo>,
    layers: NativeArray<string>, extensions: NativeArray<string>, features: Ptr<Features>)

  /** One queue request: as many queues as priorities. */
  function MapQueue(q: QueueRequest): (n: NativeQueueInfo)
    ensures n.flags == q.flags && n.queueFamilyIndex == q.queueFamilyIndex
    ensures n.queueCount == |q.queuePriorities|
    ensures Read(NativeArray(n.queueCount, n.priorities)) == Some(q.queuePriorities)
  {
    var a := FromVector(q.queuePriorities);
    NativeQueueInfo(q.flags, q.queueFamilyIndex, a.count, a.ptr)
  }

  function NativeInfo<F>(info: CreateInfo<F>): (n: NativeCreateInfo<F>)
    ensures n.flags == info.flags
    ensures n.queueCreateInfos.count == |info.queueCreateInfos|
    ensures Read(n.queueCreateInfos).Some? && |Read(n.queueCreateInfos).value| == |info.queueCreateInfos|
    ensures forall i :: 0 <= i < |info.queueCreateInfos| ==>
      Read(n.queueCreateInfos).value[i] == MapQueue(info.queueCreateInfos[i])
    ensures n.layers.count == |info.enabledLayers| && Read(n.layers) == Some(info.enabledLayers)
    ensures n.extensions.count == |info.enabledExtensions| && Read(n.extensions) == Some(info.enabledExtensions)
    ensures n.features == Points([info.enabledFeatures])
  {
    NativeCreateInfo(info.flags, FromVector(Utils.MapV(info.queueCreateInfos, MapQueue)),
                     FromVector(info.enabledLayers), FromVector(info.enabledExtensions),
                     Points([info.enabledFeatures]))
  }

  /** The create-info constructor: create through the loader and keep it. */
  function Create<F>(loader: nat, info: CreateInfo<F>, res: VkResult, h: Handle)
    : (r: Result<(Handles.Owned, NativeCreateInfo<F>), Error>)
    ensures r.Success? <==> res == VK_SUCCESS
    ensures r.Success? ==> r.value.0 == Handles.Owned(Some(loader), h) && r.value.1 == NativeInfo(info)
  {
    var _ :- Utils.VkCheck("vkCreateDevice", res);
    Success((Handles.Owned(Some(loader), h), NativeInfo(info)))
  }

  /** `Device(VkDevice &&)`: adopt a raw handle, with no loader. */
  function Adopt(h: Handle): (d: Handles.Owned)
    ensures d.handle == h && d.parent.None?
  {
    Handles.Owned(None, h)
  }

  /** The destructor goes through the loader, so an adopted non-null device
      cannot be destroyed safely: it falls outside what `Destroy` accepts. A
      device made by `Create` always can, and is destroyed once. */
  lemma AdoptedDeviceLacksLoader(loader: nat, info: CreateInfo<nat>, h: Handle)
    requires h != NULL_HANDLE
    ensures !(Adopt(h).handle == NULL_HANDLE || Adopt(h).parent.Some?)
    ensures var c := Create(loader, info, VK_SUCCESS, h);
      c.Success? && Handles.Destroy(Handles.DeviceKind, c.value.0).1 ==
        [Handles.DestroyCall(Handles.DeviceKind, Some(loader), h)]
  {}
}

=== FILE: device_memory.dfy ===
/** `DeviceMemory`: an allocation wrapper following the owned-handle pattern,
    plus `map`, which clamps the size to the allocation and hands out a shared
    pointer whose deleter unmaps the memory and co-owns the `DeviceMemory`. */
module DeviceMemory {
  import opened Wrappers
  import opened Vk
  import Handles
  import Utils

  /** The wrapper's fields; a fresh object has no device, a null handle and
      size 0. */
  datatype Memory = Memory(owned: Handles.Owned, allocationSize: nat)

  const Fresh: Memory := Memory(Handles.Unset, 0)

  /** The native calls the wrapper and its mappings make. */
  datatype MemCall =
    | AllocateMemory(allocationSize: nat, memoryTypeIndex: nat)
    | MapMemory(memory: Handle, offset: nat, size: nat, result: VkResult)
    | UnmapMemory(memory: Handle)
    | FreeMemory(memory: Handle)

  /** The constructor: allocate `size` bytes from memory type `typeIndex`; the
      driver answers `res` and, on success, handle `h`. */
  function Allocate(device: nat, size: nat, typeIndex: nat, res: VkResult, h: Handle)
    : (r: Result<(Memory, MemCall), Error>)
    requires h != NULL_HANDLE
    ensures r.Success? <==> res == VK_SUCCESS
    ensures r.Success? ==> r.value.0.allocationSize == size && r.value.0.owned == Handles.Owned(Some(device), h)
    ensures r.Success? ==> r.value.1 == AllocateMemory(size, typeIndex)
  {
    var _ :- Utils.VkCheck("vkAllocateMemory", res);
    Success((Memory(Handles.Owned(Some(device), h), size), AllocateMemory(size, typeIndex)))
  }

  /** `destroy()`, also run by the destructor: free a non-null handle once and
      null it. */
  function Destroy(m: Memory): (r: (Memory, seq<Handles.Call>))
    requires m.owned.handle == NULL_HANDLE || m.owned.parent.Some?
    ensures r.0.owned.handle == NULL_HANDLE && r.0.allocationSize == m.allocationSize
    ensures Handles.Released(r.1) == if m.owned.handle == NULL_HANDLE then {} else {m.owned.handle}
  {
    var d := Handles.Destroy(Handles.DeviceMemoryKind, m.owned);
    (m.(owned := d.0), d.1)
  }

  /** A second `destroy()` (the destructor after an explicit call) does nothing. */
  lemma DestroyTwiceFreesOnce(m: Memory)
    requires m.owned.handle == NULL_HANDLE || m.owned.parent.Some?
    ensures Destroy(Destroy(m).0).1 == []
  {}

  /** Move-assignment: destroy the target's allocation first, then take the
      source's device, handle and size; the source's handle becomes null (its
      size is left as it was). */
  function MoveAssign(dst: Memory, src: Memory): (r: (Memory, Memory, seq<Handles.Call>))
    requires dst.owned.handle == NULL_HANDLE || dst.owned.parent.Some?
    ensures r.0 == src
    ensures r.1.owned == Handles.Unset && r.1.allocationSize == src.allocationSize
    ensures r.2 == Destroy(dst).1
  {
    var mv := Handles.MoveAssign(Handles.DeviceMemoryKind, dst.owned, src.owned);
    (Memory(mv.0, src.allocationSize), Memory(mv.1, src.allocationSize), mv.2)
  }

  /** The size `map` passes to the driver: `min(size, allocationSize)`. The
      offset is not looked at. */
  function MappedSize(m: Memory, size: nat): (s: nat)
    ensures s <= m.allocationSize && s <= size
    ensures s == size || s == m.allocationSize
  {
    if size < m.allocationSize then size else m.allocationSize
  }

  /** The native call of `map(offset, size)` when the driver answers `res`. */
  function Map(m: Memory, offset: nat, size: nat, res: VkResult): (c: MemCall)
    ensures c.MapMemory? && c.memory == m.owned.handle && c.offset == offset && c.result == res
    ensures c.size <= m.allocationSize
    ensures size <= m.allocationSize ==> c.size == size
  {
    MapMemory(m.owned.handle, offset, MappedSize(m, size), res)
  }

  /** With the default arguments (offset 0, size UINT64_MAX) the whole
      allocation is mapped. */
  lemma DefaultMapCoversAllocation(m: Memory)
    requires m.allocationSize <= UINT64_MAX
    ensures var c := Map(m, 0, UINT64_MAX, VK_SUCCESS); c.offset == 0 && c.size == m.allocationSize
  {}

  /** No bounds check on the offset: a 16-byte allocation mapped at offset 8
      with the default size asks the driver for bytes 8..24. */
  lemma MapOffsetIsNotChecked()
    ensures var c := Map(Memory(Handles.Owned(Some(1), 7), 16), 8, UINT64_MAX, VK_SUCCESS);
            c.offset + c.size > 16
  {}

  // ---------------------------------------------------------------------------
  // Lifetime of one allocation and the pointers `map` returns. `owners` counts
  // the caller's `shared_ptr<DeviceMemory>` copies; `maps[i]` counts the copies
  // of the i-th returned pointer. A pointer's deleter captures one more owner
  // of the allocation, so the allocation dies only when both reach zero.

  datatype MapWorld = MapWorld(mem: Memory, owners: nat, maps: seq<nat>, freed: bool, trace: seq<MemCall>)

  /** The number of returned pointers that still have a copy alive. */
  function Open(maps: seq<nat>): nat {
    if |maps| == 0 then 0 else Open(maps[..|maps| - 1]) + (if maps[|maps| - 1] > 0 then 1 else 0)
  }

  datatype MapOp =
    | MapOp(offset: nat, size: nat, res: VkResult)  // `DeviceMemory::map(memory, offset, size)`
    | CopyPointer(i: nat)                         // copying a returned pointer
    | ReleasePointer(i: nat)                      // dropping one copy of it
    | ShareOwner                                  // copying the caller's `shared_ptr`
    | ReleaseOwner                                // dropping one such copy

  /** What a caller holding the objects can do: `map` is reached through a
      caller-held `shared_ptr`, and a pointer copy must exist to be copied or
      dropped. */
  predicate Enabled(w: MapWorld, op: MapOp) {
    !w.freed &&
    match op
    case MapOp(_, _, _) => w.owners > 0
    case CopyPointer(i) => i < |w.maps| && w.maps[i] > 0
    case ReleasePointer(i) => i < |w.maps| && w.maps[i] > 0
    case ShareOwner => w.owners > 0
    case ReleaseOwner => w.owners > 0
  }

  /** The destructor, run when the last owner goes: free a non-null handle. */
  function Finish(w: MapWorld): MapWorld {
    if w.owners == 0 && Open(w.maps) == 0 then
      w.(freed := true,
         trace := w.trace + (if w.mem.owned.handle != NULL_HANDLE then [FreeMemory(w.mem.owned.handle)] else []))
    else w
  }

  function Step(w: MapWorld, op: MapOp): MapWorld
    requires Enabled(w, op)
  {
    match op
    case MapOp(offset, size, res) =>
      var c := Map(w.mem, offset, size, res);
      if res == VK_SUCCESS then w.(maps := w.maps + [1], trace := w.trace + [c])
      else w.(trace := w.trace + [c])
    case CopyPointer(i) => w.(maps := w.maps[i := w.maps[i] + 1])
    case ReleasePointer(i) =>
      if w.maps[i] == 1 then
        Finish(w.(maps := w.maps[i := 0], trace := w.trace + [UnmapMemory(w.mem.owned.handle)]))
      else w.(maps := w.maps[i := w.maps[i] - 1])
    case ShareOwner => w.(owners := w.owners + 1)
    case ReleaseOwner => Finish(w.(owners := w.owners - 1))
  }

  /** Reading a trace of one allocation: how many mappings are outstanding, or
      whether the allocation has been freed. */
  datatype Phase = Live(open: nat) | Dead

  function Advance(p: Option<Phase>, h: Handle, c: MemCall): Option<Phase> {
    match p
    case None => None
    case Some(Dead) => None
    case Some(Live(n)) =>
      match c
      case AllocateMemory(_, _) => None
      case MapMemory(m, _, _, res) => if m != h then None else if res == VK_SUCCESS then Some(Live(n + 1)) else p
      case UnmapMemory(m) => if m != h || n == 0 then None else Some(Live(n - 1))
      case FreeMemory(m) => if m != h || n != 0 then None else Some(Dead)
  }

  /** The trace is well formed: no unmap without an outstanding mapping, and the
      free comes after every unmap and is the last call. */
  function Replay(h: Handle, trace: seq<MemCall>): Option<Phase> {
    if |trace| == 0 then Some(Live(0))
    else Advance(Replay(h, trace[..|trace| - 1]), h, trace[|trace| - 1])
  }

  ghost predicate Inv(w: MapWorld) {
    && w.mem.owned.handle != NULL_HANDLE
    && (w.freed <==> w.owners == 0 && Open(w.maps) == 0)
    && Replay(w.mem.owned.handle, w.trace) == (if w.freed then Some(Dead) else Some(Live(Open(w.maps))))
  }

  /** A freshly allocated memory held by one caller. */
  function Start(m: Memory): MapWorld {
    MapWorld(m, 1, [], false, [])
  }

  lemma StartInv(m: Memory)
    requires m.owned.handle != NULL_HANDLE
    ensures Inv(Start(m))
  {}

  lemma ReplayAppend(h: Handle, t: seq<MemCall>, c: MemCall)
    ensures Replay(h, t + [c]) == Advance(Replay(h, t), h, c)
  {
    assert (t + [c])[..|t|] == t;
  }

  lemma {:induction false} OpenAppendOne(maps: seq<nat>)
    ensures Open(maps + [1]) == Open(maps) + 1
  {
    assert (maps + [1])[..|maps|] == maps;
  }

  lemma {:induction false} OpenUpdate(maps: seq<nat>, i: nat, v: nat)
    requires i < |maps|
    ensures Open(maps[i := v]) + (if maps[i] > 0 then 1 else 0) == Open(maps) + (if v > 0 then 1 else 0)
    decreases |maps|
  {
    var last := |maps| - 1;
    var m' := maps[i := v];
    if i == last {
      assert m'[..last] == maps[..last];
    } else {
      assert m'[..last] == maps[..last][i := v];
      OpenUpdate(maps[..last], i, v);
    }
  }

  lemma MapKeepsInv(w: MapWorld, offset: nat, size: nat, res: VkResult)
    requires Inv(w) && Enabled(w, MapOp(offset, size, res))
    ensures Inv(Step(w, MapOp(offset, size, res)))
  {
    var c := Map(w.mem, offset, size, res);
    ReplayAppend(w.mem.owned.handle, w.trace, c);
    if res == VK_SUCCESS {
      OpenAppendOne(w.maps);
    }
  }

  lemma ReleasePointerKeepsInv(w: MapWorld, i: nat)
    requires Inv(w) && Enabled(w, ReleasePointer(i))
    ensures Inv(Step(w, ReleasePointer(i)))
  {
    var h := w.mem.owned.handle;
    if w.maps[i] == 1 {
      OpenUpdate(w.maps, i, 0);
      var t1 := w.trace + [UnmapMemory(h)];
      ReplayAppend(h, w.trace, UnmapMemory(h));
      var w1 := w.(maps := w.maps[i := 0], trace := t1);
      assert Replay(h, t1) == Some(Live(Open(w1.maps)));
      if w1.owners == 0 && Open(w1.maps) == 0 {
        ReplayAppend(h, t1, FreeMemory(h));
      }
    } else {
      OpenUpdate(w.maps, i, w.maps[i] - 1);
    }
  }

  lemma ReleaseOwnerKeepsInv(w: MapWorld)
    requires Inv(w) && Enabled(w, ReleaseOwner)
    ensures Inv(Step(w, ReleaseOwner))
  {
    if w.owners == 1 && Open(w.maps) == 0 {
      ReplayAppend(w.mem.owned.handle, w.trace, FreeMemory(w.mem.owned.handle));
    }
  }

  /** Every call keeps the trace well formed: no unmap without an outstanding
      mapping, and the allocation is freed only after every mapping has been
      unmapped and the last owner is gone. Dropping the last copy of a returned
      pointer appends exactly one unmap; dropping any other copy adds nothing. */
  lemma StepKeepsInv(w: MapWorld, op: MapOp)
    requires Inv(w) && Enabled(w, op)
    ensures Inv(Step(w, op))
    ensures op.ReleasePointer? && w.maps[op.i] == 1 ==>
      Step(w, op).trace[..|w.trace| + 1] == w.trace + [UnmapMemory(w.mem.owned.handle)]
    ensures op.ReleasePointer? && w.maps[op.i] > 1 ==> Step(w, op).trace == w.trace
  {
    match op
    case MapOp(offset, size, res) => MapKeepsInv(w, offset, size, res);
    case CopyPointer(i) => OpenUpdate(w.maps, i, w.maps[i] + 1);
    case ReleasePointer(i) => ReleasePointerKeepsInv(w, i);
    case ShareOwner =>
    case ReleaseOwner => ReleaseOwnerKeepsInv(w);
  }
}

=== FILE: ext_model.dfy ===
/** The scene importer of `vkext::Model`: it copies each imported mesh's
    vertex attributes and the first three indices of each face into its own
    mesh records, and reads each material's base colours and texture layers,
    turning texture names into paths next to the model file. The importer's
    answers (the scene, the material properties) are inputs here. */
module ExtModel {
  import opened Wrappers
  import Utils

  // ---------------------------------------------------------------------------
  // Paths

  /** `toPath`: replace every backslash with a forward slash. */
  function ToPath(p: string): (r: string)
    ensures |r| == |p|
    ensures forall i :: 0 <= i < |p| ==> r[i] == (if p[i] == '\\' then '/' else p[i])
  {
    if |p| == 0 then []
    else ToPath(p[..|p| - 1]) + [if p[|p| - 1] == '\\' then '/' else p[|p| - 1]]
  }

  /** After `toPath` there is no backslash left, and applying it again
      changes nothing. */
  lemma ToPathIdempotent(p: string)
    ensures '\\' !in ToPath(p)
    ensures ToPath(ToPath(p)) == ToPath(p)
  {
    var r := ToPath(p);
    assert forall i :: 0 <= i < |r| ==> r[i] != '\\';
  }

  /** `dir / rel` for POSIX paths: a rooted `rel` replaces `dir`; otherwise a
      separator is inserted when `dir` ends in a file name. */
  function Join(dir: string, rel: string): (r: string)
    ensures |rel| > 0 && rel[0] == '/' ==> r == rel
    ensures dir == [] ==> r == rel
    ensures !(|rel| > 0 && rel[0] == '/') ==> dir <= r && |r| >= |rel| && r[|r| - |rel|..] == rel
  {
    if |rel| > 0 && rel[0] == '/' then rel
    else if |dir| == 0 || dir[|dir| - 1] == '/' then dir + rel
    else dir + "/" + rel
  }

  /** A layer's texture path: the model's directory joined with the
      normalised texture name. */
  function TexPath(modelDir: string, texName: string): (r: string)
    ensures modelDir == [] ==> r == ToPath(texName)
    ensures '\\' !in modelDir ==> '\\' !in r
  {
    ToPathIdempotent(texName);
    Join(modelDir, ToPath(texName))
  }

  // ---------------------------------------------------------------------------
  // Meshes

  datatype V3 = V3(x: real, y: real, z: real)
  datatype V2 = V2(x: real, y: real)
  datatype Color4 = Color4(r: real, g: real, b: real, a: real)

  /** The importer's mesh: vertices, one coordinate array per UV channel,
      optional colour set 0, optional normals, and faces as index lists. */
  datatype ImportedMesh = ImportedMesh(vertices: seq<V3>, uvChannels: seq<seq<V3>>,
                                       colors: Option<seq<Color4>>, normals: Option<seq<V3>>,
                                       faces: seq<seq<nat>>)

  /** What the importer guarantees and the copy loops rely on: every
      per-vertex array covers the vertices, and every face has three indices
      (the scene is triangulated, with points and lines removed). */
  ghost predicate WellFormed(m: ImportedMesh) {
    && (forall c :: c in m.uvChannels ==> |c| >= |m.vertices|)
    && (m.colors.Some? ==> |m.colors.value| >= |m.vertices|)
    && (m.normals.Some? ==> |m.normals.value| >= |m.vertices|)
    && (forall f :: f in m.faces ==> |f| >= 3)
  }

  /** The model's mesh record. */
  datatype Mesh = Mesh(pos: seq<V3>, texCoord: seq<seq<V2>>, color: seq<V3>, normal: seq<V3>, indices: seq<nat>)

  /** The index loop: the first three indices of each face, face after face. */
  function FaceIndices(faces: seq<seq<nat>>): (r: seq<nat>)
    requires forall f :: f in faces ==> |f| >= 3
    ensures |r| == 3 * |faces|
  {
    if |faces| == 0 then []
    else FaceIndices(faces[..|faces| - 1]) + faces[|faces| - 1][..3]
  }

  /** Entry `3f + k` of the flattened indices is index `k` of face `f`. */
  lemma {:induction false} FaceIndicesAt(faces: seq<seq<nat>>, f: nat, k: nat)
    requires forall g :: g in faces ==> |g| >= 3
    requires f < |faces| && k < 3
    ensures 3 * f + k < |FaceIndices(faces)|
    ensures FaceIndices(faces)[3 * f + k] == faces[f][k]
  {
    var init := faces[..|faces| - 1];
    assert forall g :: g in init ==> g in faces;
    if f < |faces| - 1 {
      FaceIndicesAt(init, f, k);
      assert init[f] == faces[f];
    } else {
      assert |FaceIndices(init)| == 3 * f;
    }
  }

  /** The loop over a mesh's vertices for one UV channel: (x, y) of each. */
  function UV(ch: seq<V3>, n: nat): (r: seq<V2>)
    requires |ch| >= n
    ensures |r| == n && forall i :: 0 <= i < n ==> r[i] == V2(ch[i].x, ch[i].y)
  {
    seq(n, i requires 0 <= i < n => V2(ch[i].x, ch[i].y))
  }

  /** One mesh copied out of the importer's. */
  function CopyMesh(m: ImportedMesh): (r: Mesh)
    requires WellFormed(m)
    ensures r.pos == m.vertices
    ensures |r.texCoord| == |m.uvChannels|
    ensures forall c :: 0 <= c < |m.uvChannels| ==> |r.texCoord[c]| == |m.vertices|
    ensures m.colors.None? ==> r.color == []
    ensures m.colors.Some? ==> (|r.color| == |m.vertices| &&
      forall i :: 0 <= i < |m.vertices| ==> r.color[i] == V3(m.colors.value[i].r, m.colors.value[i].g, m.colors.value[i].b))
    ensures m.normals.None? ==> r.normal == []
    ensures m.normals.Some? ==> r.normal == m.normals.value[..|m.vertices|]
    ensures |r.indices| == 3 * |m.faces|
  {
    var n := |m.vertices|;
    var uvs := seq(|m.uvChannels|, c requires 0 <= c < |m.uvChannels| => UV(m.uvChannels[c], n));
    var color := match m.colors
      case None => []
      case Some(cs) => seq(n, i requires 0 <= i < n => V3(cs[i].r, cs[i].g, cs[i].b));
    var normal := match m.normals
      case None => []
      case Some(ns) => ns[..n];
    Mesh(m.vertices, uvs, color, normal, FaceIndices(m.faces))
  }

  /** The flattened indices of a copied mesh are the faces' first three
      indices, in order. */
  lemma CopiedIndicesAreFaceCorners(m: ImportedMesh, f: nat, k: nat)
    requires WellFormed(m) && f < |m.faces| && k < 3
    ensures 3 * f + k < |CopyMesh(m).indices| && CopyMesh(m).indices[3 * f + k] == m.faces[f][k]
  {
    FaceIndicesAt(m.faces, f, k);
  }

  /** The mesh loop: one mesh per imported mesh, in order. */
  function CopyMeshes(ms: seq<ImportedMesh>): (r: seq<Mesh>)
    requires forall m :: m in ms ==> WellFormed(m)
    ensures |r| == |ms| && forall i :: 0 <= i < |ms| ==> r[i] == CopyMesh(ms[i])
  {
    seq(|ms|, i requires 0 <= i < |ms| => CopyMesh(ms[i]))
  }

  // ---------------------------------------------------------------------------
  // Materials

  /** A texture layer: its blend operation and factor, its path, its U and V
      mapping modes and its UV channel. A property the importer does not have
      leaves the value-initialised 0. */
  datatype TexLayer = TexLayer(op: int, blend: real, texPath: string, mapModeU: int, mapModeV: int, uvChannel: int)

  /** The importer's answers for one texture of one type: the TEXOP, TEXBLEND,
      MAPPINGMODE_U, MAPPINGMODE_V and UVWSRC properties (absent when the
      importer has none; TEXBLEND is a float property, the others integers)
      and the texture's name. */
  datatype LayerProps = LayerProps(texOp: Option<int>, texBlend: Option<real>, name: string,
                                   mapModeU: Option<int>, mapModeV: Option<int>, uvwSrc: Option<int>)

  /** `aiMaterial::Get(key, out)`: overwrite `out` when the property exists. */
  function Get<T>(prop: Option<T>, out: T): T {
    match prop
    case None => out
    case Some(v) => v
  }

  /** `aiMaterial::Get` of a float property into an integer: the importer
      converts with a C++ cast, which truncates toward zero. */
  function TruncToInt(x: real): (n: int)
    ensures 0.0 <= x ==> n as real <= x < n as real + 1.0
    ensures x < 0.0 ==> n as real - 1.0 < x <= n as real
  {
    if x >= 0.0 then x.Floor else -((-x).Floor)
  }

  /** The layer loop body as written: both the TEXOP and the TEXBLEND reads
      target the integer `layer.op`, so the blend factor, when present,
      replaces the operation, truncated toward zero, and the blend factor
      itself stays 0. */
  function LoadLayerAsWritten(modelDir: string, p: LayerProps): (l: TexLayer)
    ensures p.texBlend.Some? ==> l.op == TruncToInt(p.texBlend.value)
    ensures p.texBlend.None? ==> l.op == Get(p.texOp, 0)
    ensures l.blend == 0.0
    ensures l.texPath == TexPath(modelDir, p.name)
    ensures l.mapModeU == Get(p.mapModeU, 0) && l.mapModeV == Get(p.mapModeV, 0) && l.uvChannel == Get(p.uvwSrc, 0)
  {
    var op := if p.texBlend.Some? then TruncToInt(p.texBlend.value) else Get(p.texOp, 0);
    TexLayer(op, 0.0, TexPath(modelDir, p.name), Get(p.mapModeU, 0), Get(p.mapModeV, 0), Get(p.uvwSrc, 0))
  }

  /** A layer whose operation is Add (1) and whose blend factor property is
      present loses its operation. */
  lemma BlendOverwritesOp(modelDir: string, name: string)
    ensures LoadLayerAsWritten(modelDir, LayerProps(Some(1), Some(7.0), name, None, None, None)).op == 7
    ensures LoadLayerAsWritten(modelDir, LayerProps(Some(1), Some(7.0), name, None, None, None)).blend == 0.0
  {}

  /** A blend factor in the usual range [0, 1] decides the operation,
      whatever TEXOP says: below 1 it reads as Multiply (0), and exactly 1
      reads as Add (1). */
  lemma UsualFactorPicksOp(modelDir: string, texOp: Option<int>, b: real, name: string)
    requires 0.0 <= b <= 1.0
    ensures LoadLayerAsWritten(modelDir, LayerProps(texOp, Some(b), name, None, None, None)).op ==
      (if b == 1.0 then 1 else 0)
  {}

  /** The layer loop body with the TEXBLEND value stored as the blend factor,
      which the renderer reads from `layer.blend`. */
  function LoadLayer(modelDir: string, p: LayerProps): (l: TexLayer)
    ensures l.op == Get(p.texOp, 0) && l.blend == Get(p.texBlend, 0.0)
    ensures l == LoadLayerAsWritten(modelDir, p).(op := l.op, blend := l.blend)
    ensures p.texBlend.None? ==> l == LoadLayerAsWritten(modelDir, p)
  {
    TexLayer(Get(p.texOp, 0), Get(p.texBlend, 0.0), TexPath(modelDir, p.name),
             Get(p.mapModeU, 0), Get(p.mapModeV, 0), Get(p.uvwSrc, 0))
  }

  /** A texture stack: base colour and layers. */
  datatype TextureStack = TextureStack(baseColor: Color4, layers: seq<TexLayer>)

  /** `LOAD_TEX` for one texture type, as written: the colour when the importer
      has one, and one layer per texture of the type, in order, each read by
      the as-written loop body. */
  function LoadStack(modelDir: string, color: Option<Color4>, layers: seq<LayerProps>): (s: TextureStack)
    ensures s.baseColor == Get4(color)
    ensures |s.layers| == |layers| && forall i :: 0 <= i < |layers| ==> s.layers[i] == LoadLayerAsWritten(modelDir, layers[i])
  {
    TextureStack(Get4(color), seq(|layers|, i requires 0 <= i < |layers| => LoadLayerAsWritten(modelDir, layers[i])))
  }

  /** `LOAD_TEX` with the corrected loop body: the same colour and layers, in
      the same order; a layer differs from the as-written one only in its
      operation and blend factor, and only when TEXBLEND is present. */
  function LoadStackCorrected(modelDir: string, color: Option<Color4>, layers: seq<LayerProps>): (s: TextureStack)
    ensures s.baseColor == LoadStack(modelDir, color, layers).baseColor
    ensures |s.layers| == |layers| && forall i :: 0 <= i < |layers| ==> s.layers[i] == LoadLayer(modelDir, layers[i])
    ensures forall i :: 0 <= i < |layers| && layers[i].texBlend.None? ==>
      s.layers[i] == LoadStack(modelDir, color, layers).layers[i]
  {
    TextureStack(Get4(color), seq(|layers|, i requires 0 <= i < |layers| => LoadLayer(modelDir, layers[i])))
  }

  function Get4(c: Option<Color4>): Color4 {
    match c
    case None => Color4(0.0, 0.0, 0.0, 0.0)
    case Some(v) => v
  }

  /** The importer's answers for one texture type of one material: the
      `$clr.<type>` colour and one set of layer properties per texture. */
  datatype StackProps = StackProps(color: Option<Color4>, layers: seq<LayerProps>)

  /** A material: the five texture stacks in the order the code loads them,
      and the scalar properties (absent ones stay 0). */
  datatype Material = Material(ambient: TextureStack, diffuse: TextureStack, specular: TextureStack,
                               transmission: TextureStack, emission: TextureStack,
                               shininess: real, ior: real, opacity: real, shadingModel: int)

  datatype MaterialProps = MaterialProps(ambient: StackProps, diffuse: StackProps, specular: StackProps,
                                         transmission: StackProps, emission: StackProps,
                                         shininess: Option<real>, ior: Option<real>, opacity: Option<real>,
                                         shadingModel: Option<int>)

  /** The material loop body as written: `LOAD_TEX` for the five types, then
      the shininess, refraction index, opacity and shading model. */
  function LoadMaterial(modelDir: string, p: MaterialProps): (m: Material)
    ensures m.ambient == LoadStack(modelDir, p.ambient.color, p.ambient.layers)
    ensures m.diffuse == LoadStack(modelDir, p.diffuse.color, p.diffuse.layers)
    ensures m.specular == LoadStack(modelDir, p.specular.color, p.specular.layers)
    ensures m.transmission == LoadStack(modelDir, p.transmission.color, p.transmission.layers)
    ensures m.emission == LoadStack(modelDir, p.emission.color, p.emission.layers)
    ensures m.shininess == Get(p.shininess, 0.0) && m.ior == Get(p.ior, 0.0)
    ensures m.opacity == Get(p.opacity, 0.0) && m.shadingModel == Get(p.shadingModel, 0)
  {
    Material(LoadStack(modelDir, p.ambient.color, p.ambient.layers),
             LoadStack(modelDir, p.diffuse.color, p.diffuse.layers),
             LoadStack(modelDir, p.specular.color, p.specular.layers),
             LoadStack(modelDir, p.transmission.color, p.transmission.layers),
             LoadStack(modelDir, p.emission.color, p.emission.layers),
             Get(p.shininess, 0.0), Get(p.ior, 0.0), Get(p.opacity, 0.0), Get(p.shadingModel, 0))
  }

  /** The material loop body with the corrected layer reading: the scalar
      properties are those of the as-written material, and each stack is the
      corrected one. */
  function LoadMaterialCorrected(modelDir: string, p: MaterialProps): (m: Material)
    ensures m.ambient == LoadStackCorrected(modelDir, p.ambient.color, p.ambient.layers)
    ensures m.diffuse == LoadStackCorrected(modelDir, p.diffuse.color, p.diffuse.layers)
    ensures m.specular == LoadStackCorrected(modelDir, p.specular.color, p.specular.layers)
    ensures m.transmission == LoadStackCorrected(modelDir, p.transmission.color, p.transmission.layers)
    ensures m.emission == LoadStackCorrected(modelDir, p.emission.color, p.emission.layers)
    ensures var w := LoadMaterial(modelDir, p);
      m.shininess == w.shininess && m.ior == w.ior && m.opacity == w.opacity && m.shadingModel == w.shadingModel
  {
    Material(LoadStackCorrected(modelDir, p.ambient.color, p.ambient.layers),
             LoadStackCorrected(modelDir, p.diffuse.color, p.diffuse.layers),
             LoadStackCorrected(modelDir, p.specular.color, p.specular.layers),
             LoadStackCorrected(modelDir, p.transmission.color, p.transmission.layers),
             LoadStackCorrected(modelDir, p.emission.color, p.emission.layers),
             Get(p.shininess, 0.0), Get(p.ior, 0.0), Get(p.opacity, 0.0), Get(p.shadingModel, 0))
  }
}

=== FILE: framebuffer.dfy ===
/** `Framebuffer`: an owned framebuffer handle that also co-owns (through
    `shared_ptr`s) its render pass and every attachment view, so those live at
    least as long as the framebuffer object does. */
module Framebuffer {
  import opened Wrappers
  import opened Vk
  import Handles
  import Utils

  /** A `shared_ptr` to a wrapper object: which object, and the native handle
      it converts to. */
  datatype Shared = Shared(obj: nat, handle: Handle)

  /** `FramebufferCreateInfo`. */
  datatype CreateInfo = CreateInfo(attachments: seq<Shared>, renderPass: Shared, width: nat, height: nat, layers: nat)

  /** `VkFramebufferCreateInfo`. */
  datatype NativeCreateInfo = NativeCreateInfo(flags: nat, renderPass: Handle, attachments: NativeArray<Handle>,
                                               width: nat, height: nat, layers: nat)

  /** The wrapper's fields: the owned handle with its device, and the co-owned
      render pass and views. */
  datatype Framebuffer = Framebuffer(owned: Handles.Owned, renderPass: Option<Shared>, attachments: seq<Shared>)

  const Unset: Framebuffer := Framebuffer(Handles.Unset, None, [])

  /** The objects a framebuffer keeps alive. */
  function KeptAlive(fb: Framebuffer): set<nat> {
    (if fb.renderPass.Some? then {fb.renderPass.value.obj} else {}) +
    set i | 0 <= i < |fb.attachments| :: fb.attachments[i].obj
  }

  /** The native handle of each view, in order. */
  function ViewHandles(views: seq<Shared>): (hs: seq<Handle>)
    ensures |hs| == |views|
    ensures forall i :: 0 <= i < |views| ==> hs[i] == views[i].handle
  {
    Utils.MapV(views, (v: Shared) => v.handle)
  }

  /** The constructor's create-info: the render pass's handle, the views'
      handles in order with their count, and the extent and layer count copied
      from the caller. */
  function NativeInfo(info: CreateInfo): (n: NativeCreateInfo)
    ensures n.flags == 0 && n.renderPass == info.renderPass.handle
    ensures n.attachments.count == |info.attachments|
    ensures Read(n.attachments).Some? && |Read(n.attachments).value| == |info.attachments|
    ensures forall i :: 0 <= i < |info.attachments| ==> Read(n.attachments).value[i] == info.attachments[i].handle
    ensures n.width == info.width && n.height == info.height && n.layers == info.layers
  {
    NativeCreateInfo(0, info.renderPass.handle, FromVector(ViewHandles(info.attachments)),
                     info.width, info.height, info.layers)
  }

  /** The constructor: hold the render pass and the views, then create the
      framebuffer, throwing unless the driver answers VK_SUCCESS. */
  function Create(device: nat, info: CreateInfo, res: VkResult, h: Handle)
    : (r: Result<(Framebuffer, NativeCreateInfo), Error>)
    ensures r.Success? <==> res == VK_SUCCESS
    ensures r.Success? ==> r.value.0.owned == Handles.Owned(Some(device), h) && r.value.1 == NativeInfo(info)
    ensures r.Success? ==> (KeptAlive(r.value.0) ==
      {info.renderPass.obj} + (set i | 0 <= i < |info.attachments| :: info.attachments[i].obj))
  {
    var _ :- Utils.VkCheck("vkCreateFramebuffer", res);
    Success((Framebuffer(Handles.Owned(Some(device), h), Some(info.renderPass), info.attachments), NativeInfo(info)))
  }

  /** `destroy()`: release a non-null handle and null it. The co-owned objects
      stay held until the wrapper itself goes away. */
  function Destroy(fb: Framebuffer): (r: (Framebuffer, seq<Handles.Call>))
    requires fb.owned.handle == NULL_HANDLE || fb.owned.parent.Some?
    ensures r.0.owned.handle == NULL_HANDLE
    ensures KeptAlive(r.0) == KeptAlive(fb)
    ensures Handles.Released(r.1) == (if fb.owned.handle == NULL_HANDLE then {} else {fb.owned.handle})
  {
    var d := Handles.Destroy(Handles.FramebufferKind, fb.owned);
    (fb.(owned := d.0), d.1)
  }

  /** `operator=(Framebuffer &&)`: destroy this framebuffer, then move the
      device, the render pass, the views and the handle over, leaving the
      source holding nothing. */
  function MoveAssign(dst: Framebuffer, src: Framebuffer): (r: (Framebuffer, Framebuffer, seq<Handles.Call>))
    requires dst.owned.handle == NULL_HANDLE || dst.owned.parent.Some?
    ensures r.0 == src
    ensures r.1 == Unset && KeptAlive(r.1) == {}
    ensures Handles.Released(r.2) == (if dst.owned.handle == NULL_HANDLE then {} else {dst.owned.handle})
  {
    var m := Handles.MoveAssign(Handles.FramebufferKind, dst.owned, src.owned);
    (Framebuffer(m.0, src.renderPass, src.attachments), Framebuffer(m.1, None, []), m.2)
  }

  /** Keep-alive across a destroy: calling `destroy` on a framebuffer built
      from `info` releases only its own handle and still holds the render pass
      and every view. */
  lemma DestroyKeepsAttachmentsAlive(device: nat, info: CreateInfo, h: Handle, i: nat)
    requires i < |info.attachments|
    ensures var c := Create(device, info, VK_SUCCESS, h);
      c.Success? &&
      info.renderPass.obj in KeptAlive(Destroy(c.value.0).0) &&
      info.attachments[i].obj in KeptAlive(Destroy(c.value.0).0)
  {
    var c := Create(device, info, VK_SUCCESS, h);
    var fb := c.value.0;
    assert fb.attachments[i].obj in KeptAlive(fb);
  }
}

=== FILE: graphics_pipeline.dfy ===
/** `Pipeline` and `GraphicsPipeline`: a pipeline adopts a handle created
    elsewhere; a graphics pipeline creates it from a create-info whose
    optional parts (specialization data, sample mask) become null or non-null
    pointers and whose viewport and scissor lists are each either a bare count
    (dynamic state) or an explicit list. */
module GraphicsPipeline {
  import opened Wrappers
  import opened Vk
  import Handles
  import Utils

  // ---------------------------------------------------------------------------
  // `Pipeline`: adopt, move, destroy.

  /** `Pipeline(device, VkPipeline &&)`: take the handle and the device as
      they are; no native call is made. */
  function Adopt(device: nat, h: Handle): (p: Handles.Owned)
    ensures p.parent == Some(device) && p.handle == h
    ensures h != NULL_HANDLE ==> Handles.Released(Handles.Destroy(Handles.PipelineKind, p).1) == {h}
  {
    Handles.Owned(Some(device), h)
  }

  /** Move-assignment destroys the target's pipeline and takes the source's;
      the source is left empty, so destroying both releases the moved handle
      exactly once. */
  lemma MoveThenDestroyReleasesOnce(dst: Handles.Owned, src: Handles.Owned)
    requires dst.handle == NULL_HANDLE || dst.parent.Some?
    requires src.handle == NULL_HANDLE || src.parent.Some?
    ensures var m := Handles.MoveAssign(Handles.PipelineKind, dst, src);
      && m.1 == Handles.Unset
      && Handles.Destroy(Handles.PipelineKind, m.1).1 == []
      && Handles.Released(Handles.Destroy(Handles.PipelineKind, m.0).1) ==
         (if src.handle == NULL_HANDLE then {} else {src.handle})
  {}

  // ---------------------------------------------------------------------------
  // `GraphicsPipeline`: the create-info marshaling.

  /** `SpecializationInfo`: map entries and an opaque data block. */
  datatype SpecializationInfo<Entry> = SpecializationInfo(mapEntries: seq<Entry>, dataSize: nat, data: nat)

  datatype NativeSpecializationInfo<Entry> = NativeSpecializationInfo(mapEntries: NativeArray<Entry>, dataSize: nat, data: nat)

  /** `ShaderStageCreateInfo`: the stage, the shader module (as its handle),
      the entry point name and optional specialization data. */
  datatype ShaderStage<Entry> = ShaderStage(stage: nat, shaderModule: Handle, name: string,
                                            specializationInfo: Option<SpecializationInfo<Entry>>)

  datatype NativeShaderStage<Entry> = NativeShaderStage(flags: nat, stage: nat, shaderModule: Handle, name: string,
                                                        specializationInfo: Ptr<NativeSpecializationInfo<Entry>>)

  /** One of `std::variant<std::vector<T>, uint32_t>`: the viewport and
      scissor lists. */
  datatype CountOrList<T> = Count(n: nat) | List(items: seq<T>)

  /** `MultisampleStateCreateInfo`, reduced to the optional sample mask. */
  datatype MultisampleState = MultisampleState(rasterizationSamples: nat, sampleMask: Option<nat>)

  datatype CreateInfo<Entry, Viewport, Scissor> = CreateInfo(
    shaderStages: seq<ShaderStage<Entry>>,
    viewports: CountOrList<Viewport>, scissors: CountOrList<Scissor>,
    multisample: MultisampleState, dynamicStates: seq<nat>,
    pipelineLayout: Handle, renderPass: Handle, subpass: nat)

  /** The parts of `VkGraphicsPipelineCreateInfo` this model follows. */
  datatype NativeCreateInfo<Entry, Viewport, Scissor> = NativeCreateInfo(
    stages: NativeArray<NativeShaderStage<Entry>>,
    viewports: NativeArray<Viewport>, scissors: NativeArray<Scissor>,
    rasterizationSamples: nat, sampleMask: Ptr<nat>,
    dynamicStates: NativeArray<nat>, tessellationState: Ptr<nat>,
    layout: Handle, renderPass: Handle, subpass: nat,
    basePipelineHandle: Handle, basePipelineIndex: int)

  /** The stage loop body: a specialization pointer only when the stage has
      specialization data, pointing at a copy with its own entry count. */
  function MapStage<E>(s: ShaderStage<E>): (n: NativeShaderStage<E>)
    ensures n.flags == 0 && n.stage == s.stage && n.shaderModule == s.shaderModule && n.name == s.name
    ensures n.specializationInfo.Null? <==> s.specializationInfo.None?
    ensures s.specializationInfo.Some? ==>
      && |n.specializationInfo.data| == 1
      && var ns := n.specializationInfo.data[0]; var si := s.specializationInfo.value;
         Read(ns.mapEntries) == Some(si.mapEntries) && ns.mapEntries.count == |si.mapEntries|
         && ns.dataSize == si.dataSize && ns.data == si.data
  {
    var spec := match s.specializationInfo
      case None => Null
      case Some(si) => Points([NativeSpecializationInfo(FromVector(si.mapEntries), si.dataSize, si.data)]);
    NativeShaderStage(0, s.stage, s.shaderModule, s.name, spec)
  }

  /** The viewport/scissor resolution: a bare count gives that count and a null
      pointer; a list gives its length and its data. */
  function Resolve<T>(v: CountOrList<T>): (a: NativeArray<T>)
    ensures v.Count? ==> a == NativeArray(v.n, Null)
    ensures v.List? ==> a.count == |v.items| && Read(a) == Some(v.items)
  {
    match v
    case Count(n) => NativeArray(n, Null)
    case List(items) => FromVector(items)
  }

  /** The address of the optional sample mask, or null. */
  function SampleMaskPtr(m: Option<nat>): (p: Ptr<nat>)
    ensures p.Null? <==> m.None?
    ensures m.Some? ==> p == Points([m.value])
  {
    match m
    case None => Null
    case Some(x) => Points([x])
  }

  /** The create-info the constructor builds. */
  function NativeInfo<E, V, S>(info: CreateInfo<E, V, S>): (n: NativeCreateInfo<E, V, S>)
    ensures n.stages.count == |info.shaderStages|
    ensures Read(n.stages).Some? && |Read(n.stages).value| == |info.shaderStages|
    ensures forall i :: 0 <= i < |info.shaderStages| ==> Read(n.stages).value[i] == MapStage(info.shaderStages[i])
    ensures n.viewports == Resolve(info.viewports) && n.scissors == Resolve(info.scissors)
    ensures n.sampleMask.Null? <==> info.multisample.sampleMask.None?
    ensures n.rasterizationSamples == info.multisample.rasterizationSamples
    ensures Read(n.dynamicStates) == Some(info.dynamicStates)
    ensures n.tessellationState == Null
    ensures n.layout == info.pipelineLayout && n.renderPass == info.renderPass && n.subpass == info.subpass
    ensures n.basePipelineHandle == NULL_HANDLE && n.basePipelineIndex == -1
  {
    NativeCreateInfo(
      FromVector(Utils.MapV(info.shaderStages, MapStage)),
      Resolve(info.viewports), Resolve(info.scissors),
      info.multisample.rasterizationSamples, SampleMaskPtr(info.multisample.sampleMask),
      FromVector(info.dynamicStates), Null,
      info.pipelineLayout, info.renderPass, info.subpass,
      NULL_HANDLE, -1)
  }

  /** The native creation call: one create-info, no pipeline cache. */
  datatype CreateCall<E, V, S> = CreateGraphicsPipelines(cache: Handle, createInfoCount: nat, infos: seq<NativeCreateInfo<E, V, S>>)

  /** A graphics pipeline: the adopted pipeline plus the co-owned layout and
      render pass (as handles). */
  datatype Graphics = Graphics(pipeline: Handles.Owned, pipelineLayout: Handle, renderPass: Handle)

  /** The constructor: hold the layout and render pass, then create exactly one
      pipeline, throwing unless the driver answers VK_SUCCESS. */
  function Create<E, V, S>(device: nat, info: CreateInfo<E, V, S>, res: VkResult, h: Handle)
    : (r: Result<(Graphics, CreateCall<E, V, S>), Error>)
    ensures r.Success? <==> res == VK_SUCCESS
    ensures r.Success? ==> var (g, call) := r.value;
      && g.pipeline == Adopt(device, h)
      && g.pipelineLayout == info.pipelineLayout && g.renderPass == info.renderPass
      && call.cache == NULL_HANDLE && call.createInfoCount == 1 && call.infos == [NativeInfo(info)]
  {
    var _ :- Utils.VkCheck("vkCreateGraphicsPipelines", res);
    Success((Graphics(Adopt(device, h), info.pipelineLayout, info.renderPass),
             CreateGraphicsPipelines(NULL_HANDLE, 1, [NativeInfo(info)])))
  }

  /** A stage gets a specialization pointer exactly when it carries
      specialization data, and the pointed-at entries are the stage's own. */
  lemma SpecializationFollowsTheStage<E, V, S>(info: CreateInfo<E, V, S>, i: nat)
    requires i < |info.shaderStages|
    ensures var st := Read(NativeInfo(info).stages).value[i];
      && (st.specializationInfo.Points? <==> info.shaderStages[i].specializationInfo.Some?)
      && (st.specializationInfo.Points? ==>
            Read(st.specializationInfo.data[0].mapEntries) == Some(info.shaderStages[i].specializationInfo.value.mapEntries))
  {}

  /** Dynamic viewports: a bare count reaches the driver with no array, so
      the driver reads no viewport data; a list reaches it whole. */
  lemma ViewportVariantRoundTrip<E, V, S>(info: CreateInfo<E, V, S>)
    ensures var n := NativeInfo(info);
      && (info.viewports.List? ==> Read(n.viewports) == Some(info.viewports.items))
      && (info.viewports.Count? ==> n.viewports.ptr.Null? && n.viewports.count == info.viewports.n)
      && (info.scissors.List? ==> Read(n.scissors) == Some(info.scissors.items))
      && (info.scissors.Count? ==> n.scissors.ptr.Null? && n.scissors.count == info.scissors.n)
  {}
}

=== FILE: handles.dfy ===
/** The owned-handle pattern every resource wrapper repeats: a wrapper holds a
    parent reference (the `shared_ptr<Device>`, or the loader for the device
    and instance) and one native handle. `destroy` acts only on a non-null
    handle and then nulls it; move-assignment destroys its own handle, takes the
    source's and nulls the source. The per-file deviations are recorded in
    `PolicyOf`. */
module Handles {
  import opened Wrappers
  import opened Vk

  /** The wrappers following the pattern, one per source file. */
  datatype Kind =
    | BufferKind | ImageKind | SamplerKind | ShaderModuleKind
    | PipelineLayoutKind | DescriptorSetLayoutKind | DescriptorPoolKind
    | CommandPoolKind | RenderPassKind | FramebufferKind | PipelineKind
    | DeviceMemoryKind | InstanceKind | DeviceKind

  /** Where a wrapper departs from the common pattern:
      `nullsOnDestroy` — `destroy` resets the handle to null afterwards;
      `movesDevice` — move-assignment moves (rather than copies) the parent,
      leaving the source's parent empty;
      `movable` — the class has a move-assignment operator;
      `publicDestroy` — callers may invoke `destroy` themselves;
      `defaultConstructible` — the class declares `X() = default`. */
  datatype Policy = Policy(nullsOnDestroy: bool, movesDevice: bool, movable: bool, publicDestroy: bool,
                           defaultConstructible: bool)

  function PolicyOf(k: Kind): Policy {
    match k
    case SamplerKind => Policy(false, true, true, false, true)
    case BufferKind => Policy(true, false, true, true, false)
    case FramebufferKind => Policy(true, true, true, true, true)
    case PipelineKind => Policy(true, true, true, true, true)
    case InstanceKind => Policy(true, true, false, false, true)
    case DeviceKind => Policy(true, true, false, false, false)
    case DeviceMemoryKind => Policy(true, true, true, false, false)
    case _ => Policy(true, true, true, false, true)
  }

  /** A native destroy/free call: the wrapper kind, the parent it went through
      and the handle it released. */
  datatype Call = DestroyCall(kind: Kind, parent: Option<nat>, handle: Handle)

  /** The state of one wrapper object. A default-constructed wrapper has no
      parent and a null handle. */
  datatype Owned = Owned(parent: Option<nat>, handle: Handle)

  const Unset: Owned := Owned(None, NULL_HANDLE)

  /** The handles a sequence of calls released. */
  function Released(calls: seq<Call>): set<Handle> {
    set i | 0 <= i < |calls| :: calls[i].handle
  }

  /** `destroy()`: one native call for a non-null handle, none for a null one.
      Dereferencing an empty parent is undefined in the source, so a non-null
      handle must come with a parent. */
  function Destroy(k: Kind, w: Owned): (r: (Owned, seq<Call>))
    requires w.handle == NULL_HANDLE || w.parent.Some?
    ensures |r.1| <= 1
    ensures Released(r.1) == (if w.handle == NULL_HANDLE then {} else {w.handle})
    ensures forall c :: c in r.1 ==> c == DestroyCall(k, w.parent, w.handle)
    ensures r.0.parent == w.parent
    ensures PolicyOf(k).nullsOnDestroy ==> r.0.handle == NULL_HANDLE
  {
    var calls := if w.handle != NULL_HANDLE then [DestroyCall(k, w.parent, w.handle)] else [];
    assert w.handle != NULL_HANDLE ==> calls[0].handle == w.handle;
    (if PolicyOf(k).nullsOnDestroy then w.(handle := NULL_HANDLE) else w, calls)
  }

  /** For every wrapper that nulls its handle, a second `destroy` is a no-op. */
  lemma DestroyTwiceIsDestroyOnce(k: Kind, w: Owned)
    requires w.handle == NULL_HANDLE || w.parent.Some?
    requires PolicyOf(k).nullsOnDestroy
    ensures var first := Destroy(k, w); Destroy(k, first.0) == (first.0, [])
  {}

  /** The sampler's `destroy` does not null its handle: calling it twice would
      release the same handle twice. The class keeps `destroy` private and
      overwrites the handle right after each internal call, so the world model
      below never reaches this. */
  lemma SamplerDestroyTwiceRepeatsTheCall(w: Owned)
    requires w.handle != NULL_HANDLE && w.parent.Some?
    ensures var first := Destroy(SamplerKind, w);
            first.0 == w && Destroy(SamplerKind, first.0).1 == first.1
  {}

  /** `operator=(X &&other)`: destroy this wrapper's handle, take the source's
      parent and handle, and null the source's handle. The source keeps its
      parent when the wrapper copies it instead of moving it (the buffer). */
  function MoveAssign(k: Kind, dst: Owned, src: Owned): (r: (Owned, Owned, seq<Call>))
    requires PolicyOf(k).movable
    requires dst.handle == NULL_HANDLE || dst.parent.Some?
    ensures r.0 == src
    ensures r.1.handle == NULL_HANDLE
    ensures r.1.parent == (if PolicyOf(k).movesDevice then None else src.parent)
    ensures r.2 == Destroy(k, dst).1
  {
    var destroyed := Destroy(k, dst);
    (Owned(src.parent, src.handle),
     Owned(if PolicyOf(k).movesDevice then None else src.parent, NULL_HANDLE),
     destroyed.1)
  }

  // ---------------------------------------------------------------------------
  // A world of wrappers of one kind, to state what the pattern guarantees:
  // every handle the driver creates is released exactly once, by the one
  // wrapper that owns it.

  /** Wrapper objects by slot, the handles currently alive, every handle the
      driver ever handed out, and the native calls made so far. */
  datatype World = World(slots: map<nat, Owned>, live: set<Handle>, created: set<Handle>, calls: seq<Call>)

  const Empty: World := World(map[], {}, {}, [])

  /** The C++ operations on wrapper objects. */
  datatype Op =
    | Construct(slot: nat, parent: nat, h: Handle)  // the create-info constructor
    | DefaultConstruct(slot: nat)
    | MoveConstruct(slot: nat, src: nat)           // `X(X &&o) { *this = std::move(o); }`
    | MoveAssignOp(dst: nat, src: nat)
    | ExplicitDestroy(slot: nat)
    | Drop(slot: nat)                              // the destructor: `destroy()`

  /** What the class interface allows: a fresh handle from the driver, no
      self-move, default construction, move operations and `destroy` only
      where the class declares them. */
  predicate Enabled(k: Kind, w: World, op: Op) {
    match op
    case Construct(s, _, h) => s !in w.slots && h != NULL_HANDLE && h !in w.created
    case DefaultConstruct(s) => PolicyOf(k).defaultConstructible && s !in w.slots
    case MoveConstruct(s, src) => PolicyOf(k).movable && s !in w.slots && src in w.slots
    case MoveAssignOp(d, s) => PolicyOf(k).movable && d in w.slots && s in w.slots && d != s
    case ExplicitDestroy(s) => PolicyOf(k).publicDestroy && s in w.slots
    case Drop(s) => s in w.slots
  }

  /** Every wrapper holding a handle has a parent to release it through. */
  ghost predicate ParentsSet(w: World) {
    forall s :: s in w.slots && w.slots[s].handle != NULL_HANDLE ==> w.slots[s].parent.Some?
  }

  function Step(k: Kind, w: World, op: Op): World
    requires Enabled(k, w, op) && ParentsSet(w)
  {
    match op
    case Construct(s, p, h) =>
      World(w.slots[s := Owned(Some(p), h)], w.live + {h}, w.created + {h}, w.calls)
    case DefaultConstruct(s) =>
      World(w.slots[s := Unset], w.live, w.created, w.calls)
    case MoveConstruct(s, src) =>
      var r := MoveAssign(k, Unset, w.slots[src]);
      World(w.slots[s := r.0][src := r.1], w.live, w.created, w.calls + r.2)
    case MoveAssignOp(d, src) =>
      var r := MoveAssign(k, w.slots[d], w.slots[src]);
      World(w.slots[d := r.0][src := r.1], w.live - Released(r.2), w.created, w.calls + r.2)
    case ExplicitDestroy(s) =>
      var r := Destroy(k, w.slots[s]);
      World(w.slots[s := r.0], w.live - Released(r.1), w.created, w.calls + r.1)
    case Drop(s) =>
      var r := Destroy(k, w.slots[s]);
      World(w.slots - {s}, w.live - Released(r.1), w.created, w.calls + r.1)
  }

  /** The non-null handles the wrappers hold. */
  ghost function Held(slots: map<nat, Owned>): set<Handle> {
    set s | s in slots && slots[s].handle != NULL_HANDLE :: slots[s].handle
  }

  /** Unique ownership: no two wrappers hold the same non-null handle. */
  ghost predicate Unique(slots: map<nat, Owned>) {
    forall s1, s2 :: s1 in slots && s2 in slots && s1 != s2 && slots[s1].handle != NULL_HANDLE ==>
      slots[s1].handle != slots[s2].handle
  }

  /** The ownership invariant: the live handles are exactly the held ones, each
      held once; every released handle was created, is dead, and was released
      once; every created handle is either live or released. */
  ghost predicate Inv(k: Kind, w: World) {
    && ParentsSet(w)
    && Unique(w.slots)
    && w.live == Held(w.slots)
    && NULL_HANDLE !in w.created
    && w.created == w.live + Released(w.calls)
    && w.live !! Released(w.calls)
    && (forall i, j :: 0 <= i < j < |w.calls| ==> w.calls[i].handle != w.calls[j].handle)
  }

  lemma EmptyInv(k: Kind)
    ensures Inv(k, Empty)
  {}

  lemma ReleasedAppend(a: seq<Call>, b: seq<Call>)
    ensures Released(a + b) == Released(a) + Released(b)
  {
    var ab := a + b;
    forall h | h in Released(ab)
      ensures h in Released(a) + Released(b)
    {
      var i :| 0 <= i < |ab| && ab[i].handle == h;
      if i >= |a| {
        assert b[i - |a|].handle == h;
      }
    }
    forall h | h in Released(a) + Released(b)
      ensures h in Released(ab)
    {
      if h in Released(b) {
        var i :| 0 <= i < |b| && b[i].handle == h;
        assert ab[|a| + i].handle == h;
      } else {
        var i :| 0 <= i < |a| && a[i].handle == h;
        assert ab[i].handle == h;
      }
    }
  }

  /** Releasing a handle held by slot `s` and then replacing or removing that
      slot's entry: what the held set becomes. */
  lemma HeldUpdate(slots: map<nat, Owned>, s: nat, o: Owned)
    requires Unique(slots) && s in slots
    ensures Held(slots[s := o]) ==
      (Held(slots) - (if slots[s].handle == NULL_HANDLE then {} else {slots[s].handle}))
      + (if o.handle == NULL_HANDLE then {} else {o.handle})
  {
    var before := Held(slots);
    var after := Held(slots[s := o]);
    var old_ := if slots[s].handle == NULL_HANDLE then {} else {slots[s].handle};
    var new_ := if o.handle == NULL_HANDLE then {} else {o.handle};
    forall h | h in after ensures h in (before - old_) + new_ {
      var t :| t in slots[s := o] && slots[s := o][t].handle != NULL_HANDLE && slots[s := o][t].handle == h;
      if t != s {
        assert h in before;
      }
    }
    forall h | h in (before - old_) + new_ ensures h in after {
      if h !in new_ {
        var t :| t in slots && slots[t].handle != NULL_HANDLE && slots[t].handle == h;
        assert t != s;
        assert slots[s := o][t].handle == h;
      } else {
        assert slots[s := o][s].handle == h;
      }
    }
  }

  /** Moving slot `src`'s handle into slot `d` and nulling `src`: the held set
      loses only what `d` held before, and ownership stays unique. */
  lemma HeldTransfer(slots: map<nat, Owned>, d: nat, src: nat, nd: Owned, ns: Owned)
    requires Unique(slots) && d in slots && src in slots && d != src
    requires nd.handle == slots[src].handle && ns.handle == NULL_HANDLE
    ensures Unique(slots[d := nd][src := ns])
    ensures Held(slots[d := nd][src := ns]) ==
      Held(slots) - (if slots[d].handle == NULL_HANDLE then {} else {slots[d].handle})
  {
    var after := slots[d := nd][src := ns];
    var old_ := if slots[d].handle == NULL_HANDLE then {} else {slots[d].handle};
    forall h | h in Held(after) ensures h in Held(slots) - old_ {
      var t :| t in after && after[t].handle != NULL_HANDLE && after[t].handle == h;
      if t == d {
        assert slots[src].handle == h;
      } else {
        assert t != src && slots[t].handle == h;
      }
    }
    forall h | h in Held(slots) - old_ ensures h in Held(after) {
      var t :| t in slots && slots[t].handle != NULL_HANDLE && slots[t].handle == h;
      assert t != d;
      if t == src {
        assert after[d].handle == h;
      } else {
        assert after[t].handle == h;
      }
    }
  }

  lemma HeldRemove(slots: map<nat, Owned>, s: nat)
    requires Unique(slots) && s in slots
    ensures Held(slots - {s}) ==
      Held(slots) - (if slots[s].handle == NULL_HANDLE then {} else {slots[s].handle})
  {
    var after := Held(slots - {s});
    var old_ := if slots[s].handle == NULL_HANDLE then {} else {slots[s].handle};
    forall h | h in Held(slots) - old_ ensures h in after {
      var t :| t in slots && slots[t].handle != NULL_HANDLE && slots[t].handle == h;
      assert t != s;
      assert t in slots - {s};
    }
  }

  /** Appending calls that release distinct live handles keeps the released
      handles pairwise distinct. */
  lemma AppendReleasesKeepsDistinct(calls: seq<Call>, extra: seq<Call>, live: set<Handle>)
    requires forall i, j :: 0 <= i < j < |calls| ==> calls[i].handle != calls[j].handle
    requires live !! Released(calls)
    requires |extra| <= 1 && Released(extra) <= live
    ensures forall i, j :: 0 <= i < j < |calls + extra| ==> (calls + extra)[i].handle != (calls + extra)[j].handle
  {
    var all := calls + extra;
    forall i, j | 0 <= i < j < |all|
      ensures all[i].handle != all[j].handle
    {
      if j >= |calls| {
        assert j == |calls| && extra[0].handle in Released(extra);
        assert all[i].handle in Released(calls);
      }
    }
  }

  /** What one step may do to the world besides keeping the invariant: only
      append native calls, release only handles that were live, and keep
      every newly created handle live. */
  ghost predicate StepOk(w: World, w': World) {
    && w.calls <= w'.calls
    && Released(w'.calls[|w.calls|..]) <= w.live
    && w'.created - w.created <= w'.live
  }

  lemma ConstructKeepsInv(k: Kind, w: World, op: Op)
    requires Inv(k, w) && Enabled(k, w, op) && (op.Construct? || op.DefaultConstruct?)
    ensures Inv(k, Step(k, w, op)) && StepOk(w, Step(k, w, op))
  {
    var w' := Step(k, w, op);
    if op.Construct? {
      HeldUpdateFresh(w.slots, op.slot, Owned(Some(op.parent), op.h));
    } else {
      HeldUpdateFresh(w.slots, op.slot, Unset);
    }
    assert w'.calls[|w.calls|..] == [];
    assert Released([]) == {};
  }

  lemma MoveConstructKeepsInv(k: Kind, w: World, s: nat, src: nat)
    requires Inv(k, w) && Enabled(k, w, MoveConstruct(s, src))
    ensures Inv(k, Step(k, w, MoveConstruct(s, src))) && StepOk(w, Step(k, w, MoveConstruct(s, src)))
  {
    var w' := Step(k, w, MoveConstruct(s, src));
    var r := MoveAssign(k, Unset, w.slots[src]);
    assert r.2 == [];
    HeldTransfer(w.slots[s := Unset], s, src, r.0, r.1);
    HeldUpdateFresh(w.slots, s, Unset);
    assert w.slots[s := Unset][s := r.0][src := r.1] == w.slots[s := r.0][src := r.1];
    assert w.calls + r.2 == w.calls;
    assert w'.calls[|w.calls|..] == [];
    assert Released([]) == {};
  }

  lemma MoveAssignKeepsInv(k: Kind, w: World, d: nat, src: nat)
    requires Inv(k, w) && Enabled(k, w, MoveAssignOp(d, src))
    ensures Inv(k, Step(k, w, MoveAssignOp(d, src))) && StepOk(w, Step(k, w, MoveAssignOp(d, src)))
  {
    var w' := Step(k, w, MoveAssignOp(d, src));
    var r := MoveAssign(k, w.slots[d], w.slots[src]);
    HeldTransfer(w.slots, d, src, r.0, r.1);
    ReleasedAppend(w.calls, r.2);
    AppendReleasesKeepsDistinct(w.calls, r.2, w.live);
    assert w'.calls[|w.calls|..] == r.2;
  }

  lemma DestroyKeepsInv(k: Kind, w: World, s: nat)
    requires Inv(k, w) && Enabled(k, w, ExplicitDestroy(s))
    ensures Inv(k, Step(k, w, ExplicitDestroy(s))) && StepOk(w, Step(k, w, ExplicitDestroy(s)))
  {
    var w' := Step(k, w, ExplicitDestroy(s));
    var r := Destroy(k, w.slots[s]);
    HeldUpdate(w.slots, s, r.0);
    ReleasedAppend(w.calls, r.1);
    AppendReleasesKeepsDistinct(w.calls, r.1, w.live);
    assert w'.calls[|w.calls|..] == r.1;
  }

  lemma DropKeepsInv(k: Kind, w: World, s: nat)
    requires Inv(k, w) && Enabled(k, w, Drop(s))
    ensures Inv(k, Step(k, w, Drop(s))) && StepOk(w, Step(k, w, Drop(s)))
  {
    var w' := Step(k, w, Drop(s));
    var r := Destroy(k, w.slots[s]);
    HeldRemove(w.slots, s);
    ReleasedAppend(w.calls, r.1);
    AppendReleasesKeepsDistinct(w.calls, r.1, w.live);
    assert w'.calls[|w.calls|..] == r.1;
  }

  /** Every operation the interface allows keeps the ownership invariant, and
      the calls it makes release only handles that were live. */
  lemma StepKeepsInv(k: Kind, w: World, op: Op)
    requires Inv(k, w) && Enabled(k, w, op)
    ensures var w' := Step(k, w, op);
            && Inv(k, w')
            && w.calls <= w'.calls
            && Released(w'.calls[|w.calls|..]) <= w.live
            && w'.created - w.created <= w'.live
  {
    match op
    case Construct(_, _, _) => ConstructKeepsInv(k, w, op);
    case DefaultConstruct(_) => ConstructKeepsInv(k, w, op);
    case MoveConstruct(s, src) => MoveConstructKeepsInv(k, w, s, src);
    case MoveAssignOp(d, src) => MoveAssignKeepsInv(k, w, d, src);
    case ExplicitDestroy(s) => DestroyKeepsInv(k, w, s);
    case Drop(s) => DropKeepsInv(k, w, s);
  }

  lemma HeldUpdateFresh(slots: map<nat, Owned>, s: nat, o: Owned)
    requires s !in slots
    ensures Held(slots[s := o]) == Held(slots) + (if o.handle == NULL_HANDLE then {} else {o.handle})
  {
    var after := Held(slots[s := o]);
    forall h | h in Held(slots) ensures h in after {
      var t :| t in slots && slots[t].handle != NULL_HANDLE && slots[t].handle == h;
      assert slots[s := o][t] == slots[t];
    }
    if o.handle != NULL_HANDLE {
      assert slots[s := o][s].handle == o.handle;
    }
  }

  /** Running a whole program of wrapper operations. */
  ghost predicate Runs(k: Kind, w: World, ops: seq<Op>)
    decreases |ops|
  {
    |ops| == 0 || (Inv(k, w) && Enabled(k, w, ops[0]) && Runs(k, Step(k, w, ops[0]), ops[1..]))
  }

  ghost function Run(k: Kind, w: World, ops: seq<Op>): World
    requires Inv(k, w) && Runs(k, w, ops)
    decreases |ops|
  {
    if |ops| == 0 then w
    else
      StepKeepsInv(k, w, ops[0]);
      Run(k, Step(k, w, ops[0]), ops[1..])
  }

  /** Exactly-once release: after any program that ends with every wrapper
      destroyed, each handle the driver created has been released by exactly one
      native call. */
  lemma {:induction false} EveryHandleReleasedOnce(k: Kind, ops: seq<Op>)
    requires Runs(k, Empty, ops)
    ensures Inv(k, Run(k, Empty, ops))
    ensures var w := Run(k, Empty, ops);
            w.slots == map[] ==>
              && w.created == Released(w.calls)
              && (forall i, j :: 0 <= i < j < |w.calls| ==> w.calls[i].handle != w.calls[j].handle)
  {
    RunKeepsInv(k, Empty, ops);
  }

  lemma {:induction false} RunKeepsInv(k: Kind, w: World, ops: seq<Op>)
    requires Inv(k, w) && Runs(k, w, ops)
    ensures Inv(k, Run(k, w, ops))
    decreases |ops|
  {
    if |ops| > 0 {
      StepKeepsInv(k, w, ops[0]);
      RunKeepsInv(k, Step(k, w, ops[0]), ops[1..]);
    }
  }
}

=== FILE: image.dfy ===
/** `Image`: an owned image handle. Its create-info holds the queue families
    as a `std::set` (image.h line 17). The constructor passes the set's size as
    the count and `.data()` as the pointer, but `std::set` has no `.data()`;
    what is modelled is the evident intent, a contiguous copy of the set in its
    iteration order, so the native list is deduplicated and ascending. */
module Image {
  import opened Wrappers
  import opened Vk
  import Handles
  import Utils

  /** `ImageCreateInfo`, with the queue family set given by the values it was
      built from; the other fields are passed through unchanged and are kept
      opaque. */
  datatype CreateInfo<Fields> = CreateInfo(fields: Fields, queueFamilyIndices: seq<nat>)

  datatype NativeCreateInfo<Fields> = NativeCreateInfo(flagsAndFormat: Fields, queueFamilyIndices: NativeArray<nat>)

  /** The constructor's create-info: the count is the set's `.size()`, and the
      array stands for the set's members laid out contiguously in iteration
      (ascending) order, in place of the ill-formed `.data()` call. */
  function NativeInfo<F>(info: CreateInfo<F>): (n: NativeCreateInfo<F>)
    ensures n.flagsAndFormat == info.fields
    ensures n.queueFamilyIndices.count == |Utils.Distinct(info.queueFamilyIndices)|
    ensures Read(n.queueFamilyIndices).Some?
    ensures var fams := Read(n.queueFamilyIndices).value;
      Utils.StrictlyIncreasing(fams) && forall q :: q in fams <==> q in info.queueFamilyIndices
  {
    Utils.SetFromListCard(info.queueFamilyIndices);
    NativeCreateInfo(info.fields, FromVector(Utils.SetFromList(info.queueFamilyIndices)))
  }

  function Create<F>(device: nat, info: CreateInfo<F>, res: VkResult, h: Handle)
    : (r: Result<(Handles.Owned, NativeCreateInfo<F>), Error>)
    ensures r.Success? <==> res == VK_SUCCESS
    ensures r.Success? ==> r.value.0 == Handles.Owned(Some(device), h)
    ensures r.Success? ==> var n := r.value.1;
      && n.flagsAndFormat == info.fields
      && Read(n.queueFamilyIndices).Some?
      && n.queueFamilyIndices.count == |Utils.Distinct(info.queueFamilyIndices)|
      && forall q :: q in Read(n.queueFamilyIndices).value <==> q in info.queueFamilyIndices
  {
    var _ :- Utils.VkCheck("vkCreateImage", res);
    Success((Handles.Owned(Some(device), h), NativeInfo(info)))
  }

  /** Naming the same family twice (a graphics family that also does transfer)
      gives a one-element list. */
  lemma SameFamilyTwiceIsOneEntry<F>(fields: F, q: nat)
    ensures NativeInfo(CreateInfo(fields, [q, q])).queueFamilyIndices.count == 1
  {
    assert Utils.Distinct([q, q]) == {q};
  }

  /** Move-assignment destroys the target's image and takes the source's
      handle and device, leaving the source empty. */
  lemma MoveThenDestroyReleasesOnce(dst: Handles.Owned, src: Handles.Owned)
    requires dst.handle == NULL_HANDLE || dst.parent.Some?
    requires src.handle == NULL_HANDLE || src.parent.Some?
    ensures var m := Handles.MoveAssign(Handles.ImageKind, dst, src);
      && m.1 == Handles.Unset
      && Handles.Destroy(Handles.ImageKind, m.1).1 == []
      && Handles.Released(Handles.Destroy(Handles.ImageKind, m.0).1) ==
         (if src.handle == NULL_HANDLE then {} else {src.handle})
  {}
}

=== FILE: instance.dfy ===
/** `ApiVersion::encode` and the `Instance` wrapper: the extension list the
    constructor passes, the create-info it fills in, the destructor, and the
    enumeration of physical devices. */
module Instance {
  import opened Wrappers
  import opened Vk
  import Handles
  import Utils

  /** `ApiVersion`: four `uint32_t` fields, 0 by default. */
  datatype ApiVersion = ApiVersion(variant: bv32, major: bv32, minor: bv32, patch: bv32)

  const DefaultVersion: ApiVersion := ApiVersion(0, 0, 0, 0)

  /** `encode()`: the VK_MAKE_API_VERSION packing of the "Version Numbers"
      section of the Vulkan specification, variant in bits 29-31, major in
      22-28, minor in 12-21 and patch in 0-11. Nothing masks the fields. */
  function Encode(v: ApiVersion): bv32 {
    (v.variant << 29) | (v.major << 22) | (v.minor << 12) | v.patch
  }

  /** The VK_API_VERSION_VARIANT/MAJOR/MINOR/PATCH extraction macros. */
  function Decode(x: bv32): (v: ApiVersion)
    ensures InRange(v)
  {
    ApiVersion(x >> 29, (x >> 22) & 0x7F, (x >> 12) & 0x3FF, x & 0xFFF)
  }

  /** Every field fits its bit range. */
  predicate InRange(v: ApiVersion) {
    v.variant < 8 && v.major < 128 && v.minor < 1024 && v.patch < 4096
  }

  lemma VariantBack(a: bv32, b: bv32, c: bv32, d: bv32)
    requires a < 8 && b < 128 && c < 1024 && d < 4096
    ensures ((a << 29) | (b << 22) | (c << 12) | d) >> 29 == a
  {}

  lemma MajorBack(a: bv32, b: bv32, c: bv32, d: bv32)
    requires a < 8 && b < 128 && c < 1024 && d < 4096
    ensures (((a << 29) | (b << 22) | (c << 12) | d) >> 22) & 0x7F == b
  {}

  lemma MinorBack(a: bv32, b: bv32, c: bv32, d: bv32)
    requires a < 8 && b < 128 && c < 1024 && d < 4096
    ensures (((a << 29) | (b << 22) | (c << 12) | d) >> 12) & 0x3FF == c
  {}

  lemma PatchBack(a: bv32, b: bv32, c: bv32, d: bv32)
    requires a < 8 && b < 128 && c < 1024 && d < 4096
    ensures ((a << 29) | (b << 22) | (c << 12) | d) & 0xFFF == d
  {}

  /** For fields inside their ranges the packing decodes back. */
  lemma DecodeEncode(v: ApiVersion)
    requires InRange(v)
    ensures Decode(Encode(v)) == v
  {
    VariantBack(v.variant, v.major, v.minor, v.patch);
    MajorBack(v.variant, v.major, v.minor, v.patch);
    MinorBack(v.variant, v.major, v.minor, v.patch);
    PatchBack(v.variant, v.major, v.minor, v.patch);
  }

  /** Every 32-bit value is the packing of exactly one in-range version. */
  lemma EncodeDecode(x: bv32)
    ensures Encode(Decode(x)) == x
  {}

  /** So in-range versions are never confused with each other. */
  lemma EncodeInjective(a: ApiVersion, b: ApiVersion)
    requires InRange(a) && InRange(b) && Encode(a) == Encode(b)
    ensures a == b
  {
    DecodeEncode(a);
    DecodeEncode(b);
  }

  /** Out-of-range fields overlap their neighbours: patch 4096 packs like
      minor 1. */
  lemma OutOfRangeFieldsOverlap()
    ensures Encode(ApiVersion(0, 0, 0, 4096)) == Encode(ApiVersion(0, 0, 1, 0))
  {}

  const DebugUtilsExtension: string := "VK_EXT_debug_utils"

  /** The extension list the constructor enables: with a debug messenger, the
      debug-utils extension is appended when (and only when) it is absent;
      without one, the list is used unchanged. */
  function EnabledExtensions(exts: seq<string>, debug: bool): (r: seq<string>)
    ensures !debug ==> r == exts
    ensures debug ==> DebugUtilsExtension in r
    ensures |exts| <= |r| <= |exts| + 1 && r[..|exts|] == exts
    ensures forall e :: e in r ==> e in exts || e == DebugUtilsExtension
    ensures |r| == |exts| + 1 <==> debug && DebugUtilsExtension !in exts
  {
    assert exts + [DebugUtilsExtension] == exts + [DebugUtilsExtension];
    assert (exts + [DebugUtilsExtension])[..|exts|] == exts;
    if debug && DebugUtilsExtension !in exts then exts + [DebugUtilsExtension] else exts
  }

  /** How many times `e` occurs in `xs`. */
  function Occurrences(xs: seq<string>, e: string): nat {
    if |xs| == 0 then 0 else Occurrences(xs[..|xs| - 1], e) + (if xs[|xs| - 1] == e then 1 else 0)
  }

  lemma {:induction false} OccurrencesAbsent(xs: seq<string>, e: string)
    ensures e !in xs <==> Occurrences(xs, e) == 0
  {
    if |xs| > 0 {
      OccurrencesAbsent(xs[..|xs| - 1], e);
      assert xs == xs[..|xs| - 1] + [xs[|xs| - 1]];
    }
  }

  /** The extension is never enabled twice: its count after the constructor is
      at most the caller's count, or 1 if the caller had none. */
  lemma DebugExtensionNotDuplicated(exts: seq<string>, debug: bool)
    ensures var r := EnabledExtensions(exts, debug);
      Occurrences(r, DebugUtilsExtension) ==
        if debug && Occurrences(exts, DebugUtilsExtension) == 0 then 1 else Occurrences(exts, DebugUtilsExtension)
  {
    OccurrencesAbsent(exts, DebugUtilsExtension);
    var r := EnabledExtensions(exts, debug);
    if r != exts {
      assert r[..|r| - 1] == exts;
    }
  }

  /** Building the list from its own output changes nothing. */
  lemma EnabledExtensionsIdempotent(exts: seq<string>, debug: bool)
    ensures EnabledExtensions(EnabledExtensions(exts, debug), debug) == EnabledExtensions(exts, debug)
  {}

  /** `ApplicationInfo`. */
  datatype ApplicationInfo = ApplicationInfo(
    apiVersion: ApiVersion, appVersion: ApiVersion, engineVersion: ApiVersion,
    appName: string, engineName: string)

  /** `InstanceCreateInfo`. */
  datatype InstanceCreateInfo = InstanceCreateInfo(flags: nat, enabledExtensions: seq<string>, enabledLayers: seq<string>)

  /** `DebugMessengerCreateInfo`, without its log callback. */
  datatype DebugMessengerCreateInfo = DebugMessengerCreateInfo(severity: nat, messageType: nat)

  /** The native create-info: its `pNext` chain (the debug messenger info, or
      nothing), flags, the encoded versions, layers and extensions. */
  datatype NativeInstanceCreateInfo = NativeInstanceCreateInfo(
    pNext: Ptr<DebugMessengerCreateInfo>, flags: nat,
    applicationVersion: bv32, engineVersion: bv32, apiVersion: bv32,
    appName: string, engineName: string,
    layers: NativeArray<string>, extensions: NativeArray<string>)

  /** The constructor's create-info as written: the messenger info is built and
      a local `pNext` points at it, but the struct's own `pNext` is the null
      handle, so the messenger is not chained. */
  function CreateInfoAsWritten(app: ApplicationInfo, info: InstanceCreateInfo, debug: Option<DebugMessengerCreateInfo>)
    : (n: NativeInstanceCreateInfo)
    ensures n.pNext == Null
    ensures Read(n.extensions) == Some(EnabledExtensions(info.enabledExtensions, debug.Some?))
    ensures Read(n.layers) == Some(info.enabledLayers)
    ensures n.apiVersion == Encode(app.apiVersion) && n.applicationVersion == Encode(app.appVersion)
    ensures n.engineVersion == Encode(app.engineVersion) && n.flags == info.flags
  {
    NativeInstanceCreateInfo(
      Null, info.flags,
      Encode(app.appVersion), Encode(app.engineVersion), Encode(app.apiVersion),
      app.appName, app.engineName,
      FromVector(info.enabledLayers), FromVector(EnabledExtensions(info.enabledExtensions, debug.Some?)))
  }

  /** With debug info given, the as-written create-info still chains nothing. */
  lemma DebugMessengerIsNotChained(app: ApplicationInfo, info: InstanceCreateInfo, d: DebugMessengerCreateInfo)
    ensures CreateInfoAsWritten(app, info, Some(d)).pNext != Points([d])
  {}

  /** The create-info with the messenger chained through `pNext`, as the local
      variable computed for it evidently means. */
  function CreateInfo(app: ApplicationInfo, info: InstanceCreateInfo, debug: Option<DebugMessengerCreateInfo>)
    : (n: NativeInstanceCreateInfo)
    ensures debug.None? ==> n.pNext == Null
    ensures debug.Some? ==> n.pNext == Points([debug.value])
    ensures n == CreateInfoAsWritten(app, info, debug).(pNext := n.pNext)
  {
    CreateInfoAsWritten(app, info, debug).(pNext := match debug case None => Null case Some(d) => Points([d]))
  }

  /** The constructor as written: create the instance through the loader with
      the as-written create-info, so the messenger info is never chained. */
  function Create(loader: nat, app: ApplicationInfo, info: InstanceCreateInfo,
                  debug: Option<DebugMessengerCreateInfo>, res: VkResult, h: Handle)
    : (r: Result<(Handles.Owned, NativeInstanceCreateInfo), Error>)
    ensures r.Success? <==> res == VK_SUCCESS
    ensures r.Success? ==> r.value.0 == Handles.Owned(Some(loader), h)
    ensures r.Success? ==> Read(r.value.1.extensions) == Some(EnabledExtensions(info.enabledExtensions, debug.Some?))
    ensures r.Success? ==> Read(r.value.1.layers) == Some(info.enabledLayers)
    ensures r.Success? ==> r.value.1.pNext == Null
  {
    var _ :- Utils.VkCheck("vkCreateInstance", res);
    Success((Handles.Owned(Some(loader), h), CreateInfoAsWritten(app, info, debug)))
  }

  /** The evidently intended constructor: the same call, with the messenger
      info chained exactly when debug info is given. */
  function CreateCorrected(loader: nat, app: ApplicationInfo, info: InstanceCreateInfo,
                           debug: Option<DebugMessengerCreateInfo>, res: VkResult, h: Handle)
    : (r: Result<(Handles.Owned, NativeInstanceCreateInfo), Error>)
    ensures r.Success? <==> res == VK_SUCCESS
    ensures r.Success? ==> r.value.0 == Handles.Owned(Some(loader), h)
    ensures r.Success? ==> (debug.Some? <==> r.value.1.pNext.Points?)
    ensures r.Success? ==> r.value.1.(pNext := Null) == Create(loader, app, info, debug, res, h).value.1
  {
    var _ :- Utils.VkCheck("vkCreateInstance", res);
    Success((Handles.Owned(Some(loader), h), CreateInfo(app, info, debug)))
  }

  /** The destructor: destroy a non-null instance through the loader, once. */
  lemma DestructorDestroysOnce(i: Handles.Owned)
    requires i.handle == NULL_HANDLE || i.parent.Some?
    ensures var d := Handles.Destroy(Handles.InstanceKind, i);
      d.0.handle == NULL_HANDLE &&
      d.1 == (if i.handle == NULL_HANDLE then [] else [Handles.DestroyCall(Handles.InstanceKind, i.parent, i.handle)])
  {}

  /** `PhysicalDevice`: the loader and the native handle. */
  datatype PhysicalDevice = PhysicalDevice(loader: nat, handle: Handle)

  /** `listPhysicalDevices`: ask for the count, then for the handles (the
      driver answers `handles`), and wrap each one, in order. Either call
      failing throws. */
  function ListPhysicalDevices(loader: nat, countRes: VkResult, listRes: VkResult, handles: seq<Handle>)
    : (r: Result<seq<PhysicalDevice>, Error>)
    ensures r.Success? <==> countRes == VK_SUCCESS && listRes == VK_SUCCESS
    ensures r.Success? ==> |r.value| == |handles|
    ensures r.Success? ==> forall i :: 0 <= i < |handles| ==> r.value[i] == PhysicalDevice(loader, handles[i])
  {
    var _ :- Utils.VkCheck("vkEnumeratePhysicalDevices", countRes);
    var _ :- Utils.VkCheck("vkEnumeratePhysicalDevices", listRes);
    Success(Utils.MapV(handles, (h: Handle) => PhysicalDevice(loader, h)))
  }
}

=== FILE: pipeline_layout.dfy ===
/** `PipelineLayout`: an owned pipeline-layout handle created from descriptor
    set layouts and push-constant ranges. */
module PipelineLayout {
  import opened Wrappers
  import opened Vk
  import Handles
  import Utils

  datatype CreateInfo<Range> = CreateInfo(setLayouts: seq<Handle>, pushConstantRanges: seq<Range>)

  datatype NativeCreateInfo<Range> = NativeCreateInfo(flags: nat, setLayouts: NativeArray<Handle>,
                                                      pushConstantRanges: NativeArray<Range>)

  /** The constructor: both lists passed whole, each with its own length. */
  function Create<R>(device: nat, info: CreateInfo<R>, res: VkResult, h: Handle)
    : (r: Result<(Handles.Owned, NativeCreateInfo<R>), Error>)
    ensures r.Success? <==> res == VK_SUCCESS
    ensures r.Success? ==> r.value.0 == Handles.Owned(Some(device), h)
    ensures r.Success? ==> var n := r.value.1;
      && n.flags == 0
      && n.setLayouts.count == |info.setLayouts| && Read(n.setLayouts) == Some(info.setLayouts)
      && n.pushConstantRanges.count == |info.pushConstantRanges|
      && Read(n.pushConstantRanges) == Some(info.pushConstantRanges)
  {
    var _ :- Utils.VkCheck("vkCreatePipelineLayout", res);
    Success((Handles.Owned(Some(device), h),
             NativeCreateInfo(0, FromVector(info.setLayouts), FromVector(info.pushConstantRanges))))
  }

  lemma MoveThenDestroyReleasesOnce(dst: Handles.Owned, src: Handles.Owned)
    requires dst.handle == NULL_HANDLE || dst.parent.Some?
    requires src.handle == NULL_HANDLE || src.parent.Some?
    ensures var m := Handles.MoveAssign(Handles.PipelineLayoutKind, dst, src);
      && m.1 == Handles.Unset
      && Handles.Destroy(Handles.PipelineLayoutKind, m.1).1 == []
      && Handles.Released(Handles.Destroy(Handles.PipelineLayoutKind, m.0).1) ==
         (if src.handle == NULL_HANDLE then {} else {src.handle})
  {}
}

=== FILE: queue.dfy ===
/** `Queue`: a device queue looked up by family and index, through which work
    is submitted and images are presented. The queue is not destroyed (the
    device owns it), so the wrapper only moves its handle around. */
module Queue {
  import opened Wrappers
  import opened Vk
  import Utils

  /** The wrapper's fields. The move-assignment below does not touch the two
      indices, so a moved-into queue keeps whatever indices it had. */
  datatype Queue = Queue(device: Option<nat>, queue: Handle, queueFamilyIndex: nat, queueIndex: nat)

  /** `QueueSubmitInfo`: (semaphore, stage mask) wait pairs, command buffers,
      signal semaphores and the fence to signal. */
  datatype SubmitInfo = SubmitInfo(waitSemaphoresAndStages: seq<(Handle, nat)>, commandBuffers: seq<Handle>,
                                   signalSemaphores: seq<Handle>, fence: Handle)

  /** `VkSubmitInfo`: one wait count shared by the semaphore and stage arrays. */
  datatype NativeSubmitInfo = NativeSubmitInfo(waitSemaphoreCount: nat, waitSemaphores: Ptr<Handle>,
                                               waitDstStageMasks: Ptr<nat>, commandBuffers: NativeArray<Handle>,
                                               signalSemaphores: NativeArray<Handle>)

  /** `QueuePresentInfo`: wait semaphores and (swapchain, image index) pairs. */
  datatype PresentInfo = PresentInfo(waitSemaphores: seq<Handle>, swapchainsAndImageIndices: seq<(Handle, nat)>)

  /** `VkPresentInfoKHR`: one swapchain count shared by the swapchain and index
      arrays; no per-swapchain results are requested. */
  datatype NativePresentInfo = NativePresentInfo(waitSemaphores: NativeArray<Handle>, swapchainCount: nat,
                                                 swapchains: Ptr<Handle>, imageIndices: Ptr<nat>, results: Ptr<int>)

  /** The native calls a queue makes. */
  datatype QueueCall =
    | QueueSubmit(queue: Handle, submitCount: nat, info: NativeSubmitInfo, fence: Handle)
    | QueuePresent(queue: Handle, presentInfo: NativePresentInfo)
    | QueueWaitIdle(queue: Handle)

  /** The constructor: remember the device and both indices and fetch the
      queue handle (`h`, answered by the driver). */
  function Create(device: nat, queueFamilyIndex: nat, queueIndex: nat, h: Handle): (q: Queue)
    ensures q.device == Some(device) && q.queue == h
    ensures GetQueueFamilyIndex(q) == queueFamilyIndex && GetQueueIndex(q) == queueIndex
  {
    Queue(Some(device), h, queueFamilyIndex, queueIndex)
  }

  function GetQueueFamilyIndex(q: Queue): nat { q.queueFamilyIndex }

  function GetQueueIndex(q: Queue): nat { q.queueIndex }

  /** `operator=(Queue &&)`: move the device, copy the handle and null the
      source's; the indices stay where they were on both sides. */
  function MoveAssign(dst: Queue, src: Queue): (r: (Queue, Queue))
    ensures r.0.device == src.device && r.0.queue == src.queue
    ensures GetQueueFamilyIndex(r.0) == GetQueueFamilyIndex(dst) && GetQueueIndex(r.0) == GetQueueIndex(dst)
    ensures r.1.device == None && r.1.queue == NULL_HANDLE
    ensures GetQueueFamilyIndex(r.1) == GetQueueFamilyIndex(src) && GetQueueIndex(r.1) == GetQueueIndex(src)
  {
    (dst.(device := src.device, queue := src.queue), src.(device := None, queue := NULL_HANDLE))
  }

  /** Because the indices are not transferred, a queue moved into a different
      default-looking object does not report the source's family. */
  lemma MoveDropsIndices(dst: Queue, src: Queue)
    requires GetQueueFamilyIndex(dst) != GetQueueFamilyIndex(src)
    ensures GetQueueFamilyIndex(MoveAssign(dst, src).0) != GetQueueFamilyIndex(src)
  {}

  /** `submit`: split the wait pairs into parallel semaphore and stage arrays,
      submit one info, and throw unless the driver answers VK_SUCCESS. */
  function Submit(q: Queue, info: SubmitInfo, res: VkResult): (r: Result<QueueCall, Error>)
    ensures r.Success? <==> res == VK_SUCCESS
    ensures r.Success? ==> (r.value.QueueSubmit? && r.value.queue == q.queue && r.value.submitCount == 1 &&
      r.value.fence == info.fence)
    ensures r.Success? ==> var n := r.value.info;
      && n.waitSemaphoreCount == |info.waitSemaphoresAndStages|
      && Read(NativeArray(n.waitSemaphoreCount, n.waitSemaphores)).Some?
      && Read(NativeArray(n.waitSemaphoreCount, n.waitDstStageMasks)).Some?
      && Utils.Zip(Read(NativeArray(n.waitSemaphoreCount, n.waitSemaphores)).value,
                   Read(NativeArray(n.waitSemaphoreCount, n.waitDstStageMasks)).value)
         == info.waitSemaphoresAndStages
      && Read(n.commandBuffers) == Some(info.commandBuffers)
      && Read(n.signalSemaphores) == Some(info.signalSemaphores)
  {
    var _ :- Utils.VkCheck("vkQueueSubmit", res);
    Success(QueueSubmit(q.queue, 1, NativeSubmit(info), info.fence))
  }

  /** The `VkSubmitInfo` that `submit` builds. */
  function NativeSubmit(info: SubmitInfo): (n: NativeSubmitInfo)
    ensures n.waitSemaphoreCount == |info.waitSemaphoresAndStages|
    ensures var sems := Read(NativeArray(n.waitSemaphoreCount, n.waitSemaphores));
            var stages := Read(NativeArray(n.waitSemaphoreCount, n.waitDstStageMasks));
            sems.Some? && stages.Some? && Utils.Zip(sems.value, stages.value) == info.waitSemaphoresAndStages
    ensures Read(n.commandBuffers) == Some(info.commandBuffers)
    ensures Read(n.signalSemaphores) == Some(info.signalSemaphores)
  {
    var split := Utils.Unzip(info.waitSemaphoresAndStages);
    Utils.UnzipZip(info.waitSemaphoresAndStages);
    assert split.0[..|split.0|] == split.0 && split.1[..|split.1|] == split.1;
    NativeSubmitInfo(|info.waitSemaphoresAndStages|, Points(split.0), Points(split.1),
                     FromVector(info.commandBuffers), FromVector(info.signalSemaphores))
  }

  /** `present`: split the (swapchain, index) pairs into parallel arrays and
      hand the driver's result back unchecked, so out-of-date and suboptimal
      answers reach the caller. */
  function Present(q: Queue, info: PresentInfo, res: VkResult): (r: (QueueCall, VkResult))
    ensures r.1 == res
    ensures r.0.QueuePresent? && r.0.queue == q.queue
    ensures var n := r.0.presentInfo;
      && n.swapchainCount == |info.swapchainsAndImageIndices|
      && n.results == Null
      && Read(n.waitSemaphores) == Some(info.waitSemaphores)
      && Read(NativeArray(n.swapchainCount, n.swapchains)).Some?
      && Read(NativeArray(n.swapchainCount, n.imageIndices)).Some?
      && Utils.Zip(Read(NativeArray(n.swapchainCount, n.swapchains)).value,
                   Read(NativeArray(n.swapchainCount, n.imageIndices)).value)
         == info.swapchainsAndImageIndices
  {
    var split := Utils.Unzip(info.swapchainsAndImageIndices);
    Utils.UnzipZip(info.swapchainsAndImageIndices);
    assert split.0[..|split.0|] == split.0 && split.1[..|split.1|] == split.1;
    (QueuePresent(q.queue, NativePresentInfo(FromVector(info.waitSemaphores), |info.swapchainsAndImageIndices|,
                                              Points(split.0), Points(split.1), Null)),
     res)
  }

  /** `wait`: wait for the queue to go idle, throwing on failure. */
  function Wait(q: Queue, res: VkResult): (r: Result<QueueCall, Error>)
    ensures r.Success? <==> res == VK_SUCCESS
    ensures r.Success? ==> r.value == QueueWaitIdle(q.queue)
    ensures r.Failure? ==> r.error == CallFailed("vkQueueWaitIdle")
  {
    var _ :- Utils.VkCheck("vkQueueWaitIdle", res);
    Success(QueueWaitIdle(q.queue))
  }

  /** Unlike `submit` and `wait`, `present` never fails: a non-success result
      is returned, where `submit` would have thrown. */
  lemma PresentReturnsWhatSubmitRejects(q: Queue, s: SubmitInfo, p: PresentInfo, res: VkResult)
    requires res != VK_SUCCESS
    ensures Submit(q, s, res).Failure? && Wait(q, res).Failure?
    ensures Present(q, p, res).1 == res
  {}
}

=== FILE: render_pass.dfy ===
/** `RenderPass`: an owned render-pass handle built from attachment
    descriptions, subpasses and dependencies. Each `SubpassDescription` is
    mapped to one native subpass description. */
module RenderPass {
  import opened Wrappers
  import opened Vk
  import Handles
  import Utils

  /** `VkAttachmentReference`. */
  datatype AttachmentRef = AttachmentRef(attachment: nat, layout: nat)

  /** `SubpassDescription`: the depth-stencil reference is a plain member, so
      every subpass has one, used or not. */
  datatype SubpassDescription = SubpassDescription(
    flags: nat, pipelineBindPoint: nat, depthStencil: AttachmentRef,
    input: seq<AttachmentRef>, color: seq<AttachmentRef>, resolve: seq<AttachmentRef>,
    preserve: seq<nat>)

  /** `VkSubpassDescription`. The resolve array has no count of its own: the
      driver reads `colorAttachmentCount` entries from it when it is non-null. */
  datatype NativeSubpass = NativeSubpass(
    flags: nat, pipelineBindPoint: nat,
    input: NativeArray<AttachmentRef>, color: NativeArray<AttachmentRef>,
    resolve: Ptr<AttachmentRef>, depthStencil: Ptr<AttachmentRef>,
    preserve: NativeArray<nat>)

  /** `RenderPassCreateInfo`; attachment descriptions and dependencies are
      opaque records here. */
  datatype CreateInfo<Attachment, Dependency> = CreateInfo(
    attachments: seq<Attachment>, subpasses: seq<SubpassDescription>, dependencies: seq<Dependency>)

  datatype NativeCreateInfo<Attachment, Dependency> = NativeCreateInfo(
    flags: nat, attachments: NativeArray<Attachment>, subpasses: NativeArray<NativeSubpass>,
    dependencies: NativeArray<Dependency>)

  /** The lambda passed to `mapV` for one subpass. */
  function MapSubpass(s: SubpassDescription): (n: NativeSubpass)
    ensures n.flags == s.flags && n.pipelineBindPoint == s.pipelineBindPoint
    ensures Read(n.input) == Some(s.input) && n.input.count == |s.input|
    ensures Read(n.color) == Some(s.color) && n.color.count == |s.color|
    ensures Read(n.preserve) == Some(s.preserve) && n.preserve.count == |s.preserve|
    ensures n.depthStencil == Points([s.depthStencil])
    ensures |s.resolve| == 0 ==> n.resolve == Null
    ensures |s.resolve| == |s.color| ==> Read(NativeArray(n.color.count, n.resolve)) == Some(s.resolve)
  {
    assert s.resolve[..|s.resolve|] == s.resolve;
    NativeSubpass(s.flags, s.pipelineBindPoint, FromVector(s.input), FromVector(s.color),
                  Data(s.resolve), Points([s.depthStencil]), FromVector(s.preserve))
  }

  /** A resolve list shorter than the color list (but not empty) makes the
      driver read past its end; the wrapper does not check it. */
  lemma ShortResolveListIsOverread(s: SubpassDescription)
    requires 0 < |s.resolve| < |s.color|
    ensures Read(NativeArray(MapSubpass(s).color.count, MapSubpass(s).resolve)).None?
  {}

  /** The constructor's create-info: one native subpass per description, in
      order, and every count equal to its list's length. */
  function NativeInfo<A, D>(info: CreateInfo<A, D>): (n: NativeCreateInfo<A, D>)
    ensures n.flags == 0
    ensures Read(n.attachments) == Some(info.attachments) && n.attachments.count == |info.attachments|
    ensures Read(n.dependencies) == Some(info.dependencies) && n.dependencies.count == |info.dependencies|
    ensures n.subpasses.count == |info.subpasses|
    ensures Read(n.subpasses).Some? && |Read(n.subpasses).value| == |info.subpasses|
    ensures forall i :: 0 <= i < |info.subpasses| ==>
      Read(n.subpasses).value[i] == MapSubpass(info.subpasses[i])
  {
    NativeCreateInfo(0, FromVector(info.attachments), FromVector(Utils.MapV(info.subpasses, MapSubpass)),
                     FromVector(info.dependencies))
  }

  /** The depth-stencil pointer of every native subpass is non-null, even when
      the subpass uses no depth attachment. */
  lemma EveryDepthStencilIsNonNull<A, D>(info: CreateInfo<A, D>, i: nat)
    requires i < |info.subpasses|
    ensures Read(NativeInfo(info).subpasses).value[i].depthStencil.Points?
  {}

  /** The constructor: create the render pass with the create-info above,
      throwing unless the driver answers VK_SUCCESS. */
  function Create<A, D>(device: nat, info: CreateInfo<A, D>, res: VkResult, h: Handle)
    : (r: Result<(Handles.Owned, NativeCreateInfo<A, D>), Error>)
    ensures r.Success? <==> res == VK_SUCCESS
    ensures r.Success? ==> r.value.0 == Handles.Owned(Some(device), h)
    ensures r.Success? ==> var n := r.value.1;
      && Read(n.attachments) == Some(info.attachments)
      && Read(n.dependencies) == Some(info.dependencies)
      && n.subpasses.count == |info.subpasses|
      && Read(n.subpasses).Some? && |Read(n.subpasses).value| == |info.subpasses|
  {
    var _ :- Utils.VkCheck("vkCreateRenderPass", res);
    Success((Handles.Owned(Some(device), h), NativeInfo(info)))
  }

  /** Move-assignment destroys the target's pass, takes the source's handle and
      device, and leaves the source empty; destroying the source then does
      nothing, so the moved handle is released only by its new owner. */
  lemma MoveThenDestroyReleasesOnce(dst: Handles.Owned, src: Handles.Owned)
    requires dst.handle == NULL_HANDLE || dst.parent.Some?
    requires src.handle == NULL_HANDLE || src.parent.Some?
    ensures var m := Handles.MoveAssign(Handles.RenderPassKind, dst, src);
      && m.1 == Handles.Unset
      && Handles.Destroy(Handles.RenderPassKind, m.1).1 == []
      && Handles.Released(Handles.Destroy(Handles.RenderPassKind, m.0).1) ==
         (if src.handle == NULL_HANDLE then {} else {src.handle})
  {}
}

=== FILE: sampler.dfy ===
/** `Sampler`: an owned sampler handle. The constructor takes the native
    create-info by value and overwrites its structure type and extension
    chain; `destroy` releases the handle but does not null it. */
module Sampler {
  import opened Wrappers
  import opened Vk
  import Handles
  import Utils

  /** VK_STRUCTURE_TYPE_SAMPLER_CREATE_INFO. */
  const SAMPLER_CREATE_INFO: nat := 31

  /** `VkSamplerCreateInfo`: the header the constructor rewrites, and the
      sampler settings it passes through. */
  datatype CreateInfo<Settings> = CreateInfo(sType: nat, pNext: Ptr<nat>, settings: Settings)

  /** The create-info as the constructor hands it to the driver. */
  function Normalize<S>(info: CreateInfo<S>): (n: CreateInfo<S>)
    ensures n.sType == SAMPLER_CREATE_INFO && n.pNext == Null
    ensures n.settings == info.settings
  {
    info.(sType := SAMPLER_CREATE_INFO, pNext := Null)
  }

  /** Whatever header the caller filled in, the driver sees the same
      create-info; normalising twice changes nothing more. */
  lemma HeaderIsIgnored<S>(a: CreateInfo<S>, b: CreateInfo<S>)
    requires a.settings == b.settings
    ensures Normalize(a) == Normalize(b)
    ensures Normalize(Normalize(a)) == Normalize(a)
  {}

  function Create<S>(device: nat, info: CreateInfo<S>, res: VkResult, h: Handle)
    : (r: Result<(Handles.Owned, CreateInfo<S>), Error>)
    ensures r.Success? <==> res == VK_SUCCESS
    ensures r.Success? ==> r.value.0 == Handles.Owned(Some(device), h) && r.value.1 == Normalize(info)
  {
    var _ :- Utils.VkCheck("vkCreateSampler", res);
    Success((Handles.Owned(Some(device), h), Normalize(info)))
  }

  /** `destroy` keeps the handle: the destructor after an explicit destroy
      would release it again. Only the move-assignment and the destructor call
      `destroy`, and the move-assignment overwrites the handle right after, so
      each handle is still released once. */
  lemma DestroyDoesNotNull(s: Handles.Owned)
    requires s.handle != NULL_HANDLE && s.parent.Some?
    ensures Handles.Destroy(Handles.SamplerKind, s).0.handle == s.handle
    ensures var m := Handles.MoveAssign(Handles.SamplerKind, s, Handles.Unset);
      m.0 == Handles.Unset && Handles.Released(m.2) == {s.handle}
  {}
}

=== FILE: selection.dfy ===
/** The selection rules of the example renderer's set-up code: device scoring,
    queue-family choice, device choice, queue-family deduplication, the
    memory-type search, the surface format / present mode / extent choice, the
    reaction to a present result and the frame ring. */
module Selection {
  import opened Wrappers
  import opened Vk
  import Utils
  import Instance

  // ---------------------------------------------------------------------------
  // Device score.

  /** `VkPhysicalDeviceType` values. */
  const OTHER: nat := 0
  const INTEGRATED_GPU: nat := 1
  const DISCRETE_GPU: nat := 2
  const VIRTUAL_GPU: nat := 3
  const CPU: nat := 4

  /** The `case` labels of the scoring `switch`, in source order; execution
      enters at the device's label and falls through every later one. */
  const CaseOrder: seq<nat> := [DISCRETE_GPU, INTEGRATED_GPU, VIRTUAL_GPU, CPU, OTHER]

  /** What each label adds: 1<<10, 1<<9, 1<<8, 1<<7, 1<<6. */
  const CaseBonus: seq<nat> := [1024, 512, 256, 128, 64]

  /** The sum of the bonuses from label `j` to the end of the switch. */
  function FallFrom(j: nat): nat
    requires j <= 5
    decreases 5 - j
  {
    if j == 5 then 0 else CaseBonus[j] + FallFrom(j + 1)
  }

  /** The label a device type enters at; none for an unknown type. */
  function EntryOf(deviceType: nat): Option<nat> {
    if deviceType == DISCRETE_GPU then Some(0)
    else if deviceType == INTEGRATED_GPU then Some(1)
    else if deviceType == VIRTUAL_GPU then Some(2)
    else if deviceType == CPU then Some(3)
    else if deviceType == OTHER then Some(4)
    else None
  }

  /** The score `getDeviceInfo` computes. */
  function Score(deviceType: nat): (s: nat)
    ensures deviceType == DISCRETE_GPU ==> s == 1984
    ensures deviceType == INTEGRATED_GPU ==> s == 960
    ensures deviceType == VIRTUAL_GPU ==> s == 448
    ensures deviceType == CPU ==> s == 192
    ensures deviceType == OTHER ==> s == 64
    ensures deviceType > CPU ==> s == 0
  {
    match EntryOf(deviceType)
    case None => 0
    case Some(j) => FallFrom(j)
  }

  /** The score ranks device kinds: discrete, integrated, virtual, CPU, other,
      unknown. */
  lemma ScoreRanksKinds(a: nat, b: nat)
    requires a <= CPU && b <= CPU
    requires EntryOf(a).value < EntryOf(b).value
    ensures Score(a) > Score(b)
  {}

  // ---------------------------------------------------------------------------
  // Queue families.

  const VK_QUEUE_GRAPHICS_BIT: bv32 := 1
  const VK_QUEUE_TRANSFER_BIT: bv32 := 4

  /** A queue family as the scan sees it: its flags and whether it can present
      to the surface. */
  datatype QueueFamily = QueueFamily(queueFlags: bv32, presentSupport: bool)

  predicate IsGraphics(f: QueueFamily) { f.queueFlags & VK_QUEUE_GRAPHICS_BIT != 0 }
  predicate IsTransferOnly(f: QueueFamily) { !IsGraphics(f) && f.queueFlags & VK_QUEUE_TRANSFER_BIT != 0 }
  predicate CanPresent(f: QueueFamily) { f.presentSupport }

  /** The reference definition: the last index whose family satisfies `p`. */
  function LastWhere(fams: seq<QueueFamily>, p: QueueFamily -> bool): (r: Option<nat>)
    ensures r.Some? ==> r.value < |fams| && p(fams[r.value])
    ensures r.Some? ==> forall j :: r.value < j < |fams| ==> !p(fams[j])
    ensures r.None? ==> forall j :: 0 <= j < |fams| ==> !p(fams[j])
  {
    if |fams| == 0 then None
    else if p(fams[|fams| - 1]) then Some(|fams| - 1)
    else LastWhere(fams[..|fams| - 1], p)
  }

  /** The three indices the scan has found: graphics, present, transfer. */
  datatype Found = Found(graphics: Option<nat>, present: Option<nat>, transfer: Option<nat>)

  /** The scan over the families, index by index: a graphics family sets the
      graphics index, otherwise a transfer family sets the transfer index, and a
      family that can present sets the present index. */
  function Scan(fams: seq<QueueFamily>): (r: Found)
    ensures r.graphics == LastWhere(fams, IsGraphics)
    ensures r.transfer == LastWhere(fams, IsTransferOnly)
    ensures r.present == LastWhere(fams, CanPresent)
  {
    if |fams| == 0 then Found(None, None, None)
    else
      var i := |fams| - 1;
      var f := fams[i];
      var prev := Scan(fams[..i]);
      var afterKind :=
        if IsGraphics(f) then prev.(graphics := Some(i))
        else if f.queueFlags & VK_QUEUE_TRANSFER_BIT != 0 then prev.(transfer := Some(i))
        else prev;
      if CanPresent(f) then afterKind.(present := Some(i)) else afterKind
  }

  /** `DeviceInfo`. */
  datatype DeviceInfo = DeviceInfo(isSuitable: bool, score: nat, graphicsQueueIndex: nat,
                                   presentQueueIndex: nat, transferQueueIndex: nat)

  /** A physical device as the selection sees it. */
  datatype PhysDev = PhysDev(deviceType: nat, queueFamilies: seq<QueueFamily>)

  /** `getDeviceInfo`: the score, the three indices (the transfer index falls
      back to the graphics one), suitability, and `value_or(0)` for whatever is
      missing. */
  function GetDeviceInfo(d: PhysDev): (info: DeviceInfo)
    ensures info.isSuitable <==>
      LastWhere(d.queueFamilies, IsGraphics).Some? && LastWhere(d.queueFamilies, CanPresent).Some?
    ensures info.score == Score(d.deviceType)
    ensures info.graphicsQueueIndex == LastWhere(d.queueFamilies, IsGraphics).GetOr(0)
    ensures info.presentQueueIndex == LastWhere(d.queueFamilies, CanPresent).GetOr(0)
    ensures info.transferQueueIndex ==
      (if LastWhere(d.queueFamilies, IsTransferOnly).Some? then LastWhere(d.queueFamilies, IsTransferOnly)
       else LastWhere(d.queueFamilies, IsGraphics)).GetOr(0)
    ensures info.isSuitable ==>
      && info.graphicsQueueIndex < |d.queueFamilies| && IsGraphics(d.queueFamilies[info.graphicsQueueIndex])
      && info.presentQueueIndex < |d.queueFamilies| && CanPresent(d.queueFamilies[info.presentQueueIndex])
      && info.transferQueueIndex < |d.queueFamilies|
  {
    var found := Scan(d.queueFamilies);
    var transfer := if found.transfer.None? then found.graphics else found.transfer;
    var suitable := found.graphics.Some? && found.present.Some? && transfer.Some?;
    DeviceInfo(suitable, Score(d.deviceType), found.graphics.GetOr(0), found.present.GetOr(0), transfer.GetOr(0))
  }

  /** The `(isSuitable, score)` tuple `find_max` compares, flattened into one
      number: suitability weighs more than any 32-bit score. */
  function Key(d: PhysDev): int {
    var info := GetDeviceInfo(d);
    (if info.isSuitable then 0x1_0000_0000 else 0) + info.score
  }

  /** The flattening orders devices as `std::tuple`'s `<` does:
      lexicographically, suitability first. */
  lemma KeyIsLexicographic(a: PhysDev, b: PhysDev)
    ensures var x, y := GetDeviceInfo(a), GetDeviceInfo(b);
      Key(a) < Key(b) <==>
        (!x.isSuitable && y.isSuitable) || (x.isSuitable == y.isSuitable && x.score < y.score)
  {
    var x, y := GetDeviceInfo(a), GetDeviceInfo(b);
    assert x.score < 0x1_0000_0000 && y.score < 0x1_0000_0000;
  }

  /** Choose the device: the first one with the greatest (isSuitable, score),
      and fail when even that one is unsuitable. `find_max` dereferences the
      first element, so the list must not be empty. */
  method PickDevice(devices: seq<PhysDev>) returns (r: Result<nat, Error>)
    requires |devices| > 0
    ensures r.Success? <==> exists i :: 0 <= i < |devices| && GetDeviceInfo(devices[i]).isSuitable
    ensures r.Failure? ==> r.error == NoSuitableDevice
    ensures r.Success? ==> r.value < |devices| && GetDeviceInfo(devices[r.value]).isSuitable
    ensures r.Success? ==> forall j :: 0 <= j < |devices| && GetDeviceInfo(devices[j]).isSuitable ==>
      GetDeviceInfo(devices[j]).score <= GetDeviceInfo(devices[r.value]).score
    ensures r.Success? ==> forall j :: 0 <= j < r.value ==>
      !GetDeviceInfo(devices[j]).isSuitable || GetDeviceInfo(devices[j]).score < GetDeviceInfo(devices[r.value]).score
  {
    var best := Utils.FindMax(devices, Key);
    forall j | 0 <= j < |devices| ensures Key(devices[j]) <= Key(devices[best]) ==>
      (GetDeviceInfo(devices[j]).isSuitable ==> GetDeviceInfo(devices[best]).isSuitable) {
      KeyIsLexicographic(devices[best], devices[j]);
    }
    if !GetDeviceInfo(devices[best]).isSuitable {
      return Failure(NoSuitableDevice);
    }
    forall j | 0 <= j < |devices|
      ensures GetDeviceInfo(devices[j]).isSuitable ==> GetDeviceInfo(devices[j]).score <= GetDeviceInfo(devices[best]).score
      ensures j < best ==> !GetDeviceInfo(devices[j]).isSuitable || GetDeviceInfo(devices[j]).score < GetDeviceInfo(devices[best]).score
    {
      KeyIsLexicographic(devices[best], devices[j]);
      KeyIsLexicographic(devices[j], devices[best]);
    }
    return Success(best);
  }

  /** The device list handed to `find_max` is the enumeration's, unchecked,
      and a successful enumeration may find no device at all: its empty list
      does not meet `PickDevice`'s requirement, since `find_max` would read
      the key of the first element of an empty range. */
  lemma NoDevicesReachFindMax(loader: nat)
    ensures var r := Instance.ListPhysicalDevices(loader, VK_SUCCESS, VK_SUCCESS, []);
      r.Success? && !(|r.value| > 0)
  {}

  /** The evidently intended choice: with no device at all, report that no
      device is suitable, and otherwise choose as `PickDevice` does. */
  method PickDeviceChecked(devices: seq<PhysDev>) returns (r: Result<nat, Error>)
    ensures r.Success? <==> exists i :: 0 <= i < |devices| && GetDeviceInfo(devices[i]).isSuitable
    ensures r.Failure? ==> r.error == NoSuitableDevice
    ensures |devices| == 0 ==> r == Failure(NoSuitableDevice)
    ensures r.Success? ==> r.value < |devices| && GetDeviceInfo(devices[r.value]).isSuitable
    ensures r.Success? ==> forall j :: 0 <= j < |devices| && GetDeviceInfo(devices[j]).isSuitable ==>
      GetDeviceInfo(devices[j]).score <= GetDeviceInfo(devices[r.value]).score
    ensures r.Success? ==> forall j :: 0 <= j < r.value ==>
      !GetDeviceInfo(devices[j]).isSuitable || GetDeviceInfo(devices[j]).score < GetDeviceInfo(devices[r.value]).score
  {
    if |devices| == 0 {
      return Failure(NoSuitableDevice);
    }
    r := PickDevice(devices);
  }

  /** The queue families to create queues on: the distinct indices among the
      three, ascending, as a `std::set` yields them. */
  function QueueFamilyIndices(info: DeviceInfo): (r: seq<nat>)
    ensures Utils.StrictlyIncreasing(r) && 1 <= |r| <= 3
    ensures forall x :: x in r <==> x == info.graphicsQueueIndex || x == info.presentQueueIndex || x == info.transferQueueIndex
  {
    Utils.SetFromList([info.graphicsQueueIndex, info.presentQueueIndex, info.transferQueueIndex])
  }

  const VK_SHARING_MODE_EXCLUSIVE: nat := 0
  const VK_SHARING_MODE_CONCURRENT: nat := 1

  /** The swapchain's sharing mode: concurrent when there is more than one
      distinct family. */
  function SharingMode(indices: seq<nat>): nat {
    if |indices| > 1 then VK_SHARING_MODE_CONCURRENT else VK_SHARING_MODE_EXCLUSIVE
  }

  /** Sharing is concurrent exactly when the three indices are not all the
      same family. */
  lemma ConcurrentIffFamiliesDiffer(info: DeviceInfo)
    ensures SharingMode(QueueFamilyIndices(info)) == VK_SHARING_MODE_CONCURRENT <==>
      !(info.graphicsQueueIndex == info.presentQueueIndex == info.transferQueueIndex)
  {
    var r := QueueFamilyIndices(info);
    var g, p, t := info.graphicsQueueIndex, info.presentQueueIndex, info.transferQueueIndex;
    assert |r| > 1 ==> r[0] < r[1] && r[0] in r && r[1] in r;
    assert g in r && p in r && t in r;
    assert |r| == 1 ==> forall x :: x in r ==> x == r[0];
  }

  // ---------------------------------------------------------------------------
  // Memory types.

  /** The type-mask test of line 432 as it parses: `==` binds tighter than `&`,
      so the test is `mask & ((1 << index) == 0)`, a bit-and with 0. */
  predicate SkippedAsWritten(mask: bv32, index: nat)
    requires index < 32
  {
    mask & (if (1 as bv32) << index == 0 then 1 else 0) != 0
  }

  /** The test as intended: skip a type whose bit is clear in the mask. */
  predicate Skipped(mask: bv32, index: nat)
    requires index < 32
  {
    mask & ((1 as bv32) << index) == 0
  }

  /** For every valid index (there are at most 32 memory types) the
      as-written test never skips. */
  lemma AsWrittenNeverSkips(mask: bv32, index: nat)
    requires index < 32
    ensures !SkippedAsWritten(mask, index)
  {
    assert (1 as bv32) << index != 0;
  }

  /** A memory type carries every requested property flag. */
  predicate HasFlags(typeFlags: bv32, wanted: bv32) {
    typeFlags & wanted == wanted
  }

  /** `findMemoryType` as written, from index `i` on: the first type with all
      requested flags, whatever the mask says. */
  function FindMemoryTypeAsWritten(types: seq<bv32>, mask: bv32, wanted: bv32, i: nat): (r: Result<nat, Error>)
    requires |types| <= 32 && i <= |types|
    decreases |types| - i
    ensures r.Success? ==> i <= r.value < |types| && HasFlags(types[r.value], wanted)
    ensures r.Success? ==> forall j :: i <= j < r.value ==> !HasFlags(types[j], wanted)
    ensures r.Failure? ==> r.error == NoSuitableMemoryType && forall j :: i <= j < |types| ==> !HasFlags(types[j], wanted)
  {
    if i == |types| then Failure(NoSuitableMemoryType)
    else if !SkippedAsWritten(mask, i) && HasFlags(types[i], wanted) then Success(i)
    else
      AsWrittenNeverSkips(mask, i);
      FindMemoryTypeAsWritten(types, mask, wanted, i + 1)
  }

  /** `findMemoryType` with the mask test parenthesised as intended: the first
      type allowed by the mask that has all requested flags. */
  function FindMemoryType(types: seq<bv32>, mask: bv32, wanted: bv32, i: nat): (r: Result<nat, Error>)
    requires |types| <= 32 && i <= |types|
    decreases |types| - i
    ensures r.Success? ==> i <= r.value < |types| && !Skipped(mask, r.value) && HasFlags(types[r.value], wanted)
    ensures r.Success? ==> forall j :: i <= j < r.value ==> Skipped(mask, j) || !HasFlags(types[j], wanted)
    ensures r.Failure? ==> (r.error == NoSuitableMemoryType &&
      forall j :: i <= j < |types| ==> Skipped(mask, j) || !HasFlags(types[j], wanted))
  {
    if i == |types| then Failure(NoSuitableMemoryType)
    else if Skipped(mask, i) then FindMemoryType(types, mask, wanted, i + 1)
    else if !HasFlags(types[i], wanted) then FindMemoryType(types, mask, wanted, i + 1)
    else Success(i)
  }

  /** The discrepancy: memory type 0 is host-visible (flag 2) but excluded by
      the mask 0b10; as written it is chosen anyway, while the intended search
      picks type 1. */
  lemma MaskIgnoredExample()
    ensures FindMemoryTypeAsWritten([2, 2], 2, 2, 0) == Success(0)
    ensures Skipped(2, 0)
    ensures FindMemoryType([2, 2], 2, 2, 0) == Success(1)
  {
    AsWrittenNeverSkips(2, 0);
    assert (1 as bv32) << 1 == 2;
    assert (1 as bv32) << 0 == 1;
  }

  // ---------------------------------------------------------------------------
  // Swapchain settings.

  const VK_FORMAT_B8G8R8A8_SRGB: nat := 50
  const VK_COLOR_SPACE_SRGB_NONLINEAR_KHR: nat := 0
  const VK_PRESENT_MODE_MAILBOX_KHR: nat := 1
  const VK_PRESENT_MODE_FIFO_KHR: nat := 2

  datatype SurfaceFormat = SurfaceFormat(format: nat, colorSpace: nat)

  predicate Preferred(f: SurfaceFormat) {
    f.format == VK_FORMAT_B8G8R8A8_SRGB && f.colorSpace == VK_COLOR_SPACE_SRGB_NONLINEAR_KHR
  }

  /** The loop with `break`: the first preferred format, if any, from index `i`. */
  function FirstPreferred(formats: seq<SurfaceFormat>, i: nat): (r: Option<nat>)
    requires i <= |formats|
    decreases |formats| - i
    ensures r.Some? ==> i <= r.value < |formats| && Preferred(formats[r.value])
    ensures r.Some? ==> forall j :: i <= j < r.value ==> !Preferred(formats[j])
    ensures r.None? ==> forall j :: i <= j < |formats| ==> !Preferred(formats[j])
  {
    if i == |formats| then None
    else if Preferred(formats[i]) then Some(i)
    else FirstPreferred(formats, i + 1)
  }

  /** The swapchain's surface format and present mode. Either list empty means
      the swapchain cannot be built. Otherwise the format is the first
      B8G8R8A8_SRGB / SRGB_NONLINEAR entry, or the first entry when there is
      none; the present mode is MAILBOX when offered, FIFO otherwise. */
  function ChooseSurface(formats: seq<SurfaceFormat>, presentModes: seq<nat>): (r: Result<(SurfaceFormat, nat), Error>)
    ensures r.Failure? <==> |formats| == 0 || |presentModes| == 0
    ensures r.Failure? ==> r.error == SwapchainUnavailable
    ensures r.Success? ==> r.value.0 in formats
    ensures r.Success? ==> (exists i :: 0 <= i < |formats| && Preferred(formats[i])) ==> Preferred(r.value.0)
    ensures r.Success? ==> (forall i :: 0 <= i < |formats| ==> !Preferred(formats[i])) ==> r.value.0 == formats[0]
    ensures r.Success? ==> (r.value.1 == VK_PRESENT_MODE_MAILBOX_KHR <==> VK_PRESENT_MODE_MAILBOX_KHR in presentModes)
    ensures r.Success? ==> (r.value.1 == VK_PRESENT_MODE_FIFO_KHR <==> VK_PRESENT_MODE_MAILBOX_KHR !in presentModes)
  {
    if |formats| == 0 || |presentModes| == 0 then Failure(SwapchainUnavailable)
    else
      var fi := FirstPreferred(formats, 0);
      var format := if fi.Some? then formats[fi.value] else formats[0];
      var mode := if VK_PRESENT_MODE_MAILBOX_KHR in presentModes then VK_PRESENT_MODE_MAILBOX_KHR else VK_PRESENT_MODE_FIFO_KHR;
      Success((format, mode))
  }

  datatype Extent = Extent(width: nat, height: nat)

  /** `std::clamp(v, lo, hi)`; its behaviour is undefined unless lo <= hi. */
  function Clamp(v: nat, lo: nat, hi: nat): (r: nat)
    requires lo <= hi
    ensures lo <= r <= hi
    ensures lo <= v <= hi ==> r == v
    ensures v < lo ==> r == lo
    ensures v > hi ==> r == hi
  {
    if v < lo then lo else if hi < v then hi else v
  }

  /** The surface capabilities the extent choice reads. */
  datatype Capabilities = Capabilities(currentExtent: Extent, minImageExtent: Extent, maxImageExtent: Extent)

  /** Whether the capabilities leave the extent to the application. */
  predicate ExtentIsFree(caps: Capabilities) {
    caps.currentExtent.width == UINT32_MAX
  }

  /** The swapchain extent: the surface's current extent, unless its width is
      UINT32_MAX; then the framebuffer size (waited for until neither side is
      0) clamped into the allowed range, per side. */
  function ChooseExtent(caps: Capabilities, framebuffer: Extent): (r: Extent)
    requires ExtentIsFree(caps) ==>
      caps.minImageExtent.width <= caps.maxImageExtent.width &&
      caps.minImageExtent.height <= caps.maxImageExtent.height &&
      framebuffer.width > 0 && framebuffer.height > 0
    ensures !ExtentIsFree(caps) ==> r == caps.currentExtent
    ensures ExtentIsFree(caps) ==>
      caps.minImageExtent.width <= r.width <= caps.maxImageExtent.width &&
      caps.minImageExtent.height <= r.height <= caps.maxImageExtent.height
    ensures ExtentIsFree(caps) && caps.minImageExtent.width <= framebuffer.width <= caps.maxImageExtent.width ==>
      r.width == framebuffer.width
    ensures ExtentIsFree(caps) && caps.minImageExtent.height <= framebuffer.height <= caps.maxImageExtent.height ==>
      r.height == framebuffer.height
  {
    if !ExtentIsFree(caps) then caps.currentExtent
    else Extent(Clamp(framebuffer.width, caps.minImageExtent.width, caps.maxImageExtent.width),
                Clamp(framebuffer.height, caps.minImageExtent.height, caps.maxImageExtent.height))
  }

  // ---------------------------------------------------------------------------
  // The frame loop.

  const VK_SUBOPTIMAL_KHR: VkResult := 1000001003
  const VK_ERROR_OUT_OF_DATE_KHR: VkResult := -1000001004

  datatype AfterPresent = Recreate | Continue | PresentFailed

  /** What the loop does with the present result: recreate the swapchain when
      it is out of date, suboptimal or the window was resized; otherwise throw
      on anything but success. */
  function ReactToPresent(res: VkResult, resized: bool): (a: AfterPresent)
    ensures a == Recreate <==> res == VK_ERROR_OUT_OF_DATE_KHR || res == VK_SUBOPTIMAL_KHR || resized
    ensures a == PresentFailed <==> !resized && res != VK_SUCCESS && res != VK_ERROR_OUT_OF_DATE_KHR && res != VK_SUBOPTIMAL_KHR
  {
    if res == VK_ERROR_OUT_OF_DATE_KHR || res == VK_SUBOPTIMAL_KHR || resized then Recreate
    else if res != VK_SUCCESS then PresentFailed
    else Continue
  }

  /** The next frame slot of the ring. */
  function NextFrame(i: nat, n: nat): (r: nat)
    requires n > 0
    ensures r < n
    ensures i + 1 < n ==> r == i + 1
    ensures i + 1 == n ==> r == 0
  {
    (i + 1) % n
  }

  /** The slot after k frames. */
  function AfterFrames(k: nat, n: nat): nat
    requires n > 0
  {
    if k == 0 then 0 else NextFrame(AfterFrames(k - 1, n), n)
  }

  /** Starting from slot 0, the k-th frame uses slot k mod n: the ring visits
      the slots in turn. */
  lemma {:induction false} FrameRingCycles(k: nat, n: nat)
    requires n > 0
    ensures AfterFrames(k, n) == k % n
  {
    if k > 0 {
      FrameRingCycles(k - 1, n);
      Utils.ModNext(k - 1, n);
    }
  }
}

=== FILE: shader_module.dfy ===
/** `ShaderModule`: an owned shader-module handle created from SPIR-V code
    held in a byte string. */
module ShaderModule {
  import opened Wrappers
  import opened Vk
  import Handles
  import Utils

  /** `VkShaderModuleCreateInfo`: the code size in bytes and the code. */
  datatype NativeCreateInfo = NativeCreateInfo(codeSize: nat, code: Ptr<char>)

  /** The constructor: `codeSize` is the string's length in bytes, and the
      driver reads exactly the string's bytes. */
  function Create(device: nat, code: string, res: VkResult, h: Handle)
    : (r: Result<(Handles.Owned, NativeCreateInfo), Error>)
    ensures r.Success? <==> res == VK_SUCCESS
    ensures r.Success? ==> r.value.0 == Handles.Owned(Some(device), h)
    ensures r.Success? ==> (r.value.1.codeSize == |code| &&
      Read(NativeArray(r.value.1.codeSize, r.value.1.code)) == Some(code))
  {
    var _ :- Utils.VkCheck("vkCreateShaderModule", res);
    assert code[..|code|] == code;
    Success((Handles.Owned(Some(device), h), NativeCreateInfo(|code|, Points(code))))
  }

  lemma MoveThenDestroyReleasesOnce(dst: Handles.Owned, src: Handles.Owned)
    requires dst.handle == NULL_HANDLE || dst.parent.Some?
    requires src.handle == NULL_HANDLE || src.parent.Some?
    ensures var m := Handles.MoveAssign(Handles.ShaderModuleKind, dst, src);
      && m.1 == Handles.Unset
      && Handles.Destroy(Handles.ShaderModuleKind, m.1).1 == []
      && Handles.Released(Handles.Destroy(Handles.ShaderModuleKind, m.0).1) ==
         (if src.handle == NULL_HANDLE then {} else {src.handle})
  {}
}

=== FILE: stb_image.dfy ===
/** `StbImage` (the `vkx` loader): decoded pixels owned by the wrapper and
    freed exactly once. The stored `mode` is the mode the caller requested,
    and `nbytes()` is `mode * width * height`. */
module StbImage {
  import opened Wrappers

  /** `STBI_default`: keep the file's own channel count. */
  const STBI_DEFAULT: int := 0
  const STBI_RGB_ALPHA: int := 4

  /** What the decoder finds in a readable file. */
  datatype Decoded = Decoded(width: nat, height: nat, channels: nat)

  /** A decoded pixel buffer: which allocation, and how many bytes it holds. */
  datatype Pixels = Pixels(id: nat, len: nat)

  /** The loader's answer to `stbi_load(file, &w, &h, &n, req)`: the size, the
      file's true channel count, and a buffer with `req` channels per pixel
      (or the file's own when `req` is 0); no buffer for an unreadable file
      or a requested channel count outside 0..4. The buffer gets the
      allocation number `id`. */
  datatype LoadOut = LoadOut(width: int, height: int, trueChannels: int, data: Option<Pixels>)

  function StbiLoad(file: Option<Decoded>, req: int, id: nat): (o: LoadOut)
    ensures o.data.Some? <==> file.Some? && 0 <= req <= 4
    ensures o.data.Some? ==> (
      && o.width == file.value.width && o.height == file.value.height
      && o.trueChannels == file.value.channels && o.data.value.id == id
      && o.data.value.len == (if req == 0 then file.value.channels else req) * file.value.width * file.value.height)
  {
    match file
    case None => LoadOut(0, 0, 0, None)
    case Some(d) =>
      if 0 <= req <= 4 then
        LoadOut(d.width, d.height, d.channels,
                Some(Pixels(id, (if req == 0 then d.channels else req) * d.width * d.height)))
      else LoadOut(d.width, d.height, d.channels, None)
  }

  /** The wrapper's fields. */
  datatype Image = Image(width: int, height: int, data: Option<Pixels>, mode: int)

  /** The constructor as written: the requested mode is stored, the file's
      true channel count is dropped. */
  function Load(file: Option<Decoded>, mode: int, id: nat): (img: Image)
    ensures img.mode == mode
    ensures img.data == StbiLoad(file, mode, id).data
    ensures img.data.Some? ==> img.width == file.value.width && img.height == file.value.height
  {
    var o := StbiLoad(file, mode, id);
    Image(o.width, o.height, o.data, mode)
  }

  /** `nbytes()`: the stored mode times the size. */
  function NBytes(img: Image): int {
    img.mode * img.width * img.height
  }

  /** With an explicit channel count the reported size is exactly the size of
      the decoded buffer; this is the case of the texture loader, which asks
      for RGBA. */
  lemma ExplicitModeReportsBufferSize(file: Decoded, mode: int, id: nat)
    requires 1 <= mode <= 4
    ensures var img := Load(Some(file), mode, id);
      img.data.Some? && NBytes(img) == img.data.value.len
  {}

  /** With the default mode the reported size is 0 although the buffer holds
      the file's channels: a 2x2 RGB file gives a 12-byte buffer and
      `nbytes() == 0`. */
  lemma DefaultModeReportsZeroBytes()
    ensures var img := Load(Some(Decoded(2, 2, 3)), STBI_DEFAULT, 0);
      img.data == Some(Pixels(0, 12)) && NBytes(img) == 0
  {}

  /** The evidently intended constructor: remember the channel count the
      buffer actually has (the requested one, or the file's own for the
      default mode). */
  function LoadCorrected(file: Option<Decoded>, mode: int, id: nat): (img: Image)
    ensures img.data == StbiLoad(file, mode, id).data
    ensures mode != STBI_DEFAULT ==> img == Load(file, mode, id)
  {
    var o := StbiLoad(file, mode, id);
    Image(o.width, o.height, o.data, if mode == STBI_DEFAULT then o.trueChannels else mode)
  }

  /** For every readable file and every accepted mode, the corrected image
      reports exactly the bytes of its buffer. */
  lemma CorrectedReportsBufferSize(file: Decoded, mode: int, id: nat)
    requires 0 <= mode <= 4
    ensures var img := LoadCorrected(Some(file), mode, id);
      img.data.Some? && NBytes(img) == img.data.value.len
  {}

  /** `destroy()`: free a non-null buffer, then null the pointer. */
  function Destroy(img: Image): (r: (Image, seq<nat>))
    ensures r.0.data.None?
    ensures r.0.width == img.width && r.0.height == img.height && r.0.mode == img.mode
    ensures r.1 == (if img.data.Some? then [img.data.value.id] else [])
  {
    match img.data
    case None => (img, [])
    case Some(p) => (img.(data := None), [p.id])
  }

  /** `operator=(StbImage &&)`: free this image's buffer, copy size and mode,
      take the source's buffer and null the source's pointer. Returns the
      target, the source and the frees. */
  function MoveAssign(dst: Image, src: Image): (r: (Image, Image, seq<nat>))
    ensures r.0 == src
    ensures r.1 == src.(data := None)
    ensures r.2 == Destroy(dst).1
  {
    var (d, freed) := Destroy(dst);
    (Image(src.width, src.height, src.data, src.mode), src.(data := None), freed)
  }

  /** The move constructor as written: `*this = std::move(other)` on an
      object whose fields were never initialised, so the move-assignment's
      `destroy()` sees whatever `data` holds. Returns the new image, the
      source and the frees. */
  function MoveConstructAsWritten(indeterminate: Image, src: Image): (r: (Image, Image, seq<nat>))
    ensures r.0 == src && r.1 == src.(data := None)
    ensures r.2 == (if indeterminate.data.Some? then [indeterminate.data.value.id] else [])
  {
    MoveAssign(indeterminate, src)
  }

  /** An indeterminate non-null `data` is freed although the new object never
      owned it. */
  lemma MoveConstructFreesGarbage(src: Image, k: nat)
    ensures MoveConstructAsWritten(Image(0, 0, Some(Pixels(k, 0)), 0), src).2 == [k]
  {}

  /** The evidently intended move constructor: start from a null buffer, then
      move-assign, so nothing is freed and the source's buffer changes hands;
      it agrees with the as-written one whenever the indeterminate buffer
      happens to be null. Returns the new image, the source and the frees. */
  function MoveConstruct(src: Image): (r: (Image, Image, seq<nat>))
    ensures r.0 == src && r.1 == src.(data := None) && r.2 == []
    ensures forall g: Image :: g.data.None? ==> MoveConstructAsWritten(g, src) == r
  {
    MoveAssign(Image(0, 0, None, 0), src)
  }

  /** Ownership: after a move, destroying both the target and the source (as
      their destructors do) frees the target's old buffer and the moved buffer,
      each once, and nothing else. */
  lemma MoveThenDestroyFreesEachOnce(dst: Image, src: Image)
    ensures var (t, s, freed) := MoveAssign(dst, src);
      freed + Destroy(t).1 + Destroy(s).1 ==
        (if dst.data.Some? then [dst.data.value.id] else []) + (if src.data.Some? then [src.data.value.id] else [])
  {}

  /** A second `destroy()` frees nothing. */
  lemma DestroyTwiceFreesOnce(img: Image)
    ensures Destroy(Destroy(img).0).1 == []
    ensures Destroy(img).1 + Destroy(Destroy(img).0).1 == Destroy(img).1
  {}
}

=== FILE: stuff.dfy ===
/** The `StbImage` of the stand-alone tool: the same pixel ownership as the
    `vkx` loader (its move-assignment and `destroy` are the ones in module
    `StbImage`), but the mode is an optional `ImageMode` and the stored mode
    is the file's true channel count. */
module Stuff {
  import opened Wrappers
  import StbImage

  /** `ImageMode`: L = 1, RGB = 3, RGBA = 4. */
  datatype ImageMode = L | RGB | RGBA

  function Channels(m: ImageMode): (n: int)
    ensures n == 1 || n == 3 || n == 4
  {
    match m
    case L => 1
    case RGB => 3
    case RGBA => 4
  }

  /** The channel count passed to the decoder: the mode's value, or 0 (keep
      the file's own) when no mode is given. */
  function Requested(mode: Option<ImageMode>): (n: int)
    ensures n == 0 <==> mode.None?
    ensures mode.Some? ==> n == Channels(mode.value)
  {
    match mode
    case None => 0
    case Some(m) => Channels(m)
  }

  /** `ImageMode` is faithful: distinct modes have distinct values. */
  lemma ChannelsInjective(a: ImageMode, b: ImageMode)
    ensures Channels(a) == Channels(b) <==> a == b
  {}

  /** The constructor as written: the stored mode is the loader's true channel
      count, whatever was requested. */
  function Load(file: Option<StbImage.Decoded>, mode: Option<ImageMode>, id: nat): (img: StbImage.Image)
    ensures img.data == StbImage.StbiLoad(file, Requested(mode), id).data
    ensures img.data.Some? <==> file.Some?
    ensures file.Some? ==> (
      img.mode == file.value.channels && img.width == file.value.width && img.height == file.value.height)
  {
    var o := StbImage.StbiLoad(file, Requested(mode), id);
    StbImage.Image(o.width, o.height, o.data, o.trueChannels)
  }

  /** Without a requested mode, or when the request matches the file, the
      reported size is the buffer's size. */
  lemma MatchingModeReportsBufferSize(file: StbImage.Decoded, mode: Option<ImageMode>, id: nat)
    requires mode.None? || Channels(mode.value) == file.channels
    ensures var img := Load(Some(file), mode, id);
      img.data.Some? && StbImage.NBytes(img) == img.data.value.len
  {}

  /** Asking for RGBA from a 2x2 RGB file yields a 16-byte buffer, but the
      stored mode is 3, so `nbytes()` reports 12. */
  lemma ConvertedModeMisreportsSize()
    ensures var img := Load(Some(StbImage.Decoded(2, 2, 3)), Some(RGBA), 0);
      img.data == Some(StbImage.Pixels(0, 16)) && StbImage.NBytes(img) == 12
  {}

  /** The evidently intended constructor: store the requested mode when there
      is one, and the true channel count otherwise. */
  function LoadCorrected(file: Option<StbImage.Decoded>, mode: Option<ImageMode>, id: nat): (img: StbImage.Image)
    ensures img.data == Load(file, mode, id).data
    ensures mode.Some? ==> img.mode == Channels(mode.value)
    ensures mode.None? ==> img == Load(file, mode, id)
  {
    var o := StbImage.StbiLoad(file, Requested(mode), id);
    StbImage.Image(o.width, o.height, o.data, if mode.Some? then Channels(mode.value) else o.trueChannels)
  }

  /** For every readable file and every mode, the corrected image reports
      exactly the bytes of its buffer. */
  lemma CorrectedReportsBufferSize(file: StbImage.Decoded, mode: Option<ImageMode>, id: nat)
    ensures var img := LoadCorrected(Some(file), mode, id);
      img.data.Some? && StbImage.NBytes(img) == img.data.value.len
  {}
}

=== FILE: utils.dfy ===
/** The generic helpers of the utility header: `mapV`, `find_max`, `Callback`,
    `VK_CHECK`, plus the pair-splitting loops and the `std::set` construction
    that several wrappers repeat inline. */
module Utils {
  import opened Wrappers
  import opened Vk

  /** `mapV(v, f)`: push `f(x)` for every `x` of `v`, in order. */
  function MapV<T, R>(xs: seq<T>, f: T -> R): (rs: seq<R>)
    ensures |rs| == |xs|
    ensures forall i :: 0 <= i < |xs| ==> rs[i] == f(xs[i])
  {
    if |xs| == 0 then [] else MapV(xs[..|xs| - 1], f) + [f(xs[|xs| - 1])]
  }

  /** `find_max(begin, end, key)`: the first element with the greatest key.
      The first key is read before the loop, so the range must not be empty;
      the strict `<` keeps the earlier element on ties. */
  method FindMax<T>(xs: seq<T>, key: T -> int) returns (best: nat)
    requires |xs| > 0
    ensures best < |xs|
    ensures forall j :: 0 <= j < |xs| ==> key(xs[j]) <= key(xs[best])
    ensures forall j :: 0 <= j < best ==> key(xs[j]) < key(xs[best])
  {
    best := 0;
    var bestScore := key(xs[0]);
    var cur := 0;
    while cur < |xs|
      invariant cur <= |xs|
      invariant best < |xs| && (best < cur || best == 0)
      invariant bestScore == key(xs[best])
      invariant forall j :: 0 <= j < cur ==> key(xs[j]) <= bestScore
      invariant forall j :: 0 <= j < best ==> key(xs[j]) < bestScore
    {
      var curScore := key(xs[cur]);
      if bestScore < curScore {
        best := cur;
        bestScore := curScore;
      }
      cur := cur + 1;
    }
  }

  /** `Callback<R(*)(A)>`: empty, or holding a function. */
  datatype Callback<!A(!new), R(!new)> = Empty | Bound(f: A -> R) {

    /** `operator()`: forward to the held function, or, when empty, return the
        value-initialised result `R()` (passed in as `valueInit`). */
    function Call(a: A, valueInit: R): R {
      match this
      case Empty => valueInit
      case Bound(g) => g(a)
    }

    /** `operator=(func)`: the callback now calls `func`, whatever it held. */
    function Assign(func: A -> R): (cb: Callback<A, R>)
      ensures forall a, z :: cb.Call(a, z) == func(a)
    {
      Bound(func)
    }
  }

  /** An empty callback does nothing but return the value-initialised result. */
  lemma EmptyCallbackReturnsValueInit<A(!new), R(!new)>(a: A, z: R)
    ensures Callback<A, R>.Empty.Call(a, z) == z
  {}

  /** `VK_CHECK(expr)`: throws exactly when the result is not VK_SUCCESS. */
  function VkCheck(call: string, res: VkResult): (r: Result<(), Error>)
    ensures r.Success? <==> res == VK_SUCCESS
    ensures r.Failure? ==> r.error == CallFailed(call)
  {
    if res != VK_SUCCESS then Failure(CallFailed(call)) else Success(())
  }

  /** The loop `for (auto [a, b] : pairs) { as.push_back(a); bs.push_back(b); }`
      that splits pairs into two parallel arrays. */
  function Unzip<A, B>(ps: seq<(A, B)>): (r: (seq<A>, seq<B>))
    ensures |r.0| == |ps| && |r.1| == |ps|
    ensures forall i :: 0 <= i < |ps| ==> r.0[i] == ps[i].0 && r.1[i] == ps[i].1
  {
    if |ps| == 0 then ([], [])
    else
      var u := Unzip(ps[..|ps| - 1]);
      (u.0 + [ps[|ps| - 1].0], u.1 + [ps[|ps| - 1].1])
  }

  /** Pairing the two arrays back up position by position. */
  function Zip<A, B>(as_: seq<A>, bs: seq<B>): seq<(A, B)>
    requires |as_| == |bs|
  {
    seq(|as_|, i requires 0 <= i < |as_| => (as_[i], bs[i]))
  }

  /** Splitting loses nothing: zipping the parallel arrays gives the pairs back. */
  lemma UnzipZip<A, B>(ps: seq<(A, B)>)
    ensures var u := Unzip(ps); Zip(u.0, u.1) == ps
  {
    var u := Unzip(ps);
    var z := Zip(u.0, u.1);
    assert |z| == |ps|;
    forall i | 0 <= i < |ps|
      ensures z[i] == ps[i]
    {
      assert z[i] == (u.0[i], u.1[i]);
    }
  }

  /** The iteration order of a `std::set<uint32_t>`: strictly ascending. */
  ghost predicate StrictlyIncreasing(s: seq<nat>) {
    forall i, j :: 0 <= i < j < |s| ==> s[i] < s[j]
  }

  /** A key below every element of an ascending list can go in front. */
  lemma ConsIncreasing(x: nat, s: seq<nat>)
    requires StrictlyIncreasing(s) && forall y :: y in s ==> x < y
    ensures StrictlyIncreasing([x] + s)
  {
    var r := [x] + s;
    forall i, j | 0 <= i < j < |r| ensures r[i] < r[j] {
      assert r[j] == s[j - 1];
      if i > 0 { assert r[i] == s[i - 1]; } else { assert s[j - 1] in s; }
    }
  }

  /** Inserting one key into the ascending, duplicate-free contents of a set. */
  function SetInsert(s: seq<nat>, x: nat): (r: seq<nat>)
    requires StrictlyIncreasing(s)
    ensures StrictlyIncreasing(r)
    ensures forall y :: y in r <==> y in s || y == x
    ensures x in s ==> r == s
    ensures x !in s ==> |r| == |s| + 1
  {
    if |s| == 0 then [x]
    else if x < s[0] then
      assert forall y :: y in s ==> x < y;
      ConsIncreasing(x, s);
      [x] + s
    else if x == s[0] then s
    else
      var tail := s[1..];
      assert StrictlyIncreasing(tail);
      var rest := SetInsert(tail, x);
      assert forall y :: y in rest ==> s[0] < y;
      assert x in s <==> x in tail;
      ConsIncreasing(s[0], rest);
      assert s == [s[0]] + tail;
      [s[0]] + rest
  }

  /** `std::set<uint32_t>{xs...}` read back in iteration order: the distinct
      values of `xs`, ascending. */
  function SetFromList(xs: seq<nat>): (r: seq<nat>)
    ensures StrictlyIncreasing(r)
    ensures forall y :: y in r <==> y in xs
    ensures |r| <= |xs|
  {
    if |xs| == 0 then []
    else SetInsert(SetFromList(xs[..|xs| - 1]), xs[|xs| - 1])
  }

  /** The distinct values of `xs`: what a `std::set` built from them holds. */
  function Distinct(xs: seq<nat>): set<nat> {
    set x | x in xs
  }

  /** An ascending, duplicate-free list has exactly as many entries as there
      are distinct values in it. */
  lemma {:induction false} StrictlyIncreasingCard(r: seq<nat>)
    requires StrictlyIncreasing(r)
    ensures |Distinct(r)| == |r|
  {
    if |r| > 0 {
      var tail := r[1..];
      assert StrictlyIncreasing(tail);
      StrictlyIncreasingCard(tail);
      assert r[0] !in tail;
      assert Distinct(r) == {r[0]} + Distinct(tail);
    }
  }

  /** The size of the set built from `xs` is the length of `SetFromList(xs)`. */
  lemma SetFromListCard(xs: seq<nat>)
    ensures |SetFromList(xs)| == |Distinct(xs)|
  {
    var r := SetFromList(xs);
    StrictlyIncreasingCard(r);
    assert Distinct(r) == Distinct(xs);
  }

  /** A positive multiple of `n` is at least `n`. */
  lemma MulAtLeast(x: int, n: int)
    requires x >= 1 && n > 0
    ensures x * n >= n
  {
    assert x * n == (x - 1) * n + n;
    assert (x - 1) * n >= 0;
  }

  /** Counting on by one: the remainder steps up by one, or wraps to 0 after
      n - 1. */
  lemma ModNext(a: nat, n: nat)
    requires n > 0
    ensures a % n + 1 < n ==> (a + 1) % n == a % n + 1
    ensures a % n + 1 == n ==> (a + 1) % n == 0
  {
    var q, r := a / n, a % n;
    if r + 1 < n {
      ModUnique(a + 1, q, r + 1, n);
    } else {
      ModUnique(a + 1, q + 1, 0, n);
    }
  }

  /** Division with remainder has one answer. */
  lemma ModUnique(a: int, q: int, r: int, n: int)
    requires n > 0 && 0 <= r < n && a == q * n + r
    ensures a % n == r
  {
    var q0, r0 := a / n, a % n;
    assert (q - q0) * n == r0 - r;
    if q > q0 {
      assert (q - q0) * n >= n by { MulAtLeast(q - q0, n); }
    } else if q < q0 {
      assert (q0 - q) * n >= n by { MulAtLeast(q0 - q, n); }
    }
  }
}

=== FILE: vk.dfy ===
/** Vocabulary shared by every wrapper: opaque native handles, result codes,
    the (count, pointer) pairs native create-infos carry, and the errors the
    wrappers raise. */
module Vk {
  import opened Wrappers

  /** An unsigned 32-bit value, the width of most native counts and flags. */
  newtype u32 = x: int | 0 <= x < 0x1_0000_0000

  const UINT32_MAX: int := 0xFFFF_FFFF
  const UINT64_MAX: int := 0xFFFF_FFFF_FFFF_FFFF

  /** An opaque native handle; 0 plays the part of VK_NULL_HANDLE. */
  type Handle = nat

  const NULL_HANDLE: Handle := 0

  /** A native result code; only VK_SUCCESS (0) counts as success. */
  type VkResult = int

  const VK_SUCCESS: VkResult := 0

  /** The error raised by a failed native call, carrying the call's name. */
  datatype Error =
    | CallFailed(call: string)
    | NoSuitableDevice
    | NoSuitableMemoryType
    | SwapchainUnavailable
    | UnknownBlendOp

  /** A pointer field of a native struct: null, or the address of an array. */
  datatype Ptr<T> = Null | Points(data: seq<T>)

  /** A `(count, pointer)` pair of a native create-info struct. */
  datatype NativeArray<T> = NativeArray(count: nat, ptr: Ptr<T>)

  /** What the driver reads from a (count, pointer) pair: nothing when the count
      is 0, otherwise the first `count` elements behind a non-null pointer. */
  function Read<T>(a: NativeArray<T>): Option<seq<T>> {
    if a.count == 0 then Some([])
    else match a.ptr
      case Null => None
      case Points(d) => if a.count <= |d| then Some(d[..a.count]) else None
  }

  /** `v.data()` of a vector: the null pointer for an empty one (as the
      common standard libraries do for a vector that never allocated), the
      address of its elements otherwise. */
  function Data<T>(xs: seq<T>): Ptr<T> {
    if |xs| == 0 then Null else Points(xs)
  }

  /** `(uint32_t)v.size(), v.data()` for a vector `v`. */
  function FromVector<T>(xs: seq<T>): (a: NativeArray<T>)
    ensures Read(a) == Some(xs)
    ensures a.count == |xs|
    ensures a.ptr.Null? <==> |xs| == 0
  {
    assert xs[..|xs|] == xs;
    NativeArray(|xs|, Data(xs))
  }
}

=== FILE: vk_model.dfy ===
/** `VkModel`: uploads a loaded model to the device. Each mesh gets five
    buffers (positions, colours, normals, first UV channel, indices). Each
    material gets three texture stacks (ambient, diffuse, specular), whose
    images come from a cache keyed by path, so every texture file is loaded
    and uploaded at most once. */
module VkModel {
  import opened Wrappers
  import opened Vk
  import Buffer
  import ExtModel

  // ---------------------------------------------------------------------------
  // Mesh buffers

  const UNIFORM_BUFFER_BIT: nat := 0x10
  const TRANSFER_DST_BIT: nat := 0x2
  const SHARING_MODE_CONCURRENT: nat := 1

  /** Element sizes: `glm::vec3`, `glm::vec2`, `uint32_t`. */
  const VEC3_BYTES: nat := 12
  const VEC2_BYTES: nat := 8
  const INDEX_BYTES: nat := 4

  /** The create-info of one mesh buffer holding `size` bytes: usable as a
      uniform buffer and as a transfer target, shared by the graphics and
      transfer families. */
  function MeshBuffer(size: nat, graphicsFamily: nat, transferFamily: nat): Buffer.CreateInfo {
    Buffer.CreateInfo(size, UNIFORM_BUFFER_BIT + TRANSFER_DST_BIT, SHARING_MODE_CONCURRENT,
                      [graphicsFamily, transferFamily])
  }

  /** The buffers of one mesh, in the order pos, color, normal, texCoord0,
      index. The first UV channel is read unconditionally, so the mesh must
      have one. */
  function MeshBuffers(m: ExtModel.Mesh, graphicsFamily: nat, transferFamily: nat): (bs: seq<Buffer.CreateInfo>)
    requires |m.texCoord| >= 1
    ensures |bs| == 5
    ensures forall i :: 0 <= i < 5 ==>
      bs[i].usage == UNIFORM_BUFFER_BIT + TRANSFER_DST_BIT && bs[i].sharingMode == SHARING_MODE_CONCURRENT &&
      bs[i].queueFamilyIndices == [graphicsFamily, transferFamily]
  {
    [MeshBuffer(|m.pos| * VEC3_BYTES, graphicsFamily, transferFamily),
     MeshBuffer(|m.color| * VEC3_BYTES, graphicsFamily, transferFamily),
     MeshBuffer(|m.normal| * VEC3_BYTES, graphicsFamily, transferFamily),
     MeshBuffer(|m.texCoord[0]| * VEC2_BYTES, graphicsFamily, transferFamily),
     MeshBuffer(|m.indices| * INDEX_BYTES, graphicsFamily, transferFamily)]
  }

  /** The mesh loop: one buffer set per mesh, in order. */
  function MeshesBuffers(ms: seq<ExtModel.Mesh>, graphicsFamily: nat, transferFamily: nat): (r: seq<seq<Buffer.CreateInfo>>)
    requires forall m :: m in ms ==> |m.texCoord| >= 1
    ensures |r| == |ms|
    ensures forall i :: 0 <= i < |ms| ==> r[i] == MeshBuffers(ms[i], graphicsFamily, transferFamily)
  {
    seq(|ms|, i requires 0 <= i < |ms| => MeshBuffers(ms[i], graphicsFamily, transferFamily))
  }

  /** A mesh imported without UV channels is copied with no texture
      coordinates at all, so it does not meet `MeshBuffers`' requirement: the
      unconditional read of the first channel is out of range. */
  lemma UVlessMeshHasNoFirstChannel(m: ExtModel.ImportedMesh)
    requires ExtModel.WellFormed(m) && |m.uvChannels| == 0
    ensures !(|ExtModel.CopyMesh(m).texCoord| >= 1)
  {}

  /** The evidently intended buffers of one mesh: a missing UV channel gives
      an empty texture-coordinate buffer, as a missing colour or normal array
      gives an empty buffer; a mesh with a channel gets `MeshBuffers`. */
  function MeshBuffersChecked(m: ExtModel.Mesh, graphicsFamily: nat, transferFamily: nat): (bs: seq<Buffer.CreateInfo>)
    ensures |m.texCoord| >= 1 ==> bs == MeshBuffers(m, graphicsFamily, transferFamily)
    ensures |m.texCoord| == 0 ==> bs == MeshBuffers(m.(texCoord := [[]]), graphicsFamily, transferFamily)
    ensures |bs| == 5 && (|m.texCoord| == 0 ==> bs[3].size == 0)
  {
    var uvBytes := if |m.texCoord| == 0 then 0 else |m.texCoord[0]| * VEC2_BYTES;
    [MeshBuffer(|m.pos| * VEC3_BYTES, graphicsFamily, transferFamily),
     MeshBuffer(|m.color| * VEC3_BYTES, graphicsFamily, transferFamily),
     MeshBuffer(|m.normal| * VEC3_BYTES, graphicsFamily, transferFamily),
     MeshBuffer(uvBytes, graphicsFamily, transferFamily),
     MeshBuffer(|m.indices| * INDEX_BYTES, graphicsFamily, transferFamily)]
  }

  /** The mesh loop with the corrected buffers: defined for every mesh, and
      equal to `MeshesBuffers` wherever that is. */
  function MeshesBuffersChecked(ms: seq<ExtModel.Mesh>, graphicsFamily: nat, transferFamily: nat): (r: seq<seq<Buffer.CreateInfo>>)
    ensures |r| == |ms|
    ensures forall i :: 0 <= i < |ms| ==> r[i] == MeshBuffersChecked(ms[i], graphicsFamily, transferFamily)
    ensures (forall m :: m in ms ==> |m.texCoord| >= 1) ==> r == MeshesBuffers(ms, graphicsFamily, transferFamily)
  {
    seq(|ms|, i requires 0 <= i < |ms| => MeshBuffersChecked(ms[i], graphicsFamily, transferFamily))
  }

  /** For a mesh imported with colours, normals and a UV channel, every vertex
      buffer is sized for one element per vertex and the index buffer for
      three indices per face. */
  lemma ImportedMeshBufferSizes(m: ExtModel.ImportedMesh, g: nat, t: nat)
    requires ExtModel.WellFormed(m)
    requires m.colors.Some? && m.normals.Some? && |m.uvChannels| >= 1
    ensures var bs := MeshBuffers(ExtModel.CopyMesh(m), g, t); var n := |m.vertices|;
      bs[0].size == 12 * n && bs[1].size == 12 * n && bs[2].size == 12 * n && bs[3].size == 8 * n &&
      bs[4].size == 12 * |m.faces|
  {}

  // ---------------------------------------------------------------------------
  // The texture cache

  /** Where a cached image's pixels come from: the built-in missing texture or
      a file. */
  datatype TexSource = Missing | File(path: string)

  /** The empty path names the built-in missing texture; any other path is a
      file. */
  function Source(path: string): TexSource {
    if path == "" then Missing else File(path)
  }

  /** `texImages` and, in order, the paths whose images were loaded and
      uploaded. */
  datatype Cache = Cache(images: map<string, TexSource>, loads: seq<string>)

  const EmptyCache: Cache := Cache(map[], [])

  /** The cache holds exactly the loaded paths, each loaded once and holding
      its own source. */
  ghost predicate CacheInv(c: Cache) {
    && (forall p :: p in c.images <==> p in c.loads)
    && (forall p :: p in c.images ==> c.images[p] == Source(p))
    && (forall i, j :: 0 <= i < j < |c.loads| ==> c.loads[i] != c.loads[j])
  }

  /** `getTexImage(path)`: the cached image, or a freshly loaded and uploaded
      one stored under the path. */
  function GetTexImage(c: Cache, path: string): (r: (Cache, TexSource))
    requires CacheInv(c)
    ensures CacheInv(r.0)
    ensures r.1 == Source(path) && path in r.0.images
    ensures path in c.images ==> r.0 == c
    ensures path !in c.images ==> r.0.loads == c.loads + [path] && r.0.images == c.images[path := Source(path)]
  {
    if path in c.images then (c, c.images[path])
    else
      var loads := c.loads + [path];
      assert path !in c.loads;
      (Cache(c.images[path := Source(path)], loads), Source(path))
  }

  /** A second lookup of a path loads nothing. */
  lemma SecondLookupIsCached(c: Cache, path: string)
    requires CacheInv(c)
    ensures var first := GetTexImage(c, path);
      GetTexImage(first.0, path) == (first.0, first.1)
  {}

  // ---------------------------------------------------------------------------
  // Materials

  const ACTION_MULTIPLY: int := 0  // aiTextureOp_Multiply
  const ACTION_ADD: int := 1       // aiTextureOp_Add
  const BLEND_OP_MUL: int := 0
  const BLEND_OP_ADD: int := 1

  /** The blend-op switch: Multiply and Add are mapped, any other operation
      throws. */
  function BlendOp(op: int): (r: Result<int, Error>)
    ensures r.Success? <==> op == ACTION_MULTIPLY || op == ACTION_ADD
    ensures op == ACTION_MULTIPLY ==> r == Success(BLEND_OP_MUL)
    ensures op == ACTION_ADD ==> r == Success(BLEND_OP_ADD)
    ensures r.Failure? ==> r.error == UnknownBlendOp
  {
    if op == ACTION_MULTIPLY then Success(BLEND_OP_MUL)
    else if op == ACTION_ADD then Success(BLEND_OP_ADD)
    else Failure(UnknownBlendOp)
  }

  /** `VkTexStack`; the blend fields stay unset when the stack has no layer. */
  datatype VkTexStack = VkTexStack(color: ExtModel.Color4, texIndex: int, blendOp: Option<int>, blendFactor: Option<real>)

  /** Whether a stack can be uploaded: no layers, or a first layer whose
      operation the switch knows. */
  predicate StackOk(s: ExtModel.TextureStack) {
    |s.layers| == 0 || s.layers[0].op == ACTION_MULTIPLY || s.layers[0].op == ACTION_ADD
  }

  /** The path whose image a stack ends up using: its first layer's, or the
      empty path (the missing texture) when it has none. */
  function StackPath(s: ExtModel.TextureStack): string {
    if |s.layers| == 0 then "" else s.layers[0].texPath
  }

  /** The loop body for one stack: the colour is copied, `texIndex` is -1, the
      missing texture is fetched first, and only the first layer (if any) is
      used. */
  function ResolveStack(c: Cache, s: ExtModel.TextureStack): (r: Result<(Cache, VkTexStack, TexSource), Error>)
    requires CacheInv(c)
    ensures r.Success? <==> StackOk(s)
    ensures r.Success? ==> var (c', st, img) := r.value;
      && CacheInv(c') && c.loads <= c'.loads && "" in c'.images
      && img == Source(StackPath(s))
      && st.color == s.baseColor && st.texIndex == -1
      && (|s.layers| == 0 <==> st.blendOp.None?)
      && (|s.layers| > 0 ==> st.blendFactor == Some(s.layers[0].blend))
  {
    var (c1, missing) := GetTexImage(c, "");
    if |s.layers| == 0 then
      Success((c1, VkTexStack(s.baseColor, -1, None, None), missing))
    else
      var layer := s.layers[0];
      var op :- BlendOp(layer.op);
      var (c2, img) := GetTexImage(c1, layer.texPath);
      Success((c2, VkTexStack(s.baseColor, -1, Some(op), Some(layer.blend)), img))
  }

  /** `VkMaterial`: the ambient, diffuse and specular stacks with their
      images, and the shininess. */
  datatype VkMaterial = VkMaterial(ambient: (VkTexStack, TexSource), diffuse: (VkTexStack, TexSource),
                                   specular: (VkTexStack, TexSource), shininess: real)

  predicate MaterialOk(m: ExtModel.Material) {
    StackOk(m.ambient) && StackOk(m.diffuse) && StackOk(m.specular)
  }

  /** One material: its three stacks in the order ambient, diffuse, specular. */
  function LoadMaterial(c: Cache, m: ExtModel.Material): (r: Result<(Cache, VkMaterial), Error>)
    requires CacheInv(c)
    ensures r.Success? <==> MaterialOk(m)
    ensures r.Success? ==> var (c', vm) := r.value;
      && CacheInv(c') && c.loads <= c'.loads && "" in c'.images
      && vm.ambient.1 == Source(StackPath(m.ambient))
      && vm.diffuse.1 == Source(StackPath(m.diffuse))
      && vm.specular.1 == Source(StackPath(m.specular))
      && vm.shininess == m.shininess
  {
    var (c1, a, ai) :- ResolveStack(c, m.ambient);
    var (c2, d, di) :- ResolveStack(c1, m.diffuse);
    var (c3, s, si) :- ResolveStack(c2, m.specular);
    Success((c3, VkMaterial((a, ai), (d, di), (s, si), m.shininess)))
  }

  /** Every material of a non-empty list can be uploaded iff the first one
      and every later one can. */
  lemma AllOkSplit(ms: seq<ExtModel.Material>)
    requires |ms| > 0
    ensures (forall m :: m in ms ==> MaterialOk(m)) <==>
      MaterialOk(ms[0]) && forall m :: m in ms[1..] ==> MaterialOk(m)
  {
    assert forall m :: m in ms <==> m == ms[0] || m in ms[1..];
  }

  /** Prepending the first material's upload to the rest's keeps each
      diffuse image paired with its own material. */
  lemma DiffuseCons(vm: VkMaterial, rest: seq<VkMaterial>, ms: seq<ExtModel.Material>)
    requires |ms| == |rest| + 1 && vm.diffuse.1 == Source(StackPath(ms[0].diffuse))
    requires forall i :: 0 <= i < |rest| ==> rest[i].diffuse.1 == Source(StackPath(ms[1..][i].diffuse))
    ensures forall i :: 0 <= i < |ms| ==> ([vm] + rest)[i].diffuse.1 == Source(StackPath(ms[i].diffuse))
  {
    forall i | 0 <= i < |ms|
      ensures ([vm] + rest)[i].diffuse.1 == Source(StackPath(ms[i].diffuse))
    {
      if i > 0 {
        assert ([vm] + rest)[i] == rest[i - 1];
        assert ms[1..][i - 1] == ms[i];
      }
    }
  }

  /** The material loop: one `VkMaterial` per material, in order, sharing one
      cache; the first unknown blend operation aborts the whole model. */
  function LoadMaterials(c: Cache, ms: seq<ExtModel.Material>): (r: Result<(Cache, seq<VkMaterial>), Error>)
    requires CacheInv(c)
    ensures r.Success? <==> forall m :: m in ms ==> MaterialOk(m)
    ensures r.Success? ==> var (c', vms) := r.value;
      && CacheInv(c') && c.loads <= c'.loads
      && |vms| == |ms|
      && (forall i :: 0 <= i < |ms| ==> vms[i].diffuse.1 == Source(StackPath(ms[i].diffuse)))
      && (|ms| > 0 ==> "" in c'.images)
    decreases |ms|
  {
    if |ms| == 0 then Success((c, []))
    else
      AllOkSplit(ms);
      var first := LoadMaterial(c, ms[0]);
      if first.Failure? then Failure(first.error)
      else
        var (c1, vm) := first.value;
        var more := LoadMaterials(c1, ms[1..]);
        if more.Failure? then Failure(more.error)
        else
          var (c2, rest) := more.value;
          DiffuseCons(vm, rest, ms);
          Success((c2, [vm] + rest))
  }

  /** As written, the TEXBLEND factor of a material's first ambient texture
      reaches the blend-op switch as the layer's operation, truncated toward
      zero: the stack passes the switch exactly when the factor lies strictly
      between -1 and 2, as Multiply below 1 and as Add from 1 on, whatever
      TEXOP says. */
  lemma AsWrittenFactorPicksOp(dir: string, p: ExtModel.MaterialProps)
    requires |p.ambient.layers| > 0 && p.ambient.layers[0].texBlend.Some?
    ensures var b := p.ambient.layers[0].texBlend.value;
      var s := ExtModel.LoadMaterial(dir, p).ambient;
      && |s.layers| > 0
      && (StackOk(s) <==> -1.0 < b < 2.0)
      && (-1.0 < b < 1.0 ==> BlendOp(s.layers[0].op) == Success(BLEND_OP_MUL))
      && (1.0 <= b < 2.0 ==> BlendOp(s.layers[0].op) == Success(BLEND_OP_ADD))
  {
    var s := ExtModel.LoadMaterial(dir, p).ambient;
    assert s.layers[0] == ExtModel.LoadLayerAsWritten(dir, p.ambient.layers[0]);
  }

  /** A first ambient TEXBLEND factor at or below -1, or at or above 2,
      truncates to an operation the switch does not know, and the whole
      upload fails. */
  lemma AsWrittenBlendFactorAborts(dir: string, p: ExtModel.MaterialProps)
    requires |p.ambient.layers| > 0 && p.ambient.layers[0].texBlend.Some?
    requires p.ambient.layers[0].texBlend.value <= -1.0 || 2.0 <= p.ambient.layers[0].texBlend.value
    ensures LoadMaterials(EmptyCache, [ExtModel.LoadMaterial(dir, p)]).Failure?
  {
    var m := ExtModel.LoadMaterial(dir, p);
    AsWrittenFactorPicksOp(dir, p);
    assert m in [m] && !MaterialOk(m);
  }

  /** A stack whose first texture's TEXOP the switch knows (or that has no
      texture). */
  predicate FirstOpKnown(sp: ExtModel.StackProps) {
    |sp.layers| == 0 || ExtModel.Get(sp.layers[0].texOp, 0) == ACTION_MULTIPLY ||
    ExtModel.Get(sp.layers[0].texOp, 0) == ACTION_ADD
  }

  /** With the corrected reading only TEXOP decides: whatever the blend
      factors, a material whose ambient, diffuse and specular operations are
      known uploads. */
  lemma CorrectedIgnoresBlendFactor(dir: string, p: ExtModel.MaterialProps)
    requires FirstOpKnown(p.ambient) && FirstOpKnown(p.diffuse) && FirstOpKnown(p.specular)
    ensures LoadMaterials(EmptyCache, [ExtModel.LoadMaterialCorrected(dir, p)]).Success?
  {
    var m := ExtModel.LoadMaterialCorrected(dir, p);
    assert MaterialOk(m);
    assert forall x :: x in [m] ==> x == m;
  }

  /** The whole upload, starting from an empty cache: every texture path is
      loaded at most once, the missing texture is loaded as soon as there is
      a material, and the model fails exactly when some material's first
      layer has an operation other than Multiply or Add. */
  lemma {:induction false} EachTextureLoadedOnce(ms: seq<ExtModel.Material>)
    ensures var r := LoadMaterials(EmptyCache, ms);
      && (r.Success? <==> forall m :: m in ms ==> MaterialOk(m))
      && (r.Success? ==> var loads := r.value.0.loads;
            && (forall i, j :: 0 <= i < j < |loads| ==> loads[i] != loads[j])
            && (|ms| > 0 ==> "" in loads))
  {
    var r := LoadMaterials(EmptyCache, ms);
    if r.Success? {
      assert CacheInv(r.value.0);
    }
  }
}

=== FILE: wrappers.dfy ===
/** Failure-compatible wrappers used by every module of the model. A thrown
    std::runtime_error in the C++ code becomes a Failure value here. */
module Wrappers {

  datatype Option<+T> = None | Some(value: T) {

    predicate IsFailure() {
      None?
    }

    function PropagateFailure<U>(): Option<U>
      requires None?
    {
      None
    }

    function Extract(): T
      requires Some?
    {
      value
    }

    /** `std::optional::value_or`. */
    function GetOr(default: T): T {
      match this
      case Some(v) => v
      case None => default
    }
  }

  datatype Result<+R, +E> = Success(value: R) | Failure(error: E) {

    predicate IsFailure() {
      Failure?
    }

    function PropagateFailure<U>(): Result<U, E>
      requires Failure?
    {
      Failure(error)
    }

    function Extract(): R
      requires Success?
    {
      value
    }
  }
}
